=== FILE: README.md ===
# go-chat in Dafny

A model of the deterministic rules inside go-chat, a small chat
application with a Go backend and a React client. It covers:

- **Connection registry and client lifecycle** (`WebSocket`,
  `LegacyWebSocket`). The registry is a map from id to client. Each client
  has a read loop and a write loop, and each goroutine step is an explicit
  event. The close codes are 1000 and 1006 from section 7.4.1 of RFC 6455.
  A Go panic is recorded in the client state and ends all further steps.
  In the legacy registry a panic in any goroutine ends the process.
- **Chat frames** (`ChatFrames`, `ChatHubs`). A frame is admitted if it
  decodes, has `channel_id > 0` and carries at most 1000 bytes. The
  broadcast record is then built. The backend keeps one outgoing channel
  per user and replaces it on reconnect. The earlier handler keeps a list
  that only grows. The admission code of `internal/server/routes.go`
  (681-710) is the same as the backend's, so one model covers both.
- **Ids, sessions and request helpers** (`Ids`, `Sessions`, `Requests`).
  These are `ParseIntToID`, `ParseStringToID`, `parsePathFromID`, the
  `validSession` versions, the `count` query rule, the server-name rule,
  and the helpers that turn a request into a server or channel.
- **Pure rules of the store** (`Database`). These are:
  - salt-append password hashing;
  - the `"salt"`/`"token"` + decimal id formats;
  - the zero-id and negative-row-id guards;
  - the one-row lookup rule and the last-row rule of `GetServer`/`GetMessage`.

  A query is abstracted to the sequence of rows it yields.
  `oldcode/internal/database/database.go`, which the first server calls,
  follows the same rules line for line, so the same members model it:
  - the one-row lookup rule (`SelectSingle`) at lines 15-30, 49-64, 73-88 and 204-219;
  - the token format (`TokenFor`) at line 34;
  - the negative-row-id guard (`CheckInsertId`) at lines 100-102 and 192-194;
  - `AddMessage` with its zero-id guard at lines 243-257;
  - `GetMessage`'s last-row rule at lines 226-240. That SELECT has no server
    column either.
- **The first server** (`OldServer`). Its password check, connection
  numbering, handler turn and broadcaster.
- **The React client** (`Api`, `Stores`, `Auth`, `ServerPage`,
  `MessageView`). It covers the response transformations, the zustand
  stores, the auth context, message grouping and redirects on the server
  page, and the `MessageData` constructor.
  `frontend/src/store/store.ts` repeats `addMessage` and `removeMessage`
  of `message_store.ts` word for word, so `Stores` models both.
  The channel store's `setChannels` (`Stores.SetChannels`) replaces the
  list and does nothing else, so it has no row of its own. `Api.ToIcon` is
  the per-element mapping that `Api.FetchChannels` states.

Supporting modules:
- `Wrappers` holds `Option` and `Result`.
- `Bytes` holds Go strings as byte sequences, so `len` counts bytes.
- `Decimal` holds `strconv.Atoi` and `FormatUint`, plus JavaScript's
  integer-to-string.
- `Seqs` holds order-preserving filters.
- `Sorting` holds a stable sort by key, as `Array.prototype.sort` is since
  ES2019.

Effects become data:
- Store calls, clock readings, `parseInt`, date rendering, generated uuids
  and queue readiness are parameters.
- Handlers return the store calls they make. So "no store call" is part of
  a contract.
- Go map iteration order is unspecified, so a broadcast over a map is a
  set of recipients.

## Model

| member | source | states |
|---|---|---|
| Decimal.FormatUint | internal/database/database.go:238 | The decimal spelling of an id is non-empty and all digits. It denotes exactly that number and has no leading zero unless the number is 0. |
| Decimal.FormatUintInjective | internal/database/database.go:238 | Distinct ids have distinct spellings. |
| Decimal.AtoiFormatUint | backend/internal/database/types.go:17-22 | `strconv.Atoi` reads back every spelling `FormatUint` writes, for numbers up to the int64 maximum. |
| Decimal.ParseUint | oldcode/cmd/server/main.go:235-239 | `strconv.ParseUint(s, 10, 64)` succeeds exactly on a non-empty all-digit text whose value fits 64 bits, and returns that value. It is a range error exactly when the leading run of digits already exceeds 64 bits, even if a non-digit follows. Every other failure is a syntax error. |
| Decimal.Atoi | backend/internal/database/types.go:17-22 | A result fits int64 and needs a non-empty text. `Atoi` succeeds exactly when the unsigned scan after an optional sign succeeds and the signed value fits int64. A scan error is passed on with its kind. |
| Decimal.AtoiRejectsNonDigit | backend/internal/database/types.go:18-21 | A non-digit after the optional sign always makes `Atoi` fail. The failure is a range error exactly when the digits before it already exceed 64 bits, and a syntax error otherwise. |
| Decimal.AtoiRangeBeforeSyntax | backend/internal/database/types.go:18-21 | A run of digits above 2^64-1 followed by a non-digit is a range error, not a syntax error. |
| Decimal.AtoiOverflowThenLetter | backend/internal/database/types.go:18-21 | For instance, 18446744073709551616 followed by "x" is a range error. |
| Decimal.JsIntString | frontend/src/api/serverApi.ts:36 | `"" + n` is the decimal spelling of n: the digits `FormatUint` writes for the magnitude of n, after a '-' exactly when n is negative. |
| Decimal.JsIntStringInjective | frontend/src/api/serverApi.ts:36 | Distinct integers are written differently, so `"User" + n` tells user ids apart. |
| Seqs.Reject | frontend/src/store/message_store.ts:47 | `filter(x => key(x) !== k)` keeps only elements whose key differs. It keeps every such element and never grows the list. |
| Seqs.RejectConcat | frontend/src/store/message_store.ts:47 | Filtering distributes over concatenation, so it preserves relative order. |
| Seqs.RejectIdempotent | frontend/src/store/message_store.ts:47 | Filtering twice by the same key is filtering once. |
| Seqs.SelectRejectPartition | frontend/src/store/server_store.ts:27 | Every element is either kept or removed by the filter: the two multisets add up to the input. |
| Sorting.SortBy | frontend/src/api/serverApi.ts:47 | The comparator sort yields an ascending arrangement by key that is a permutation of the input. |
| Sorting.InsertSorted | frontend/src/api/serverApi.ts:47 | Insertion into a sorted list keeps it sorted. This is the inductive step of the sort. |
| Sorting.SortByKeeps | frontend/src/api/serverApi.ts:47 | Sorting only rearranges: a property of every input element holds of every output element. |
| Sorting.SortByStable | frontend/src/api/serverApi.ts:47 | Elements with the same key appear in the sorted result in their input order. |
| Sorting.SortByApply | frontend/src/api/serverApi.ts:47 | Sorting commutes with a map that keeps the key: mapping then sorting gives sorting then mapping. |
| Database.RightCancel | internal/database/database.go:121-127 | Appending the same salt to two passwords gives equal hashes only when the passwords are equal. |
| Database.ComparePasswordMeaning | internal/database/database.go:121-127 | `comparePassword` holds exactly when the stored hash is the password followed by the stored salt. |
| Database.HashThenCompare | internal/database/database.go:121-127 | Round trip: a login row holding `hashPassword(p, s)` and salt s accepts p. |
| Database.AtMostOnePassword | internal/database/database.go:121-127 | For a fixed hash and salt, at most one password is accepted. |
| Database.SaltFor | internal/database/database.go:359 | The salt is "salt" followed by digits that denote the user id. |
| Database.SaltInjective | internal/database/database.go:359 | Different users get different salts. |
| Database.TokenFor | internal/database/database.go:238 | The session token is "token" followed by digits that denote the user id. |
| Database.TokenInjective | internal/database/database.go:238 | Different users never share a token. |
| Database.TokenReadsBack | internal/database/database.go:238 | Stripping "token" and applying Atoi gives back the user id. |
| Database.CheckInsertId | internal/database/database.go:602-604 | A negative LastInsertId is `ErrNegativeRowIndex`. A non-negative one is the id. |
| Database.AddMessage | internal/database/database.go:585-606 | The INSERT runs exactly when both ids are non-zero. A zero id fails before the insert. A success returns the non-negative row id. A negative row id is `ErrNegativeRowIndex`. |
| Database.AddMessageSucceeds | internal/database/database.go:585-606 | AddMessage succeeds exactly when both ids are non-zero and the store reports a non-negative row id. It then returns that row id. |
| Database.CreateUser | internal/database/database.go:342-373 | A unique-constraint failure is `ErrRecordAlreadyExists` and a negative id is `ErrNegativeRowIndex`. Success needs both inserts. It stores salt "salt"+id and an empty token. |
| Database.CreatedUserValidates | internal/database/database.go:342-373 | The password given to CreateUser is accepted later, whatever token and expiry the row has by then. |
| Database.UpdateUserSessionToken | internal/database/database.go:237-250 | On success the token is "token"+id, which is never empty, and it expires 24 hours after now. It fails exactly when the UPDATE fails. |
| Database.SelectSingle | internal/database/database.go:213-235 | Zero rows gives `ErrNoRecord`, a second row gives `ErrMultipleRecords`, and a row that fails to scan is an error. Exactly one row gives that row. |
| Database.SelectSingleLoop | internal/database/database.go:219-234 | The counting loop computes the one-row rule above. |
| Database.LastRow | internal/database/database.go:544-555 | A non-counting lookup succeeds exactly when every row scans. It yields the last row, or the zero value when there are no rows. |
| Database.ScanAll | internal/database/database.go:545-554 | The scan loop keeps the last row scanned and stops at the first scan failure. |
| Database.LastRowDoesNotCount | internal/database/database.go:535-583 | GetServer and GetMessage answer zero rows with the zero value and two rows with the second. The counting rule answers the same inputs with errors. |
| Database.GetMessage | internal/database/database.go:558-583 | No row gives the zero Message and no error. Otherwise it gives the last row. The server id is always 0 because the SELECT has no server column. |
| Database.GetServer | internal/database/database.go:535-556 | The lookup succeeds exactly when the query runs and every row scans. No row gives the zero Server. Otherwise it gives the last row. |
| Ids.ParseIntToID | backend/internal/database/types.go:10-15 | Succeeds exactly for n > 0 and returns n. Every other n, 0 included, gives `ErrUnsupportedNegativeValue`. |
| Ids.ParseStringToID | backend/internal/database/types.go:17-23 | Unparsable text gives `ErrParsingValue`. Otherwise the result is `ParseIntToID` of the number, so any success is at least 1. |
| Ids.ParseStringToIDExamples | backend/internal/database/types.go:17-23 | "1" gives 1. "0" and "-1" are refused as non-positive, not as unparsable. "" is unparsable. |
| Ids.ParseStringToIDFormat | backend/internal/database/types.go:17-23 | Round trip: the decimal spelling of any positive id parses back to it. |
| Sessions.ValidSession | backend/internal/server/route_helpers.go:48-59 | An empty stored token or an expired one is never valid. Otherwise a session is valid exactly when the tokens are equal. |
| Sessions.OldValidSession | oldcode/cmd/server/main.go:105-110 | Expired is invalid. Otherwise validity is plain token equality, with no empty-token rule. |
| Sessions.ValidSessionRefinesOld | oldcode/cmd/server/main.go:105-110 | The current check implies the old one. They differ exactly when both tokens are empty and the session has not expired. |
| Sessions.IssuedTokenValidates | internal/database/database.go:237-250 | A freshly issued token is valid for the next 24 hours, and no other token is. |
| Sessions.UserIdFromContext | backend/internal/server/route_helpers.go:36-46 | Succeeds exactly when the context holds an `Id` under "userid", and returns it. |
| Requests.ParsePathFromID | backend/internal/server/route_helpers.go:24-34 | Unparsable text is one error and a number <= 0 (0 included) is the other. Otherwise it returns the number, which is at least 1. |
| Requests.ParsePathAgreesWithParseStringToID | backend/internal/server/route_helpers.go:24-34 | The path helper and `ParseStringToID` accept the same texts with the same ids. Their unparsable cases coincide. |
| Requests.ServerInformationId | internal/server/routes.go:449-456 | Only unparsable text is refused. A negative number wraps around as a 64-bit `uint`. |
| Requests.ServerInformationSkipsSignCheck | internal/server/routes.go:449-456 | "0" and "-1" reach the store as ids 0 and 2^64-1, where the checked handlers refuse them. |
| Requests.ServerInformationAgreesOnPositive | internal/server/routes.go:449-456 | On paths the checked handlers accept, both conversions give the same id. |
| Requests.MessageCount | internal/server/routes.go:493-507 | An absent count is 30 and an unparsable one is refused. A count <= 0 is refused. Otherwise the count is the parsed positive number. |
| Requests.MessageCountFormatUint | internal/server/routes.go:493-507 | A count written in decimal reads back as itself when positive. A written 0 is refused as invalid, not as unparsable. |
| Requests.CheckServerName | backend/internal/server/routes.go:925-932 | Accepted exactly when the name is 3 to 30 bytes. "Too long" is reported exactly for more than 30 bytes. |
| Requests.BackendRecordFromRequest | backend/internal/server/route_helpers.go:61-83 | A path that fails `parsePathFromID` gives "unable to parse" with no store lookup. Otherwise there is exactly one lookup of that id. A successful lookup gives its record, and a failed one gives "unable to locate server". |
| Requests.RecordFromRequest | internal/server/route_helpers.go:48-78 | An unparsable path and a non-positive path are distinct errors, neither reaching the store. A lookup happens exactly for positive ids. Then a successful lookup gives its record, and a failed one gives "unable to locate server". |
| Requests.RequestHelperVersionsAgree | internal/server/route_helpers.go:48-78 | Both helper versions make the same lookups and succeed on the same paths with the same record. |
| Requests.ServerFromChannel | internal/server/route_helpers.go:80-90 | A channel-lookup error is returned unchanged and there is no server lookup. Otherwise the result is the lookup of the channel's server id. |
| WebSocket.NewClient | backend/internal/websocket/websocket.go:32-51 | A new client has both loops running, nothing closed or cancelled, and nothing forwarded, written or closed yet. |
| WebSocket.Close | backend/internal/websocket/websocket.go:53-67 | A set flag gives an error and changes nothing. Otherwise close cancels, closes the receive queue and the transport, and never sets the flag. A second call panics on the closed receive queue. |
| WebSocket.CloseOnce | backend/internal/websocket/websocket.go:53-67 | Corrected close: the first call sets the flag, and later calls return the error untouched. |
| WebSocket.ReadStep | backend/internal/websocket/websocket.go:69-91 | Text and binary frames are forwarded unchanged, and other kinds are ignored. The cancellation closes with 1000 and any other error closes with 1006. The reader then stops. Forwarding to a closed queue panics. |
| WebSocket.WriteStep | backend/internal/websocket/websocket.go:93-111 | Cancellation stops the writer without closing. A closed send queue closes with 1000. A dequeued message is written as one text frame, and a failed write closes with 1006. |
| WebSocket.CloseSend | backend/internal/websocket/websocket.go:147 | Closing the send queue a second time panics. |
| WebSocket.CloseTwicePanics | backend/internal/websocket/websocket.go:53-67 | As written, CloseConnection, then the write loop's close, then the read loop's close panics after one transport close. |
| WebSocket.CloseOnceSameTrace | backend/internal/websocket/websocket.go:53-67 | The same events with the corrected close stop both loops after one close with 1000, and nothing panics. |
| WebSocket.StepKeepsCloseConsistent | backend/internal/websocket/websocket.go:53-67 | With the corrected close, each step keeps the flag, the receive queue and the transport-close count in step. |
| WebSocket.CorrectedNeverClosesTwice | backend/internal/websocket/websocket.go:53-67 | With the corrected close, no sequence of steps closes the receive queue twice or the transport more than once. |
| WebSocket.ForwardAfterClosePanics | backend/internal/websocket/websocket.go:83-89 | A frame read just before the write loop closes the receive queue is forwarded onto the closed queue and panics, under either close. |
| WebSocket.NewConnection | backend/internal/websocket/websocket.go:125-136 | Exactly the new id is bound to a new client with an incoming queue of capacity 100. Other entries are unchanged. |
| WebSocket.CloseConnection | backend/internal/websocket/websocket.go:138-149 | A registered id is deleted and its send queue closed. An unknown id changes nothing. |
| WebSocket.CloseConnectionTwice | backend/internal/websocket/websocket.go:138-149 | Repeating CloseConnection is a no-op. |
| WebSocket.SendToClient | backend/internal/websocket/websocket.go:151-165 | An unknown id is not found and a closed send queue panics. A registered client accepts exactly when its queue is open and its writer is running and waiting; otherwise the message is dropped. An accepted message is the write loop's dequeue of that same message. Otherwise the registry is unchanged. |
| WebSocket.NewConnectionValid | backend/internal/websocket/websocket.go:125-136 | Registration keeps every client filed under its own id with an open send queue. |
| WebSocket.CloseConnectionValid | backend/internal/websocket/websocket.go:138-149 | Deregistration keeps that invariant. |
| WebSocket.StepClientValid | backend/internal/websocket/websocket.go:93-111 | Loop steps keep that invariant: only CloseConnection closes a send queue, after unregistering the client. |
| WebSocket.SendNeverPanics | backend/internal/websocket/websocket.go:151-165 | In a valid registry SendToClient only answers not found, accepted or dropped. |
| WebSocket.AcceptedIsWritten | backend/internal/websocket/websocket.go:151-165 | A message SendToClient accepts is written as one text frame with the same bytes. No other client changes. |
| WebSocket.StoppedWriterDrops | backend/internal/websocket/websocket.go:159-165 | Once the writer has stopped, every send is dropped and nothing changes. |
| LegacyWebSocket.NewClient | backend/internal/server/websocket.go:25-42 | A new client has both loops running, nothing closed and nothing pending. |
| LegacyWebSocket.Close | backend/internal/server/websocket.go:44-49 | Close with 1000, cancel and close the receive queue, then send this id to deregister. There is no guard, so a second call panics. Closing while the read loop is blocked sending makes that send panic. After a panic no id is sent. |
| LegacyWebSocket.Exit | backend/internal/server/websocket.go:51-52 | A loop that returns runs its deferred close and stops only that loop. |
| LegacyWebSocket.ReadStep | backend/internal/server/websocket.go:51-74 | A cancelled context or a read error stops the reader and closes. A text or binary frame becomes a message with the client's id. The reader then blocks sending it, because nothing reads `receive`. While it is blocked, reads change nothing. |
| LegacyWebSocket.WriteStep | backend/internal/server/websocket.go:76-93 | Cancellation, a closed send queue and a failed write each stop the writer and close. A success appends the frame. |
| LegacyWebSocket.FirstFrameBlocksReader | backend/internal/server/websocket.go:64-71 | After the first text frame, the message waiting to be sent carries the client's id and payload. No later read changes anything. |
| LegacyWebSocket.CloseRunsTwice | backend/internal/server/websocket.go:44-49 | A read error closes and deregisters. The write loop then sees the cancellation and closes again, which panics. |
| LegacyWebSocket.Register | backend/internal/server/websocket.go:127-131 | A new client is filed under its id, replacing any earlier one. It waits while the mutex is held or once `Run` has stopped receiving. |
| LegacyWebSocket.Deregister | backend/internal/server/websocket.go:132-143 | A registered id is removed, the mutex released and the send queue closed. Then `Run` calls the client's close itself. If that close does not panic, it sends on the queue only `Run` reads, and `Run` stops receiving. As written, an unknown id leaves the mutex held; the corrected variant releases it. |
| LegacyWebSocket.CloseConnection | backend/internal/server/websocket.go:110-122 | The answer is whether the id was registered. The entry is deleted and the mutex released before the client's close runs. The id that close sends waits for `Run`. |
| LegacyWebSocket.CloseConnectionTwice | backend/internal/server/websocket.go:110-122 | A second CloseConnection for the same id answers false. |
| LegacyWebSocket.SendToClient | backend/internal/server/websocket.go:148-163 | An unknown id is not found. A hand-over is accepted exactly when the queue is open and the writer is waiting. |
| LegacyWebSocket.HubStep | backend/internal/server/websocket.go:124-146 | After a panic nothing changes. An event waits forever only on a held mutex or on a stalled `Run`. A registered client's read or write turn updates the registry's own client. |
| LegacyWebSocket.CloseConnectionDeadlocks | backend/internal/server/websocket.go:132-137 | As written, CloseConnection makes the client deregister an id already deleted, and the next lookup blocks forever. |
| LegacyWebSocket.CorrectedNeverBlocks | backend/internal/server/websocket.go:132-143 | With the corrected deregister, no event sequence leaves the mutex held or waits on it. |
| LegacyWebSocket.SelfCloseThenDeregisterPanics | backend/internal/server/websocket.go:44-49 | As written, a client whose read fails is closed again by `Run`'s deregister. Closing the receive queue a second time panics. |
| LegacyWebSocket.GuardedCloseNeverClosesTwice | backend/internal/server/websocket.go:44-49 | With the guarded close, no event sequence closes a registered client's receive queue twice or its transport more than once. No such panic occurs. |
| LegacyWebSocket.SelfCloseThenDeregisterGuarded | backend/internal/server/websocket.go:132-143 | With the guarded close, the same events end with the client removed and no panic. `Run` keeps serving with the mutex free. |
| LegacyWebSocket.ForwardedFramePanics | backend/internal/server/websocket.go:64-71 | Closing a client that has forwarded a frame panics, guarded or not, because nothing reads the receive queue. |
| LegacyWebSocket.ReplacedClientStallsRun | backend/internal/server/websocket.go:132-143 | A new client can take the id of one that closed itself. `Run` then deregisters the new client, and its close sends on `Run`'s own queue. After that, every registration waits forever. |
| ChatFrames.Admit | backend/internal/server/routes.go:1323-1352 | A frame that fails to decode, has channel 0 or exceeds 1000 bytes makes no store call. Otherwise AddMessage is called, and GetMessage only if it succeeds. A frame is accepted exactly when both succeed, with AddMessage's id and GetMessage's record. |
| ChatFrames.AdmitLengthBoundary | backend/internal/server/routes.go:1339-1342 | A 1000-byte message reaches the store and a 1001-byte one does not. |
| ChatFrames.AdmitDefaults | backend/internal/server/routes.go:1323-1329 | Absent fields default to "" and 0. A frame without a channel is skipped; one without a message stores "". |
| ChatFrames.BackendMessage | backend/internal/server/routes.go:1354-1361 | The broadcast takes its message id from AddMessage. User, channel, server, text and date come from the stored record. |
| ChatFrames.InternalMessage | internal/server/routes.go:712-719 | The same, plus the sender's user name and no server id. |
| ChatFrames.FromDBMessage | internal/server/routes_transforms.go:9-17 | Ids and text are copied from the record. The server id stays 0. The date depends on the timestamp alone. |
| ChatFrames.FromDBMessageDateOnlyFromTimestamp | internal/server/routes_transforms.go:15 | Records with equal timestamps get equal dates. |
| ChatFrames.BroadcastMatchesTransform | backend/internal/server/routes.go:1354-1361 | With internal/database's GetMessage, every broadcast has server id 0. The broadcast equals the transform of the record, with AddMessage's id. |
| ChatFrames.AcceptedOne | backend/internal/server/routes.go:1330-1362 | One successful read contributes at most one broadcast record, exactly when its frame is admitted. A malformed frame contributes nothing. |
| ChatFrames.ReadLoop | backend/internal/server/routes.go:1306-1363 | The loop reads until the first failed read and skips failing frames. It broadcasts exactly the accepted frames of the reads before that, in order. |
| ChatFrames.SkippedFrameIsTransparent | backend/internal/server/routes.go:1330-1342 | Inserting a skipped frame anywhere does not change what is broadcast. |
| ChatHubs.Connect | backend/internal/server/routes.go:1287-1292 | The user's earlier channel, if any, is closed. A new channel is filed under the user. |
| ChatHubs.DisconnectByUser | backend/internal/server/routes.go:1293-1299 | As written, exit cleanup closes and deletes whatever channel is filed under the user id. |
| ChatHubs.DisconnectOwn | backend/internal/server/routes.go:1293-1299 | Corrected cleanup: only the handler's own channel is closed and deleted; otherwise nothing changes. |
| ChatHubs.ConnectValid | backend/internal/server/routes.go:1287-1292 | Connecting keeps every registered channel open, made by the hub and owned by one user. |
| ChatHubs.DisconnectByUserValid | backend/internal/server/routes.go:1293-1299 | The as-written cleanup keeps that invariant. |
| ChatHubs.DisconnectOwnValid | backend/internal/server/routes.go:1293-1299 | The corrected cleanup keeps that invariant. |
| ChatHubs.StaleCleanupDropsNewConnection | backend/internal/server/routes.go:1287-1299 | As written, after a reconnect the old handler's exit closes and unregisters the new connection's channel. |
| ChatHubs.OwnCleanupKeepsLiveConnection | backend/internal/server/routes.go:1293-1299 | With the corrected cleanup, a registered channel stays registered and open whatever other handler exits. |
| ChatHubs.ReconnectThenStaleExit | backend/internal/server/routes.go:1287-1299 | In the reconnect scenario the corrected cleanup leaves the new channel in place. |
| ChatHubs.Recipients | backend/internal/server/routes.go:1368-1375 | A broadcast goes to exactly the channels in `clients`, the author's included. |
| ChatHubs.RecipientsOnePerUser | backend/internal/server/routes.go:1368-1375 | In a valid hub each registered user receives exactly once. |
| ChatHubs.RecipientsAreOpen | backend/internal/server/routes.go:1368-1375 | In a valid hub nothing is sent on a closed channel. |
| ChatHubs.ConnectList | internal/server/routes.go:656-658 | A connection appends one channel and keeps the list before it. |
| ChatHubs.ConnectListNumbered | internal/server/routes.go:656-658 | Each connection's channel is new to the list. |
| ChatHubs.ListOnlyGrows | internal/server/routes.go:656-658 | After any number of connections the old list is a prefix of the new one. |
| ChatHubs.Deliveries | internal/server/routes.go:724-731 | Each message goes to every channel of the list, in list order. |
| OldServer.ComparePasswordIsEquality | oldcode/cmd/server/main.go:101-103 | The old check is plain equality with the stored hash, because the salt is appended to both sides. |
| OldServer.Connect | oldcode/cmd/server/main.go:213-214 | A new connection is numbered `len(clients)+1`. Other entries are unchanged. |
| OldServer.Drop | oldcode/cmd/server/main.go:220-224 | A read error deletes the connection. |
| OldServer.NumbersRepeat | oldcode/cmd/server/main.go:213-214 | Numbers are not identities: after a disconnect, a new connection gets the number of one still open. |
| OldServer.ParseUintRejectsSign | oldcode/cmd/server/main.go:235-239 | A signed user id is refused. |
| OldServer.HandleRead | oldcode/cmd/server/main.go:216-265 | A read error returns and deletes the connection; every other failure returns and keeps it. It broadcasts exactly when every step succeeds. The broadcast carries the looked-up user and the stored record. |
| OldServer.HandleReadMatchesInternalMessage | oldcode/cmd/server/main.go:246-264 | When the store answers consistently, the old broadcast record has the same fields as the current handler's record for the same stored message. |
| OldServer.BroadcastOnce | oldcode/cmd/server/main.go:268-281 | Every connection is written to. Exactly the failed ones are removed and the rest keep their numbers. |
| OldServer.BroadcastSettles | oldcode/cmd/server/main.go:272-279 | With the same write outcomes, a second broadcast removes nothing more. |
| Api.DisplayName | frontend/src/api/serverApi.ts:36 | The name is the username when present and non-empty; otherwise "User" followed by the id. It is never empty. |
| Api.ToEntry | frontend/src/api/serverApi.ts:37-44 | Ids, text and author id are copied, the date is parsed from its text, and the author is the display name. |
| Api.MapEntries | frontend/src/api/serverApi.ts:35-45 | The messages are mapped element by element. |
| Api.FetchServerMessages | frontend/src/api/serverApi.ts:30-47 | A non-ok response is an error carrying the status text. A `null` message list makes `.map` throw. Otherwise the result is the mapped messages sorted ascending by message id, as a permutation. |
| Api.FetchServerMessagesStable | frontend/src/api/serverApi.ts:47 | Messages with the same id keep their server order. |
| Api.MapIcons | frontend/src/api/serverApi.ts:67-71 | The channels are mapped element by element. |
| Api.FetchChannels | frontend/src/api/serverApi.ts:62-73 | A non-ok response is an error. Otherwise the icons are sorted by id, as a permutation, and none has an image. |
| Api.ApiRequest | frontend/src/api/index.ts:13-28 | The URL is "/api" + endpoint. The caller's fields override the defaults. The headers are the union, with the caller's header winning per name. |
| Api.ApiRequestKeepsContentType | frontend/src/api/index.ts:21-28 | Unless the caller sets it, the JSON content type is always sent. |
| Api.ApiResult | frontend/src/api/index.ts:30-34 | Data is returned exactly when the response is ok. |
| Api.WithUserName | frontend/src/api/index.ts:58-61 | Only the user name is filled in. A non-empty name stays as it was. |
| Api.FetchMessages | frontend/src/api/index.ts:56-63 | A non-ok response is an error carrying the status text, and a `null` message list makes `.map` throw. On success the result is a permutation of the received messages with their user names filled in, each name non-empty, sorted by id. |
| Api.FetchMessagesAgreesWithFetchServerMessages | frontend/src/api/index.ts:56-63 | The two fetchers fail on the same responses. `fetchServerMessages` returns exactly the messages of `fetchMessages`, converted one by one and in the same order. Each entry's author is the user name `fetchMessages` filled in. |
| Api.FetchUserServers | frontend/src/api/index.ts:70-77 | Ids and names are kept in order, each with the same constant image. |
| Stores.SetMessagesByChannel | frontend/src/store/message_store.ts:19-27 | Exactly that channel's list is replaced. |
| Stores.AddMessage | frontend/src/store/message_store.ts:30-39 | The message is appended to the channel's list, which is created if missing. Other channels are unchanged. |
| Stores.RemoveMessage | frontend/src/store/message_store.ts:41-50 | Every message with that id leaves the channel and the rest keep their order. A missing channel gets an empty list. Others are unchanged. |
| Stores.RemoveAllMessages | frontend/src/store/message_store.ts:51-57 | No channel remains. |
| Stores.RemoveAfterAdd | frontend/src/store/message_store.ts:30-50 | Removing a message just added is the same as removing its id without the add. |
| Stores.RemoveMessageIdempotent | frontend/src/store/message_store.ts:41-50 | Removing twice is removing once. |
| Stores.RemoveAbsentMessage | frontend/src/store/message_store.ts:41-50 | Removing an id that is absent only materialises the channel key. |
| Stores.AddMessagesCommute | frontend/src/store/message_store.ts:30-39 | Additions to different channels commute. |
| Stores.SetCurrentServer | frontend/src/store/server_store.ts:16 | Only the current server changes. |
| Stores.SetServers | frontend/src/store/server_store.ts:18 | The list is replaced wholesale. |
| Stores.AddServer | frontend/src/store/server_store.ts:20-23 | The server is appended at the end. |
| Stores.RemoveServer | frontend/src/store/server_store.ts:25-28 | Every entry with that id goes and the rest keep their order. The current server is untouched. |
| Stores.RemoveAbsentServer | frontend/src/store/server_store.ts:25-28 | Removing an absent id leaves the state unchanged. |
| Stores.RemoveServerPartition | frontend/src/store/server_store.ts:25-28 | The kept and the removed servers together are exactly the old list. |
| Stores.AddChannel | frontend/src/store/channel_store.ts:16-19 | The channel is appended and the length grows by one. |
| Stores.RemoveChannel | frontend/src/store/channel_store.ts:21-24 | Every entry with that id goes and the rest keep their order. |
| Stores.RemoveAbsentChannel | frontend/src/store/channel_store.ts:21-24 | Removing an absent id leaves the list unchanged. |
| Stores.RemoveChannelAfterAdd | frontend/src/store/channel_store.ts:16-24 | Adding a channel and removing its id leaves the other channels as before. |
| Auth.Login | frontend/src/AuthContext.tsx:15-23 | Login authenticates as the user and forgets every callback. |
| Auth.Logout | frontend/src/AuthContext.tsx:25-34 | Each registered callback is invoked once, in list order, and the state returns to signed out. |
| Auth.AddLogoutCallback | frontend/src/AuthContext.tsx:48-53 | The callback is prepended. The user and flag are unchanged. |
| Auth.RemoveLogoutCallback | frontend/src/AuthContext.tsx:37-47 | Every occurrence of the callback leaves the list and every other callback stays. The user and flag are unchanged. |
| Auth.LogoutRunsNewestFirst | frontend/src/AuthContext.tsx:25-53 | The most recently added callback runs first. |
| Auth.RemoverUndoesAdd | frontend/src/AuthContext.tsx:36-56 | Adding a new callback and calling its remover restores the state exactly. |
| Auth.RemovedCallbackNotInvoked | frontend/src/AuthContext.tsx:37-47 | A removed callback is not invoked at logout. |
| Auth.LoginForgetsCallbacks | frontend/src/AuthContext.tsx:15-23 | Callbacks registered before a login are not invoked by the next logout. |
| ServerPage.ChannelParam | frontend/src/pages/ServerPage.tsx:28-29 | A missing or empty route parameter is -1. Otherwise it is parseInt of the parameter. |
| ServerPage.PushGrouped | frontend/src/pages/ServerPage.tsx:48-55 | One reduce step keeps the grouping exact for the messages seen so far. |
| ServerPage.Group | frontend/src/pages/ServerPage.tsx:48-55 | Every message lands in its channel's bucket in fetched order. Each bucket is exactly that channel's messages and is non-empty. The keys are the channels that occur, each once. |
| ServerPage.ApplyGroups | frontend/src/pages/ServerPage.tsx:57-59 | Each key's channel gets its bucket. Every other channel is untouched. |
| ServerPage.LoadMessages | frontend/src/pages/ServerPage.tsx:41-66 | A server id <= 0 fetches nothing. A failed fetch empties the store, and so does the `null` list of a server without messages. Otherwise each fetched channel holds exactly its messages sorted by id. Channels absent from the fetch keep theirs. |
| ServerPage.EmptyServerClearsStore | frontend/src/pages/ServerPage.tsx:46-63 | A server whose channels hold no message answers `"messages": null`, and loading it empties the whole store. An empty list would have left the store unchanged. |
| ServerPage.RedirectTarget | frontend/src/pages/ServerPage.tsx:74-84 | A redirect to the first channel happens exactly when there are channels and the current one is not among them. |
| ServerPage.RedirectOverIcons | frontend/src/pages/ServerPage.tsx:68-84 | With the store holding the `IconInfo` objects `fetchChannels` returns, the redirect fires exactly when there are channels, and it always goes to the ".../channels/undefined" path. |
| ServerPage.UndefinedPathIsNoChannel | frontend/src/pages/ServerPage.tsx:78 | The path built from an undefined `ChannelId` is never the path of a numbered channel. |
| ServerPage.IconStoreRedirectsNowhere | frontend/src/pages/ServerPage.tsx:68-84 | As written, a server with channels sends the page away even from a listed channel, to a path that names none of them. |
| ServerPage.ChannelsFromIcons | frontend/src/api/serverApi.ts:67-70 | The intended conversion keeps each icon's id as `ChannelId` and its name, in order. |
| ServerPage.ConvertedStoreRedirectsToChannel | frontend/src/pages/ServerPage.tsx:68-84 | With converted records, the page stays on any fetched channel and otherwise goes to the first fetched channel's own path. |
| ServerPage.RedirectSettles | frontend/src/pages/ServerPage.tsx:74-84 | After the redirect the rule does not fire again. |
| ServerPage.OnChannelSelect | frontend/src/pages/ServerPage.tsx:88-93 | Selecting the shown channel navigates nowhere. Any other goes to its path. |
| ServerPage.SelectTwiceNavigatesOnce | frontend/src/pages/ServerPage.tsx:88-93 | Selecting a channel twice navigates once. |
| MessageView.Default | frontend/src/components/Message.tsx:1-5 | The defaults are no id, an empty author and text, and the current time. |
| MessageView.Construct | frontend/src/components/Message.tsx:7-13 | Without an initializer the defaults stay. Otherwise each field is copied only when truthy, so id 0 or "" keeps the default. A defined id is never 0. |
| MessageView.FormatDateTime | frontend/src/components/Message.tsx:20-25 | An undefined date is "Unknown". Any other is rendered. |
| MessageView.Render | frontend/src/components/Message.tsx:26-47 | "Invalid Message" appears exactly when the id is undefined. Otherwise it shows the author, the formatted date and the text. |
| MessageView.ZeroIdRendersInvalid | frontend/src/components/Message.tsx:9 | A message constructed with id 0 renders as invalid. |
| MessageView.NonZeroIdIsShown | frontend/src/components/Message.tsx:7-47 | A non-zero id is shown with the given author and text, or empty ones when those were falsy. |
| MessageView.ConstructFromOwnFields | frontend/src/components/Message.tsx:7-13 | Constructing from a valid message's own fields gives it back. |
| MessageView.FetchedAsMessage | frontend/src/api/serverApi.ts:37-44 | A fetched object has the entry's author, date and text, and no `id`. |
| MessageView.FetchedMessagesRenderInvalid | frontend/src/components/Message.tsx:30 | As written, every message of a successful fetch renders as "Invalid Message". |
| MessageView.FetchedAsMessageCorrected | frontend/src/api/serverApi.ts:37-44 | The corrected object carries the message id as `id`, with the same author, date and text. |
| MessageView.FetchedMessagesCorrectedAreShown | frontend/src/components/Message.tsx:30-43 | With the id carried over, every fetched message is shown with its author, date and text. |

## Left out

- Concurrency as such. Goroutines are stepped by explicit events. Channel readiness is an input flag. Race freedom and progress are not claimed, except the blocking and panic traces under Findings.
- JSON encoding and decoding. Only the outcome of decoding a frame is modelled. The one decoded value the client handles specially is the `null` message list (`Api.MessagesBody`).
- ChatFrames.BroadcastMatchesTransform: the backend's database package is not part of this model, so its GetMessage is taken to be internal/database's. backend/internal/database/types.go:64-72 declares `Message` without the `ServerId` field that routes.go:1357 reads, so the shown backend text alone does not fix the broadcast server id.
- Decimal.JsIntString: JavaScript writes integers of magnitude 1e21 and above in exponent form. The model always writes all digits.
- Api.FetchChannels and Api.FetchUserServers: a `null` list is not modelled. Whether the backend sends one depends on its database package, which is not part of this model.
- HTTP routing, status codes, cookies and middleware.
- SQL text, the driver and transactions. A query is the sequence of rows it yields.
- `time.Time.Format(time.UnixDate)` is kept symbolic as `UnixDate(timestamp)`. JavaScript `Date` is symbolic (`DateOf(text)`, `DateAt(millis)`).
- `getHours`/`toDateString` are a rendering parameter.
- `parseInt` is a parameter, so its NaN case is not modelled.
- NaN server ids are not modelled on the server page.
- backend/internal/websocket/websocket_test.go calls a two-argument `NewConnection`. That does not match the code, so the tests served only as intent.
- LegacyWebSocket.HubStep: registry events step only registered clients. The loops of a client already removed are stated per client (`CloseRunsTwice`). Ids waiting to be deregistered form a multiset, so the order of waiting senders is not modelled. The deregister queue is created in code that is not part of this model; it is assumed unbuffered. `ReplacedClientStallsRun` and `Deregister`'s stalled `Run` hold only for an unbuffered or full queue.
- WebSocket.SendToClient: the unbuffered hand-over is abstracted to the `ready` flag, so which select case wins a race is not modelled.
- WebSocket.ReadStep: the incoming queue's capacity of 100 is recorded. A full queue's blocking send is not modelled.
- ChatHubs.Recipients: a broadcast blocks on each unbuffered channel in turn. Only the set of recipients is modelled.
- ChatHubs: `handleMessages` reads from a channel after the channel is closed and spins on zero values. `handleMessageContext` only logs its self-check. Neither is modelled beyond "the author receives too".
- ServerPage.RedirectTarget: it reads the channel store's declared record (`ChannelId`). What the page actually stores is modelled separately by `RedirectOverIcons`, under Findings.
- OldServer.HandleRead: the session token in the frame is never checked, and the model also ignores it.
- `fetchServerMessages` and `fetchChannels` use hard-coded URLs. Only their response transformations are modelled.
- auth.ts/auth.tsx, server.go wiring, UI components, and the Health/CRUD functions of the store other than those above are out of scope.

## Findings

| source | as written | input that shows it | evidently intended | confidence | as-written member | corrected member |
|---|---|---|---|---|---|---|
| backend/internal/websocket/websocket.go:53-67 | `close` tests `c.closed` but never sets it. Both loops call `close`, so the receive queue is closed twice. | CloseConnection closes the send queue. The write loop closes with 1000 and cancels. The read loop's pending Read fails with the cancellation, and its `close` panics. | The first `close` sets the flag, so later calls return "already closed". | high; not executed | WebSocket.CloseTwicePanics | WebSocket.CorrectedNeverClosesTwice |
| backend/internal/server/websocket.go:132-137 | For an id not in the map, `Run` `continue`s with the mutex still locked. | Register id 1, then CloseConnection(1). It deletes the entry, and the client's `close` sends deregister(1). `Run` finds no entry and keeps the lock, so SendToClient(1) blocks forever. | Unlock before `continue`. | high; not executed | LegacyWebSocket.CloseConnectionDeadlocks | LegacyWebSocket.CorrectedNeverBlocks |
| backend/internal/server/websocket.go:44-49 | `close` has no guard. It runs from both loops' defers, from CloseConnection, and from `Run`'s deregister case at line 142. | Register client 1. Its read fails, so its `close` closes `receive` and sends deregister(1). `Run` finds client 1 still registered, closes `send` and calls `close` again. That closes `receive` a second time and panics. | `close` runs once (a flag or `sync.Once`), so later calls return. | high; not executed | LegacyWebSocket.SelfCloseThenDeregisterPanics | LegacyWebSocket.GuardedCloseNeverClosesTwice |
| frontend/src/components/Message.tsx:30 | The component shows "Invalid Message" when `id` is undefined. `fetchServerMessages` (serverApi.ts:37-44) builds objects with `message_id` and no `id`, and ChatWindow.tsx:38-43 renders them as they are. | Any successful fetch: every message it returns is shown as "Invalid Message". | The fetched object carries the message id as `id`. | high; not executed; the frontend files shown come from different revisions (the `MessageData` class has no `message_id` field) | MessageView.FetchedMessagesRenderInvalid | MessageView.FetchedMessagesCorrectedAreShown |
| frontend/src/pages/ServerPage.tsx:68-84 | The page stores the `IconInfo` objects of `fetchChannels` as they are, but the store's records and the redirect read `ChannelId`, which those objects lack. | Any server with at least one channel: opening one of its channels still navigates to `/servers/<id>/channels/undefined`. | Convert each icon to a channel record (`ChannelId` from `icon_id`) before `setChannels`. | high; not executed; the frontend files shown come from different revisions (ServerPage.tsx:9 imports `CreateChannelResponse`, which serverApi.ts does not export) | ServerPage.IconStoreRedirectsNowhere | ServerPage.ConvertedStoreRedirectsToChannel |
| backend/internal/server/routes.go:1293-1299 | Exit cleanup closes and deletes whatever channel is filed under the user id. | User u connects twice, then the first handler exits. Its cleanup closes and deletes the second connection's channel, so that connection gets no more broadcasts. | Remove the entry only while it is still the handler's own channel. | medium; not executed | ChatHubs.StaleCleanupDropsNewConnection | ChatHubs.OwnCleanupKeepsLiveConnection |

=== FILE: api.dfy ===
/** The client's API layer: frontend/src/api/serverApi.ts and
    frontend/src/api/index.ts. `fetch` itself is not modelled: a call is the
    request it would send, and a response is a status flag with the body
    already decoded. JavaScript's `new Date(text)` is kept symbolic. */
module Api {
  import opened Wrappers
  import opened Decimal
  import opened Seqs
  import opened Sorting

  /** `new Date(x)` for a text or a clock reading, unevaluated. */
  datatype JsDate = DateOf(text: string) | DateAt(millis: int)

  datatype Response<T> = Response(ok: bool, statusText: string, body: T)

  /** What a fetch throws: the error for a non-ok response, or the
      TypeError of calling `.map` on a `null` list. */
  datatype FetchError = FetchFailed(statusText: string) | MapOfNull

  // ---------------------------------------------------------------------
  // serverApi.ts

  /** `RawMessageData`; `username` may be missing. */
  datatype RawMessage = RawMessage(
    messageid: int, channelid: int, userid: int, username: Option<string>, date: string, message: string)

  /** The message record the client keeps (`MessageData` as built by
      fetchServerMessages). */
  datatype Entry = Entry(
    messageId: int, channelId: int, author: string, authorId: int, date: JsDate, message: string)

  /** The `messages` field of a message response. The backend builds it by
      appending each channel's messages to a nil slice
      (backend/internal/server/routes.go:1182-1204), and Go marshals a nil
      slice as `null`: a server whose channels hold no message answers
      `"messages": null`, modelled as None. */
  type MessagesBody = Option<seq<RawMessage>>

  function MessageIdOf(e: Entry): int { e.messageId }
  function ChannelIdOf(e: Entry): int { e.channelId }

  /** `msg.username ? msg.username : "User" + msg.userid`: a missing or
      empty name becomes "User" followed by the decimal user id. */
  function DisplayName(username: Option<string>, userid: int): (r: string)
    ensures username.Some? && username.value != "" ==> r == username.value
    ensures username.None? || username.value == "" ==> r == "User" + JsIntString(userid)
    ensures r != ""
  {
    if username.Some? && username.value != "" then username.value else "User" + JsIntString(userid)
  }

  function ToEntry(raw: RawMessage): (r: Entry)
    ensures r.messageId == raw.messageid && r.channelId == raw.channelid && r.authorId == raw.userid
    ensures r.message == raw.message && r.date == DateOf(raw.date)
    ensures r.author == DisplayName(raw.username, raw.userid)
  {
    Entry(raw.messageid, raw.channelid, DisplayName(raw.username, raw.userid), raw.userid, DateOf(raw.date), raw.message)
  }

  function MapEntries(raws: seq<RawMessage>): (r: seq<Entry>)
    ensures |r| == |raws|
    ensures forall i :: 0 <= i < |r| ==> r[i] == ToEntry(raws[i])
  {
    seq(|raws|, i requires 0 <= i < |raws| => ToEntry(raws[i]))
  }

  /** `fetchServerMessages`: a non-ok response throws, and so does a `null`
      list; otherwise the mapped messages sorted by message id, equal ids
      keeping their order. */
  function FetchServerMessages(response: Response<MessagesBody>): (r: Result<seq<Entry>, FetchError>)
    ensures r.Err? <==> !response.ok || response.body.None?
    ensures !response.ok ==> r == Err(FetchFailed(response.statusText))
    ensures response.ok && response.body.None? ==> r == Err(MapOfNull)
    ensures r.Ok? ==> SortedBy(r.value, MessageIdOf)
    ensures r.Ok? ==> multiset(r.value) == multiset(MapEntries(response.body.value))
  {
    if !response.ok then Err(FetchFailed(response.statusText))
    else if response.body.None? then Err(MapOfNull)
    else Ok(SortBy(MapEntries(response.body.value), MessageIdOf))
  }

  /** The messages of one id keep the order the server sent them in. */
  lemma FetchServerMessagesStable(response: Response<MessagesBody>, id: int)
    requires FetchServerMessages(response).Ok?
    ensures Select(FetchServerMessages(response).value, MessageIdOf, id)
         == Select(MapEntries(response.body.value), MessageIdOf, id)
  {
    SortByStable(MapEntries(response.body.value), MessageIdOf, id);
  }

  /** `RawChannelData` and the `IconInfo` it becomes. */
  datatype RawChannel = RawChannel(channelId: int, channelName: string)
  datatype IconInfo = IconInfo(iconId: int, name: string, imageUrl: Option<string>)

  function IconIdOf(i: IconInfo): int { i.iconId }
  predicate HasNoImage(i: IconInfo) { i.imageUrl == None }

  function ToIcon(raw: RawChannel): (r: IconInfo)
    ensures r == IconInfo(raw.channelId, raw.channelName, None)
  {
    IconInfo(raw.channelId, raw.channelName, None)
  }

  function MapIcons(raws: seq<RawChannel>): (r: seq<IconInfo>)
    ensures |r| == |raws|
    ensures forall i :: 0 <= i < |r| ==> r[i] == ToIcon(raws[i])
  {
    seq(|raws|, i requires 0 <= i < |raws| => ToIcon(raws[i]))
  }

  /** `fetchChannels`: throws on a non-ok response, otherwise the icons
      sorted by id, without image. */
  function FetchChannels(response: Response<seq<RawChannel>>): (r: Result<seq<IconInfo>, FetchError>)
    ensures r.Err? <==> !response.ok
    ensures r.Ok? ==> SortedBy(r.value, IconIdOf)
    ensures r.Ok? ==> multiset(r.value) == multiset(MapIcons(response.body))
    ensures r.Ok? ==> forall i :: 0 <= i < |r.value| ==> r.value[i].imageUrl == None
  {
    if !response.ok then Err(FetchFailed(response.statusText))
    else
      var icons := MapIcons(response.body);
      SortByKeeps(icons, IconIdOf, HasNoImage);
      Ok(SortBy(icons, IconIdOf))
  }

  // ---------------------------------------------------------------------
  // index.ts

  const ApiBaseUrl: string := "/api"

  /** `RequestInit`, split into its headers and its other fields. */
  datatype Options = Options(fields: map<string, string>, headers: Option<map<string, string>>)

  const DefaultFields: map<string, string> := map["credentials" := "include"]
  const DefaultHeaders: map<string, string> := map["Content-Type" := "application/json"]

  datatype Request = Request(url: string, fields: map<string, string>, headers: map<string, string>)

  /** `apiFetch`'s request: the URL is "/api" followed by the endpoint; the
      caller's fields override the defaults one by one, and the headers are
      merged with the caller's header winning per name. */
  function ApiRequest(endpoint: string, options: Options): (r: Request)
    ensures r.url == ApiBaseUrl + endpoint && r.url[..|ApiBaseUrl|] == ApiBaseUrl
    ensures forall k | k in options.fields :: k in r.fields && r.fields[k] == options.fields[k]
    ensures forall k | k in DefaultFields && k !in options.fields :: k in r.fields && r.fields[k] == DefaultFields[k]
    ensures r.fields.Keys == DefaultFields.Keys + options.fields.Keys
    ensures options.headers.Some? ==>
      forall k | k in options.headers.value :: k in r.headers && r.headers[k] == options.headers.value[k]
    ensures forall k | k in DefaultHeaders && (options.headers.None? || k !in options.headers.value) ::
      k in r.headers && r.headers[k] == DefaultHeaders[k]
    ensures r.headers.Keys == DefaultHeaders.Keys + options.headers.GetOr(map[]).Keys
  {
    Request(ApiBaseUrl + endpoint, DefaultFields + options.fields, DefaultHeaders + options.headers.GetOr(map[]))
  }

  /** Passing headers never drops the JSON content type unless the caller
      sets that header itself. */
  lemma ApiRequestKeepsContentType(endpoint: string, options: Options)
    requires options.headers.None? || "Content-Type" !in options.headers.value
    ensures ApiRequest(endpoint, options).headers["Content-Type"] == "application/json"
  {
  }

  /** `apiFetch`'s answer: a non-ok response throws instead of returning
      data. */
  function ApiResult<T>(response: Response<T>): (r: Result<T, FetchError>)
    ensures r.Ok? <==> response.ok
    ensures r.Ok? ==> r.value == response.body
  {
    if response.ok then Ok(response.body) else Err(FetchFailed(response.statusText))
  }

  /** `serverApi.fetchMessages` keeps the raw fields and only fills in the
      user name. */
  function WithUserName(raw: RawMessage): (r: RawMessage)
    ensures r == raw.(username := Some(DisplayName(raw.username, raw.userid)))
    ensures raw.username.Some? && raw.username.value != "" ==> r == raw
  {
    raw.(username := Some(DisplayName(raw.username, raw.userid)))
  }

  function RawIdOf(raw: RawMessage): int { raw.messageid }
  predicate HasUserName(raw: RawMessage) { raw.username.Some? && raw.username.value != "" }

  /** `fetchMessages`: a non-ok response throws, and so does a `null` list;
      otherwise the messages, each with a user name, sorted by message id. */
  function FetchMessages(response: Response<MessagesBody>): (r: Result<seq<RawMessage>, FetchError>)
    ensures r.Err? <==> !response.ok || response.body.None?
    ensures !response.ok ==> r == Err(FetchFailed(response.statusText))
    ensures response.ok && response.body.None? ==> r == Err(MapOfNull)
    ensures r.Ok? ==> SortedBy(r.value, RawIdOf)
    ensures r.Ok? ==> |r.value| == |response.body.value|
    ensures r.Ok? ==> multiset(r.value) == multiset(Apply(response.body.value, WithUserName))
    ensures r.Ok? ==> forall i :: 0 <= i < |r.value| ==>
      r.value[i].username.Some? && r.value[i].username.value != ""
  {
    match ApiResult(response)
    case Err(e) => Err(e)
    case Ok(list) =>
      if list.None? then Err(MapOfNull)
      else
        var named := Apply(list.value, WithUserName);
        SortByKeeps(named, RawIdOf, HasUserName);
        Ok(SortBy(named, RawIdOf))
  }

  /** The two message fetchers agree: they fail on the same responses, and
      `fetchServerMessages` returns exactly the entries of `fetchMessages`'
      result, in the same order, each entry's author being the user name
      `fetchMessages` filled in. */
  lemma FetchMessagesAgreesWithFetchServerMessages(response: Response<MessagesBody>)
    ensures FetchServerMessages(response).Err? <==> FetchMessages(response).Err?
    ensures FetchServerMessages(response).Ok? ==>
      FetchServerMessages(response).value == Apply(FetchMessages(response).value, ToEntry)
    ensures FetchServerMessages(response).Ok? ==> forall i :: 0 <= i < |FetchMessages(response).value| ==>
      FetchServerMessages(response).value[i].author == FetchMessages(response).value[i].username.value
  {
    if FetchServerMessages(response).Ok? {
      AgreeOnList(response);
    }
  }

  /** The agreement on a response that carries a list. */
  lemma AgreeOnList(response: Response<MessagesBody>)
    requires response.ok && response.body.Some?
    ensures FetchServerMessages(response).value == Apply(FetchMessages(response).value, ToEntry)
  {
    var raws := response.body.value;
    var named := Apply(raws, WithUserName);
    assert Apply(named, ToEntry) == MapEntries(raws);
    SortByApply(named, RawIdOf, ToEntry, MessageIdOf);
  }

  /** `ServerData`. */
  datatype ServerData = ServerData(serverId: int, serverName: string, imageUrl: string)

  const ServerImageUrl: string := "https://miro.medium.com/v2/resize:fit:720/format:webp/0*UD_CsUBIvEDoVwzc.png"

  datatype RawServer = RawServer(serverId: int, serverName: string)

  /** `fetchUserServers`: ids and names kept, in order, each with the same
      image. */
  function FetchUserServers(response: Response<seq<RawServer>>): (r: Result<seq<ServerData>, FetchError>)
    ensures r.Err? <==> !response.ok
    ensures r.Ok? ==> |r.value| == |response.body|
    ensures r.Ok? ==> forall i :: 0 <= i < |r.value| ==>
      r.value[i] == ServerData(response.body[i].serverId, response.body[i].serverName, ServerImageUrl)
  {
    match ApiResult(response)
    case Err(e) => Err(e)
    case Ok(raws) =>
      Ok(seq(|raws|, i requires 0 <= i < |raws| => ServerData(raws[i].serverId, raws[i].serverName, ServerImageUrl)))
  }
}

=== FILE: auth.dfy ===
/** The client's authentication state (frontend/src/AuthContext.tsx). A
    logout callback is known only by identity, so callbacks are numbers;
    calling one is reported, not performed. */
module Auth {
  import opened Wrappers
  import opened Seqs

  type Callback = int

  datatype User = User(userId: int, userName: string)

  datatype AuthState = AuthState(isAuthenticated: bool, user: Option<User>, logoutCallbacks: seq<Callback>)

  const SignedOut := AuthState(false, None, [])

  /** `login`: authenticated as a copy of the user, with no callbacks; any
      registered before are forgotten without being called. */
  function Login(s: AuthState, user: User): (r: AuthState)
    ensures r.isAuthenticated && r.user == Some(user) && r.logoutCallbacks == []
  {
    AuthState(true, Some(user), [])
  }

  datatype LoggedOut = LoggedOut(state: AuthState, invoked: seq<Callback>)

  /** `logout`: every registered callback is called once, in list order,
      and the state returns to signed out. */
  function Logout(s: AuthState): (r: LoggedOut)
    ensures r.state == SignedOut
    ensures r.invoked == s.logoutCallbacks
  {
    LoggedOut(SignedOut, s.logoutCallbacks)
  }

  /** `addLogoutCallback`: the callback goes to the front of the list. The
      remover it returns is `RemoveLogoutCallback` with the same callback. */
  function AddLogoutCallback(s: AuthState, callback: Callback): (r: AuthState)
    ensures r.logoutCallbacks == [callback] + s.logoutCallbacks
    ensures r.isAuthenticated == s.isAuthenticated && r.user == s.user
  {
    s.(logoutCallbacks := [callback] + s.logoutCallbacks)
  }

  function Identity(c: Callback): int { c }

  /** The remover: every occurrence of the callback leaves the list; the
      user and the flag stay. */
  function RemoveLogoutCallback(s: AuthState, callback: Callback): (r: AuthState)
    ensures r.isAuthenticated == s.isAuthenticated && r.user == s.user
    ensures forall i :: 0 <= i < |r.logoutCallbacks| ==> r.logoutCallbacks[i] != callback
    ensures forall i :: 0 <= i < |s.logoutCallbacks| && s.logoutCallbacks[i] != callback
              ==> s.logoutCallbacks[i] in r.logoutCallbacks
    ensures r.logoutCallbacks == Reject(s.logoutCallbacks, Identity, callback)
  {
    s.(logoutCallbacks := Reject(s.logoutCallbacks, Identity, callback))
  }

  /** Callbacks run newest first. */
  lemma LogoutRunsNewestFirst(s: AuthState, first: Callback, second: Callback)
    ensures Logout(AddLogoutCallback(AddLogoutCallback(s, first), second)).invoked
         == [second, first] + s.logoutCallbacks
  {
  }

  /** Adding a new callback and calling its remover restores the state. */
  lemma RemoverUndoesAdd(s: AuthState, callback: Callback)
    requires forall i :: 0 <= i < |s.logoutCallbacks| ==> s.logoutCallbacks[i] != callback
    ensures RemoveLogoutCallback(AddLogoutCallback(s, callback), callback) == s
  {
    RejectAbsent(s.logoutCallbacks, Identity, callback);
    assert ([callback] + s.logoutCallbacks)[1..] == s.logoutCallbacks;
  }

  /** A callback added and then removed is not called at logout. */
  lemma RemovedCallbackNotInvoked(s: AuthState, callback: Callback)
    ensures var r := RemoveLogoutCallback(AddLogoutCallback(s, callback), callback);
            callback !in Logout(r).invoked
  {
  }

  /** A callback registered while signed out does not survive a login. */
  lemma LoginForgetsCallbacks(s: AuthState, user: User, callback: Callback)
    ensures Logout(Login(AddLogoutCallback(s, callback), user)).invoked == []
  {
  }
}

=== FILE: bytes.dfy ===
/** Go strings are byte sequences: `len(s)` counts bytes, not characters.
    The model keeps that by representing every Go string as a sequence of
    bytes. */
module Bytes {

  newtype byte = b: int | 0 <= b < 256

  /** A Go `string` (or `[]byte`): its length is Go's `len`. */
  type GoString = seq<byte>

  const Plus: byte := 43
  const Minus: byte := 45
  const Zero: byte := 48
  const Nine: byte := 57

  /** The ASCII bytes of "token". */
  const Token: GoString := [116, 111, 107, 101, 110]

  /** The ASCII bytes of "salt". */
  const Salt: GoString := [115, 97, 108, 116]

  predicate IsDigit(b: byte) {
    Zero <= b <= Nine
  }

  predicate AllDigits(s: GoString) {
    forall i :: 0 <= i < |s| ==> IsDigit(s[i])
  }

  /** The empty Go string `""`. */
  const Empty: GoString := []
}

=== FILE: database.dfy ===
/** The pure rules inside the SQL-backed store (internal/database/database.go
    and its older copy under oldcode/): salted password comparison, the
    salt and token text formats, the guards on inserted ids, and the way a
    lookup turns the rows of a query into one record or an error. SQL itself
    is abstracted away: a query is the sequence of rows it yields, each row
    either scanning into a record or failing to scan. */
module Database {
  import opened Wrappers
  import opened Bytes
  import opened Decimal

  /** `database.Id` is Go's `uint`. */
  type Id = nat

  /** The store's error values, plus stand-ins for errors the SQL driver
      returns. */
  datatype DbError =
    | ErrNoRecord
    | ErrMultipleRecords
    | ErrRecordAlreadyExists
    | ErrNegativeRowIndex
    | ErrZeroId        // "add message - zero userid or channel id"
    | ErrQuery         // the driver failed to run a query
    | ErrScan          // a row failed to scan into the record
    | ErrExec          // the driver failed to run a statement
    | ErrLastInsertId  // the driver could not report the inserted row id

  /** What a SELECT yields: a driver error, or its rows in order, each either
      scanned (`Some`) or failing to scan (`None`). */
  datatype Query<R> = QueryFailed | Rows(rows: seq<Option<R>>)

  /** What an INSERT yields. */
  datatype Insert =
    | UniqueViolation        // sqlite constraint error, unique flavour
    | ExecFailed             // any other driver error
    | LastIdFailed           // LastInsertId reported an error
    | Inserted(rowId: int)   // LastInsertId, an int64

  datatype LoginInfo = LoginInfo(
    userId: Id,
    passwordHash: GoString,
    salt: GoString,
    token: GoString,
    tokenExpireTime: int)

  datatype Server = Server(serverId: Id, ownerId: Id, serverName: GoString)

  datatype Channel = Channel(channelId: Id, serverId: Id, channelName: GoString, timestamp: int)

  /** A stored chat message. `serverId` is carried for the handlers that read
      it; the message SELECT never fills it (see README). */
  datatype Message = Message(
    messageId: Id,
    userId: Id,
    channelId: Id,
    serverId: Id,
    contents: GoString,
    timestamp: int)

  const ZeroServer := Server(0, 0, [])
  const ZeroMessage := Message(0, 0, 0, 0, [], 0)

  // ---------------------------------------------------------------------
  // Passwords

  /** `hashPassword`: the "hash" is the password with the salt appended. */
  function HashPassword(password: GoString, salt: GoString): GoString {
    password + salt
  }

  /** `comparePassword`: re-hash with the stored salt and compare. */
  predicate ComparePassword(user: LoginInfo, password: GoString) {
    HashPassword(password, user.salt) == user.passwordHash
  }

  /** Appending the same suffix is injective. */
  lemma RightCancel(p: GoString, q: GoString, s: GoString)
    requires p + s == q + s
    ensures p == q
  {
    assert |p| == |q|;
    assert p == (p + s)[..|p|];
    assert q == (q + s)[..|q|];
  }

  /** comparePassword holds exactly when the stored hash is the password
      followed by the stored salt. */
  lemma ComparePasswordMeaning(user: LoginInfo, password: GoString)
    ensures ComparePassword(user, password)
        <==> (|user.passwordHash| == |password| + |user.salt|
              && user.passwordHash[..|password|] == password
              && user.passwordHash[|password|..] == user.salt)
  {
    if |user.passwordHash| == |password| + |user.salt|
       && user.passwordHash[..|password|] == password
       && user.passwordHash[|password|..] == user.salt {
      assert user.passwordHash == password + user.salt;
    }
  }

  /** Round trip: a login record holding `hashPassword(p, s)` and salt `s`
      accepts `p`. */
  lemma HashThenCompare(userId: Id, password: GoString, salt: GoString, token: GoString, expiry: int)
    ensures ComparePassword(LoginInfo(userId, HashPassword(password, salt), salt, token, expiry), password)
  {
  }

  /** For a fixed salt and hash at most one password is accepted. */
  lemma AtMostOnePassword(user: LoginInfo, p: GoString, q: GoString)
    requires ComparePassword(user, p) && ComparePassword(user, q)
    ensures p == q
  {
    RightCancel(p, q, user.salt);
  }

  // ---------------------------------------------------------------------
  // Text formats

  /** The salt CreateUser stores: "salt" followed by the decimal user id. */
  function SaltFor(id: Id): (s: GoString)
    ensures |s| > |Salt| && s[..|Salt|] == Salt
    ensures AllDigits(s[|Salt|..]) && ValueOf(s[|Salt|..]) == id
  {
    var s := Salt + FormatUint(id);
    assert s[|Salt|..] == FormatUint(id);
    s
  }

  /** The session token: "token" followed by the decimal user id. */
  function TokenFor(userId: Id): (t: GoString)
    ensures |t| > |Token| && t[..|Token|] == Token
    ensures AllDigits(t[|Token|..]) && ValueOf(t[|Token|..]) == userId
  {
    var t := Token + FormatUint(userId);
    assert t[|Token|..] == FormatUint(userId);
    t
  }

  /** Different users never share a session token. */
  lemma TokenInjective(a: Id, b: Id)
    requires TokenFor(a) == TokenFor(b)
    ensures a == b
  {
    assert TokenFor(a)[|Token|..] == TokenFor(b)[|Token|..];
  }

  /** The token and the user id it was made from determine each other:
      "token" + Atoi of the rest reads the id back. */
  lemma TokenReadsBack(userId: Id)
    requires userId <= MaxInt64
    ensures Atoi(TokenFor(userId)[|Token|..]) == Ok(userId)
  {
    assert TokenFor(userId)[|Token|..] == FormatUint(userId);
    AtoiFormatUint(userId);
  }

  /** Distinct users get distinct salts. */
  lemma SaltInjective(a: Id, b: Id)
    requires SaltFor(a) == SaltFor(b)
    ensures a == b
  {
    assert SaltFor(a)[|Salt|..] == SaltFor(b)[|Salt|..];
  }

  // ---------------------------------------------------------------------
  // Inserts

  /** The id check every INSERT applies to LastInsertId. */
  function CheckInsertId(rowId: int): (r: Result<Id, DbError>)
    ensures r.Ok? <==> rowId >= 0
    ensures r.Ok? ==> r.value == rowId
    ensures r.Err? ==> r.error == ErrNegativeRowIndex
  {
    if rowId < 0 then Err(ErrNegativeRowIndex) else Ok(rowId)
  }

  /** The id an INSERT reports, or its error; a unique-constraint failure is
      just another driver error here. */
  function InsertedId(insert: Insert): Result<Id, DbError> {
    match insert
    case UniqueViolation => Err(ErrExec)
    case ExecFailed => Err(ErrExec)
    case LastIdFailed => Err(ErrLastInsertId)
    case Inserted(rowId) => CheckInsertId(rowId)
  }

  /** The outcome of `AddMessage`, and whether it reached the INSERT. */
  datatype AddOutcome = AddOutcome(result: Result<Id, DbError>, executed: bool)

  /** `AddMessage(channelid, userid, message)`: refuses zero ids before
      touching the table. */
  function AddMessage(channelId: Id, userId: Id, insert: Insert): (r: AddOutcome)
    ensures r.executed <==> userId != 0 && channelId != 0
    ensures !r.executed ==> r.result == Err(ErrZeroId)
    ensures r.result.Ok? ==> insert.Inserted? && insert.rowId >= 0 && r.result.value == insert.rowId
    ensures r.executed && insert.Inserted? && insert.rowId < 0 ==> r.result == Err(ErrNegativeRowIndex)
  {
    if userId == 0 || channelId == 0 then AddOutcome(Err(ErrZeroId), false)
    else AddOutcome(InsertedId(insert), true)
  }

  /** AddMessage succeeds exactly when both ids are non-zero and the store
      reports a non-negative row id, and then returns that id. */
  lemma AddMessageSucceeds(channelId: Id, userId: Id, insert: Insert)
    ensures AddMessage(channelId, userId, insert).result.Ok?
        <==> channelId != 0 && userId != 0 && insert.Inserted? && insert.rowId >= 0
    ensures AddMessage(channelId, userId, insert).result.Ok? ==>
      AddMessage(channelId, userId, insert).result.value == insert.rowId
  {
  }

  /** The two statements of `CreateUser` and their failures; on success, the
      user id and the login row (user id, hash, salt, empty token). */
  datatype NewUser = NewUser(userId: Id, passwordHash: GoString, salt: GoString, token: GoString)

  function CreateUser(password: GoString, userInsert: Insert, loginInsertOk: bool): (r: Result<NewUser, DbError>)
    ensures userInsert == UniqueViolation ==> r == Err(ErrRecordAlreadyExists)
    ensures userInsert.Inserted? && userInsert.rowId < 0 ==> r == Err(ErrNegativeRowIndex)
    ensures r.Ok? <==> userInsert.Inserted? && userInsert.rowId >= 0 && loginInsertOk
    ensures r.Ok? ==> (r.value.userId == userInsert.rowId
                       && r.value.salt == Salt + FormatUint(r.value.userId)
                       && r.value.token == [])
  {
    match userInsert
    case UniqueViolation => Err(ErrRecordAlreadyExists)
    case _ =>
      var id :- InsertedId(userInsert);
      var salt := SaltFor(id);
      if loginInsertOk then Ok(NewUser(id, HashPassword(password, salt), salt, []))
      else Err(ErrExec)
  }

  /** Round trip across the store: the password given to CreateUser is the
      one `ValidateUserLoginInfo` later accepts, whatever token and expiry
      the login row has by then. */
  lemma CreatedUserValidates(password: GoString, userInsert: Insert, token: GoString, expiry: int)
    requires CreateUser(password, userInsert, true).Ok?
    ensures var u := CreateUser(password, userInsert, true).value;
            ComparePassword(LoginInfo(u.userId, u.passwordHash, u.salt, token, expiry), password)
  {
  }

  /** `UpdateUserSessionToken(userid)`: the new token and its expiry, 24
      hours (in seconds) after `now`. */
  function UpdateUserSessionToken(userId: Id, now: int, execOk: bool): (r: Result<(GoString, int), DbError>)
    ensures r.Ok? <==> execOk
    ensures r.Ok? ==> r.value.0 == TokenFor(userId) && r.value.0 != []
    ensures r.Ok? ==> r.value.1 == now + 24 * 60 * 60
  {
    if execOk then Ok((TokenFor(userId), now + 24 * 60 * 60)) else Err(ErrExec)
  }

  // ---------------------------------------------------------------------
  // Lookups

  /** The rule every counting lookup (GetUser, GetUserLoginInfo, GetChannel,
      GetUserIDFromUserName, ...) applies to its rows. */
  function SelectSingle<R>(q: Query<R>): (r: Result<R, DbError>)
    ensures r.Ok? <==> q.Rows? && |q.rows| == 1 && q.rows[0].Some?
    ensures r.Ok? ==> q.rows == [Some(r.value)]
    ensures r == Err(ErrNoRecord) <==> q.Rows? && |q.rows| == 0
    ensures r == Err(ErrMultipleRecords) <==> q.Rows? && |q.rows| > 1 && q.rows[0].Some?
  {
    match q
    case QueryFailed => Err(ErrQuery)
    case Rows(rows) =>
      if |rows| == 0 then Err(ErrNoRecord)
      else if rows[0].None? then Err(ErrScan)
      else if |rows| > 1 then Err(ErrMultipleRecords)
      else Ok(rows[0].value)
  }

  /** The Go loop behind SelectSingle: count rows as they come, stop at the
      second one or at the first scan failure. */
  method SelectSingleLoop<R>(q: Query<R>) returns (r: Result<R, DbError>)
    ensures r == SelectSingle(q)
  {
    if q.QueryFailed? {
      return Err(ErrQuery);
    }
    var rows := q.rows;
    var count := 0;
    var record: Option<R> := None;
    var i := 0;
    while i < |rows|
      invariant 0 <= i <= |rows|
      invariant count == i && count <= 1
      invariant i == 0 <==> record.None?
      invariant i == 1 ==> rows[0].Some? && record == rows[0]
    {
      count := count + 1;
      if count > 1 {
        return Err(ErrMultipleRecords);
      }
      if rows[i].None? {
        return Err(ErrScan);
      }
      record := rows[i];
      i := i + 1;
    }
    if count == 0 {
      return Err(ErrNoRecord);
    }
    return Ok(record.value);
  }

  /** The rule of the non-counting lookups (GetServer, GetMessage): every row
      scans into the same variable, so the last row wins, and no row at all
      leaves the zero value with no error. */
  function LastRow<R>(q: Query<R>, zero: R): (r: Result<R, DbError>)
    ensures q.Rows? && (forall i :: 0 <= i < |q.rows| ==> q.rows[i].Some?) <==> r.Ok?
    ensures r.Ok? && |q.rows| == 0 ==> r.value == zero
    ensures r.Ok? && |q.rows| > 0 ==> r.value == q.rows[|q.rows| - 1].value
  {
    match q
    case QueryFailed => Err(ErrQuery)
    case Rows(rows) => ScanAll(rows, zero)
  }

  function ScanAll<R>(rows: seq<Option<R>>, current: R): (r: Result<R, DbError>)
    ensures (forall i :: 0 <= i < |rows| ==> rows[i].Some?) <==> r.Ok?
    ensures r.Ok? && |rows| == 0 ==> r.value == current
    ensures r.Ok? && |rows| > 0 ==> r.value == rows[|rows| - 1].value
  {
    if |rows| == 0 then Ok(current)
    else if rows[0].None? then Err(ErrScan)
    else ScanAll(rows[1..], rows[0].value)
  }

  /** GetServer and GetMessage never report a missing record: an empty result
      is the zero value, and duplicates are not detected. */
  lemma LastRowDoesNotCount(zero: Message, a: Message, b: Message)
    ensures LastRow(Rows([]), zero) == Ok(zero)
    ensures LastRow(Rows([Some(a), Some(b)]), zero) == Ok(b)
    ensures SelectSingle<Message>(Rows([])) == Err(ErrNoRecord)
    ensures SelectSingle(Rows([Some(a), Some(b)])) == Err(ErrMultipleRecords)
  {
  }

  /** `GetMessage`: a message id no row matches gives the zero Message and
      no error. The SELECT has no server column, so the server id of the
      result is always the zero value. */
  function GetMessage(q: Query<Message>): (r: Result<Message, DbError>)
    ensures q == Rows([]) ==> r == Ok(ZeroMessage)
    ensures r.Ok? && q.Rows? && |q.rows| > 0 ==>
      q.rows[|q.rows| - 1].Some? && r.value == q.rows[|q.rows| - 1].value.(serverId := 0)
    ensures r.Ok? ==> r.value.serverId == 0
    ensures r.Ok? <==> LastRow(q, ZeroMessage).Ok?
  {
    match LastRow(q, ZeroMessage)
    case Err(e) => Err(e)
    case Ok(m) => Ok(m.(serverId := 0))
  }

  /** `GetServer`, with the same rule as GetMessage. */
  function GetServer(q: Query<Server>): (r: Result<Server, DbError>)
    ensures q == Rows([]) ==> r == Ok(ZeroServer)
    ensures r.Ok? <==> q.Rows? && forall i :: 0 <= i < |q.rows| ==> q.rows[i].Some?
    ensures r.Ok? && q.Rows? && |q.rows| > 0 ==> q.rows[|q.rows| - 1] == Some(r.value)
  {
    LastRow(q, ZeroServer)
  }
}

=== FILE: decimal.dfy ===
/** Decimal text for integers: Go's `strconv.FormatUint(n, 10)` and
    `strconv.Atoi`, over byte strings. */
module Decimal {
  import opened Wrappers
  import opened Bytes

  const MaxInt64: int := 0x7FFF_FFFF_FFFF_FFFF
  const MinInt64: int := -0x8000_0000_0000_0000

  predicate IsInt64(n: int) {
    MinInt64 <= n <= MaxInt64
  }

  /** The two ways `strconv.Atoi` fails. */
  datatype AtoiError = ErrSyntax | ErrRange

  /** The number a non-empty run of decimal digits denotes (most significant
      digit first; leading zeros allowed, as Go allows them). */
  function ValueOf(s: GoString): nat
    requires AllDigits(s)
  {
    if |s| == 0 then 0
    else ValueOf(s[..|s| - 1]) * 10 + (s[|s| - 1] - Zero) as int
  }

  /** `strconv.FormatUint(n, 10)`: the shortest decimal spelling of `n`. */
  function FormatUint(n: nat): (s: GoString)
    ensures 1 <= |s|
    ensures AllDigits(s)
    ensures ValueOf(s) == n
    ensures s[0] == Zero ==> n == 0
  {
    if n < 10 then [Zero + n as byte]
    else
      var prefix := FormatUint(n / 10);
      var s := prefix + [Zero + (n % 10) as byte];
      assert s[..|s| - 1] == prefix;
      s
  }

  /** Distinct numbers have distinct spellings. */
  lemma FormatUintInjective(a: nat, b: nat)
    requires FormatUint(a) == FormatUint(b)
    ensures a == b
  {
  }

  const MaxUint64: nat := 0xFFFF_FFFF_FFFF_FFFF

  /** The length of the run of decimal digits `s` starts with. */
  function DigitRun(s: GoString): (k: nat)
    ensures k <= |s|
    ensures AllDigits(s[..k])
    ensures k < |s| ==> !IsDigit(s[k])
  {
    if |s| == 0 || !IsDigit(s[0]) then 0
    else
      var k := 1 + DigitRun(s[1..]);
      assert s[..k] == [s[0]] + s[1..][..k - 1];
      k
  }

  /** A text made of digits is one whole run. */
  lemma DigitRunOfDigits(s: GoString)
    requires AllDigits(s)
    ensures DigitRun(s) == |s| && s[..DigitRun(s)] == s
  {
  }

  /** Digits followed by a non-digit: the run stops exactly there. */
  lemma {:induction false} DigitRunStops(digits: GoString, rest: GoString)
    requires AllDigits(digits)
    requires rest != [] && !IsDigit(rest[0])
    ensures DigitRun(digits + rest) == |digits|
  {
    var s := digits + rest;
    if |digits| == 0 {
      assert s[0] == rest[0];
    } else {
      assert s[0] == digits[0];
      assert s[1..] == digits[1..] + rest;
      DigitRunStops(digits[1..], rest);
    }
  }

  /** `strconv.ParseUint(s, 10, 64)`. Go scans left to right: a byte that is
      not a digit is a syntax error, but once the digits read so far exceed
      64 bits the scan stops with a range error, even when a non-digit
      follows. An empty text and a sign are syntax errors. */
  function ParseUint(s: GoString): (r: Result<nat, AtoiError>)
    ensures r.Ok? <==> s != [] && AllDigits(s) && ValueOf(s) <= MaxUint64
    ensures r.Ok? ==> r.value == ValueOf(s)
    ensures r == Err(ErrRange) <==> ValueOf(s[..DigitRun(s)]) > MaxUint64
  {
    var k := DigitRun(s);
    assert k == |s| ==> s[..k] == s;
    if s == [] then Err(ErrSyntax)
    else if ValueOf(s[..k]) > MaxUint64 then Err(ErrRange)
    else if k < |s| then Err(ErrSyntax)
    else Ok(ValueOf(s))
  }

  /** The text after an optional leading `+` or `-`. */
  function Unsigned(s: GoString): (body: GoString)
    ensures |s| > 0 && (s[0] == Plus || s[0] == Minus) ==> body == s[1..]
    ensures !(|s| > 0 && (s[0] == Plus || s[0] == Minus)) ==> body == s
  {
    if |s| > 0 && (s[0] == Plus || s[0] == Minus) then s[1..] else s
  }

  /** `strconv.Atoi(s)` on a 64-bit platform, that is `ParseInt(s, 10, 0)`:
      an optional sign, then the unsigned scan above; a magnitude that does
      not fit Go's `int` is a range error. (Go's fast path for texts shorter
      than 19 bytes gives the same answers, since such texts cannot
      overflow.) */
  function Atoi(s: GoString): (r: Result<int, AtoiError>)
    ensures r.Ok? ==> IsInt64(r.value)
    ensures r.Ok? ==> 1 <= |s|
    ensures r.Ok? <==> ParseUint(Unsigned(s)).Ok? && IsInt64(if |s| > 0 && s[0] == Minus then 0 - ValueOf(Unsigned(s)) as int else ValueOf(Unsigned(s)))
    ensures ParseUint(Unsigned(s)).Err? ==> r == Err(ParseUint(Unsigned(s)).error)
  {
    var negative := |s| > 0 && s[0] == Minus;
    match ParseUint(Unsigned(s))
    case Err(e) => Err(e)
    case Ok(u) =>
      var v: int := if negative then 0 - u else u;
      if IsInt64(v) then Ok(v) else Err(ErrRange)
  }

  /** Round trip: Atoi reads back every number FormatUint writes, as long as
      it fits an `int`. */
  lemma AtoiFormatUint(n: nat)
    requires n <= MaxInt64
    ensures Atoi(FormatUint(n)) == Ok(n)
  {
    var s := FormatUint(n);
    assert IsDigit(s[0]);
    DigitRunOfDigits(s);
  }

  /** A non-digit after the optional sign makes Atoi fail. It is a syntax
      error unless the digits before it already exceed 64 bits; Go then
      reports a range error instead. */
  lemma AtoiRejectsNonDigit(s: GoString, i: int)
    requires 0 < i < |s| && !IsDigit(s[i])
    ensures Atoi(s).Err?
    ensures Atoi(s) == Err(ErrRange) <==> ValueOf(Unsigned(s)[..DigitRun(Unsigned(s))]) > MaxUint64
  {
    var body := Unsigned(s);
    if s[0] == Plus || s[0] == Minus {
      assert body[i - 1] == s[i];
    } else {
      assert body[i] == s[i];
    }
    assert !AllDigits(body);
  }

  /** An overflowing run of digits followed by a non-digit is a range
      error, not a syntax error. */
  lemma AtoiRangeBeforeSyntax(digits: GoString, rest: GoString)
    requires AllDigits(digits) && ValueOf(digits) > MaxUint64
    requires rest != [] && !IsDigit(rest[0])
    ensures Atoi(digits + rest) == Err(ErrRange)
  {
    var s := digits + rest;
    assert |digits| > 0;
    assert s[0] == digits[0];
    DigitRunStops(digits, rest);
    assert s[..|digits|] == digits;
  }

  /** For instance 2^64 followed by `x`. */
  lemma AtoiOverflowThenLetter()
    ensures Atoi(FormatUint(MaxUint64 + 1) + [120]) == Err(ErrRange)
  {
    AtoiRangeBeforeSyntax(FormatUint(MaxUint64 + 1), [120]);
  }

  /** JavaScript's `"" + n` for an integer `n`, as characters. */
  function JsIntString(n: int): (s: string)
    ensures 1 <= |s|
    ensures n < 0 <==> s[0] == '-'
    ensures forall i :: 0 <= i < |s| ==> s[i] == '-' || '0' <= s[i] <= '9'
    ensures n >= 0 ==> s == DigitChars(FormatUint(n))
    ensures n < 0 ==> s == "-" + DigitChars(FormatUint(-n))
  {
    var chars := DigitChars(FormatUint(if n < 0 then -n else n));
    assert chars[0] != '-';
    if n < 0 then "-" + chars else chars
  }

  /** Decimal digit bytes as the characters they encode. */
  function DigitChars(digits: seq<byte>): (s: string)
    ensures |s| == |digits|
    ensures forall i :: 0 <= i < |s| ==> s[i] as int == digits[i] as int
  {
    seq(|digits|, i requires 0 <= i < |digits| => (digits[i] as int) as char)
  }

  /** Distinct integers are written differently, so `"User" + n` names
      each user id apart. */
  lemma JsIntStringInjective(m: int, n: int)
    requires m != n
    ensures JsIntString(m) != JsIntString(n)
  {
    if (m < 0) != (n < 0) {
      assert JsIntString(m)[0] != JsIntString(n)[0];
    } else if m < 0 {
      var sm, sn := JsIntString(m), JsIntString(n);
      if sm == sn {
        assert sm[1..] == DigitChars(FormatUint(-m));
        assert sn[1..] == DigitChars(FormatUint(-n));
        DigitCharsInjective(FormatUint(-m), FormatUint(-n));
      }
    } else {
      if JsIntString(m) == JsIntString(n) {
        DigitCharsInjective(FormatUint(m), FormatUint(n));
      }
    }
  }

  lemma DigitCharsInjective(a: seq<byte>, b: seq<byte>)
    requires DigitChars(a) == DigitChars(b)
    ensures a == b
  {
    assert forall i :: 0 <= i < |a| ==> a[i] as int == DigitChars(a)[i] as int == b[i] as int;
  }

}

=== FILE: frames.dfy ===
/** Inbound chat frames of the websocket handlers (`websocketHandler` in
    backend/internal/server/routes.go and internal/server/routes.go), the
    records they broadcast, and `fromDBMessageToSeverMessage`.

    A frame is the flat JSON object `{message, channel_id}`; JSON decoding
    itself is not modelled, only its outcome. Store calls are answered by
    parameters, and the handler reports the calls it makes. The UnixDate
    layout of `time.Time.Format` is kept symbolic. */
module ChatFrames {
  import opened Wrappers
  import opened Bytes
  import opened Database

  /** `Timestamp.Format(time.UnixDate)`: one fixed layout applied to the
      timestamp, and nothing else. */
  datatype Date = UnixDate(at: int)

  /** backend `ServerMessage`: what a broadcast carries. */
  datatype ServerMessage = ServerMessage(
    userId: Id, messageId: Id, channelId: Id, serverId: Id, message: GoString, date: Date)

  /** internal `Message`: as ServerMessage, with the author's name and no
      server id. */
  datatype ChatMessage = ChatMessage(
    userName: GoString, userId: Id, messageId: Id, channelId: Id, message: GoString, date: Date)

  const MaxMessageBytes: nat := 1000

  /** The outcome of decoding one frame. A negative or fractional
      `channel_id` does not fit `database.Id` and fails to decode; a field
      that is absent keeps its default. */
  datatype RawFrame = Undecodable | Decoded(message: Option<GoString>, channelId: Option<Id>)

  datatype StoreCall = CallAddMessage(channelId: Id, userId: Id, contents: GoString) | CallGetMessage(messageId: Id)

  /** A frame that made it through: the id AddMessage returned and the
      record GetMessage returned for it. */
  datatype Accepted = Accepted(messageId: Id, record: Message)

  datatype Admission = Admission(calls: seq<StoreCall>, accepted: Option<Accepted>)

  function Contents(frame: RawFrame): GoString
    requires frame.Decoded?
  {
    frame.message.GetOr([])
  }

  function ChannelOf(frame: RawFrame): Id
    requires frame.Decoded?
  {
    frame.channelId.GetOr(0)
  }

  /** Whether a decoded frame passes the handler's own checks: a channel id
      above 0 and at most 1000 bytes of message. */
  predicate WellFormed(frame: RawFrame) {
    frame.Decoded? && ChannelOf(frame) > 0 && |Contents(frame)| <= MaxMessageBytes
  }

  /** The body of the read loop for one frame. `insert` is the store's
      answer to the INSERT of AddMessage and `stored` the rows GetMessage
      reads. A frame that fails decoding or the checks is skipped with no
      store call; a failing AddMessage skips the GetMessage call. */
  function Admit(frame: RawFrame, user: Id, insert: Insert, stored: Query<Message>): (r: Admission)
    ensures !WellFormed(frame) <==> r.calls == []
    ensures !WellFormed(frame) ==> r.accepted == None
    ensures WellFormed(frame) ==>
      r.calls[0] == CallAddMessage(ChannelOf(frame), user, Contents(frame))
      && (r.calls == [r.calls[0]] <==> AddMessage(ChannelOf(frame), user, insert).result.Err?)
    ensures r.accepted.Some? <==>
      WellFormed(frame) && AddMessage(ChannelOf(frame), user, insert).result.Ok? && GetMessage(stored).Ok?
    ensures r.accepted.Some? ==>
      r.accepted.value == Accepted(AddMessage(ChannelOf(frame), user, insert).result.value, GetMessage(stored).value)
      && r.calls == [CallAddMessage(ChannelOf(frame), user, Contents(frame)), CallGetMessage(r.accepted.value.messageId)]
  {
    if !WellFormed(frame) then Admission([], None)
    else
      var contents := Contents(frame);
      var channel := ChannelOf(frame);
      var add := CallAddMessage(channel, user, contents);
      match AddMessage(channel, user, insert).result
      case Err(_) => Admission([add], None)
      case Ok(id) =>
        var calls := [add, CallGetMessage(id)];
        match GetMessage(stored)
        case Err(_) => Admission(calls, None)
        case Ok(record) => Admission(calls, Some(Accepted(id, record)))
  }

  /** The length rule at its edge: a 1000-byte message reaches the store,
      a 1001-byte one does not. */
  lemma AdmitLengthBoundary(message: GoString, channel: Id, user: Id, insert: Insert, stored: Query<Message>)
    requires channel > 0
    ensures |message| == MaxMessageBytes ==> Admit(Decoded(Some(message), Some(channel)), user, insert, stored).calls != []
    ensures |message| == MaxMessageBytes + 1 ==> Admit(Decoded(Some(message), Some(channel)), user, insert, stored).calls == []
  {
  }

  /** Absent fields take the defaults "" and 0, so a frame without a
      channel id is skipped, and one without a message stores "". */
  lemma AdmitDefaults(channel: Id, user: Id, insert: Insert, stored: Query<Message>)
    requires channel > 0
    ensures Admit(Decoded(Some([]), None), user, insert, stored) == Admission([], None)
    ensures Admit(Decoded(None, Some(channel)), user, insert, stored).calls[0] == CallAddMessage(channel, user, [])
  {
  }

  /** The backend broadcast record: the id from AddMessage, everything else
      from the stored record. */
  function BackendMessage(a: Accepted): (r: ServerMessage)
    ensures r.messageId == a.messageId
    ensures r.userId == a.record.userId && r.channelId == a.record.channelId && r.serverId == a.record.serverId
    ensures r.message == a.record.contents && r.date == UnixDate(a.record.timestamp)
  {
    ServerMessage(a.record.userId, a.messageId, a.record.channelId, a.record.serverId, a.record.contents,
                  UnixDate(a.record.timestamp))
  }

  /** The internal broadcast record: the same, plus the sender's user name. */
  function InternalMessage(userName: GoString, a: Accepted): (r: ChatMessage)
    ensures r.userName == userName && r.messageId == a.messageId
    ensures r.userId == a.record.userId && r.channelId == a.record.channelId
    ensures r.message == a.record.contents && r.date == UnixDate(a.record.timestamp)
  {
    ChatMessage(userName, a.record.userId, a.messageId, a.record.channelId, a.record.contents,
                UnixDate(a.record.timestamp))
  }

  /** `fromDBMessageToSeverMessage`: fields copied from the record, server
      id left at zero, date from the timestamp alone. */
  function FromDBMessage(m: Message): (r: ServerMessage)
    ensures r.userId == m.userId && r.channelId == m.channelId && r.messageId == m.messageId
    ensures r.message == m.contents
    ensures r.serverId == 0
    ensures r.date == UnixDate(m.timestamp)
  {
    ServerMessage(m.userId, m.messageId, m.channelId, 0, m.contents, UnixDate(m.timestamp))
  }

  /** Two records with the same timestamp get the same date. */
  lemma FromDBMessageDateOnlyFromTimestamp(a: Message, b: Message)
    requires a.timestamp == b.timestamp
    ensures FromDBMessage(a).date == FromDBMessage(b).date
  {
  }

  /** Every accepted frame broadcasts server id 0, because GetMessage never
      reads one; the broadcast then matches the transform of the stored
      record, apart from taking its id from AddMessage. */
  lemma BroadcastMatchesTransform(frame: RawFrame, user: Id, insert: Insert, stored: Query<Message>)
    requires Admit(frame, user, insert, stored).accepted.Some?
    ensures var a := Admit(frame, user, insert, stored).accepted.value;
            BackendMessage(a).serverId == 0
            && BackendMessage(a) == FromDBMessage(a.record).(messageId := a.messageId)
  {
  }

  // ---------------------------------------------------------------------
  // The read loop

  /** What one `socket.Read` gives the handler, with the store's answers
      for the frame it carries. */
  datatype Incoming = Received(frame: RawFrame, insert: Insert, stored: Query<Message>) | ReadFailed

  /** What one successful read contributes: its accepted frame, if any. */
  function AcceptedOne(user: Id, input: Incoming): (r: seq<Accepted>)
    requires input.Received?
    ensures |r| <= 1
    ensures r != [] <==> Admit(input.frame, user, input.insert, input.stored).accepted.Some?
    ensures !WellFormed(input.frame) ==> r == []
  {
    var admission := Admit(input.frame, user, input.insert, input.stored);
    if admission.accepted.Some? then [admission.accepted.value] else []
  }

  /** The accepted frames among reads that all succeeded, in order. */
  function AcceptedAll(user: Id, inputs: seq<Incoming>): (r: seq<Accepted>)
    requires forall i :: 0 <= i < |inputs| ==> inputs[i].Received?
    ensures |r| <= |inputs|
  {
    if |inputs| == 0 then []
    else AcceptedAll(user, inputs[..|inputs| - 1]) + AcceptedOne(user, inputs[|inputs| - 1])
  }

  /** One more successful read appends its contribution. */
  lemma AcceptedAllSnoc(user: Id, inputs: seq<Incoming>, last: Incoming)
    requires forall i :: 0 <= i < |inputs| ==> inputs[i].Received?
    requires last.Received?
    ensures forall i :: 0 <= i < |inputs + [last]| ==> (inputs + [last])[i].Received?
    ensures AcceptedAll(user, inputs + [last]) == AcceptedAll(user, inputs) + AcceptedOne(user, last)
  {
    assert (inputs + [last])[..|inputs|] == inputs;
  }

  /** The handler's loop: read until the first failed read; skip a frame
      that fails any check or store call and go on with the next. Returns
      the records handed to the broadcaster and how many inputs succeeded. */
  method ReadLoop(user: Id, inputs: seq<Incoming>) returns (sent: seq<Accepted>, handled: nat)
    ensures handled <= |inputs|
    ensures forall i :: 0 <= i < handled ==> inputs[i].Received?
    ensures handled < |inputs| ==> inputs[handled] == ReadFailed
    ensures sent == AcceptedAll(user, inputs[..handled])
  {
    sent := [];
    handled := 0;
    while handled < |inputs| && inputs[handled].Received?
      invariant handled <= |inputs|
      invariant forall i :: 0 <= i < handled ==> inputs[i].Received?
      invariant sent == AcceptedAll(user, inputs[..handled])
    {
      var read := inputs[handled];
      var admission := Admit(read.frame, user, read.insert, read.stored);
      assert inputs[..handled + 1] == inputs[..handled] + [read];
      AcceptedAllSnoc(user, inputs[..handled], read);
      if admission.accepted.Some? {
        sent := sent + [admission.accepted.value];
      }
      handled := handled + 1;
    }
  }

  /** A skipped frame changes nothing for the frames after it. */
  lemma {:induction false} SkippedFrameIsTransparent(user: Id, before: seq<Incoming>, skipped: Incoming, after: seq<Incoming>)
    requires forall i :: 0 <= i < |before| ==> before[i].Received?
    requires forall i :: 0 <= i < |after| ==> after[i].Received?
    requires skipped.Received? && !WellFormed(skipped.frame)
    ensures AcceptedAll(user, before + [skipped] + after) == AcceptedAll(user, before + after)
    decreases |after|
  {
    var prefix := before + [skipped];
    if |after| == 0 {
      AcceptedAllSnoc(user, before, skipped);
      assert prefix + after == prefix;
      assert before + after == before;
    } else {
      var init := after[..|after| - 1];
      var last := after[|after| - 1];
      SkippedFrameIsTransparent(user, before, skipped, init);
      assert after == init + [last];
      assert prefix + after == (prefix + init) + [last];
      assert before + after == (before + init) + [last];
      AcceptedAllSnoc(user, prefix + init, last);
      AcceptedAllSnoc(user, before + init, last);
    }
  }
}

=== FILE: hubs.dfy ===
/** Where accepted chat messages go. The backend (backend/internal/server/
    routes.go) keeps one outgoing channel per user id in `clients` and
    replaces it when that user connects again; the earlier handler
    (internal/server/routes.go) appends one channel per connection to a
    list that nothing shrinks. `handleIncomingMessages` hands each message
    to every entry.

    Go channels are named by the number of the connection that made them:
    a hub counts its connections in `next`. */
module ChatHubs {
  import opened Database

  type ChanId = nat

  /** The backend's `clients` map, the channels closed so far, and the
      number of channels made. */
  datatype Hub = Hub(channels: map<Id, ChanId>, closed: set<ChanId>, next: nat)

  const EmptyHub := Hub(map[], {}, 0)

  /** Channels were made by this hub; registered ones are open and belong
      to one user each. */
  ghost predicate Valid(h: Hub) {
    && (forall c | c in h.closed :: c < h.next)
    && (forall u | u in h.channels :: h.channels[u] < h.next && h.channels[u] !in h.closed)
    && (forall u, v | u in h.channels && v in h.channels && u != v :: h.channels[u] != h.channels[v])
  }

  datatype Connected = Connected(hub: Hub, channel: ChanId)

  /** The start of `websocketHandler`: an earlier channel of the same user
      is closed and deleted, and a new one takes its place. */
  function Connect(h: Hub, user: Id): (r: Connected)
    ensures r.channel == h.next && r.hub.next == h.next + 1
    ensures r.hub.channels == h.channels[user := r.channel]
    ensures user in h.channels ==> r.hub.closed == h.closed + {h.channels[user]}
    ensures user !in h.channels ==> r.hub.closed == h.closed
  {
    var closed := if user in h.channels then h.closed + {h.channels[user]} else h.closed;
    Connected(Hub(h.channels[user := h.next], closed, h.next + 1), h.next)
  }

  /** The deferred cleanup of `websocketHandler` as written: whatever
      channel is filed under the user id is closed and deleted, even when it
      belongs to a newer connection of the same user. */
  function DisconnectByUser(h: Hub, user: Id): (r: Hub)
    ensures user !in r.channels
    ensures r.channels == h.channels - {user}
    ensures user in h.channels ==> r.closed == h.closed + {h.channels[user]}
    ensures user !in h.channels ==> r == h
  {
    if user in h.channels then Hub(h.channels - {user}, h.closed + {h.channels[user]}, h.next) else h
  }

  /** The intended cleanup: a handler removes only the channel it made. */
  function DisconnectOwn(h: Hub, user: Id, own: ChanId): (r: Hub)
    ensures user in h.channels && h.channels[user] == own ==>
      r == Hub(h.channels - {user}, h.closed + {own}, h.next)
    ensures !(user in h.channels && h.channels[user] == own) ==> r == h
  {
    if user in h.channels && h.channels[user] == own then Hub(h.channels - {user}, h.closed + {own}, h.next) else h
  }

  lemma ConnectValid(h: Hub, user: Id)
    requires Valid(h)
    ensures Valid(Connect(h, user).hub)
  {
  }

  lemma DisconnectByUserValid(h: Hub, user: Id)
    requires Valid(h)
    ensures Valid(DisconnectByUser(h, user))
  {
  }

  lemma DisconnectOwnValid(h: Hub, user: Id, own: ChanId)
    requires Valid(h)
    ensures Valid(DisconnectOwn(h, user, own))
  {
  }

  /** A user who reconnects loses the new connection's broadcasts when the
      old handler exits: its cleanup closes and deletes the new channel. */
  lemma StaleCleanupDropsNewConnection(user: Id)
    ensures var first := Connect(EmptyHub, user);
            var second := Connect(first.hub, user);
            var after := DisconnectByUser(second.hub, user);
            user !in after.channels && second.channel in after.closed
  {
  }

  /** With the intended cleanup, a connection stays registered and open
      whatever other handlers exit, until its own handler does. */
  lemma OwnCleanupKeepsLiveConnection(h: Hub, user: Id, other: Id, stale: ChanId)
    requires Valid(h) && user in h.channels
    requires other != user || stale != h.channels[user]
    ensures var after := DisconnectOwn(h, other, stale);
            user in after.channels && after.channels[user] == h.channels[user]
            && h.channels[user] !in after.closed
  {
  }

  /** The same scenario with the intended cleanup. */
  lemma ReconnectThenStaleExit(user: Id)
    ensures var first := Connect(EmptyHub, user);
            var second := Connect(first.hub, user);
            var after := DisconnectOwn(second.hub, user, first.channel);
            after == second.hub && after.channels[user] == second.channel
  {
  }

  /** `handleIncomingMessages`: the message goes to every registered
      channel, the author's own included, in map order (unspecified). */
  function Recipients(h: Hub): (r: set<ChanId>)
    ensures forall u | u in h.channels :: h.channels[u] in r
    ensures forall c | c in r :: exists u | u in h.channels :: h.channels[u] == c
  {
    set u | u in h.channels :: h.channels[u]
  }

  /** Each registered user receives exactly once: one channel per user,
      and no channel shared. */
  lemma RecipientsOnePerUser(h: Hub)
    requires Valid(h)
    ensures |Recipients(h)| == |h.channels|
  {
    var keys := h.channels.Keys;
    CardinalityOfInjectiveImage(h.channels, keys);
  }

  lemma {:induction false} CardinalityOfInjectiveImage(m: map<Id, ChanId>, keys: set<Id>)
    requires keys <= m.Keys
    requires forall u, v | u in m && v in m && u != v :: m[u] != m[v]
    ensures |set u | u in keys :: m[u]| == |keys|
    decreases |keys|
  {
    if keys != {} {
      var k :| k in keys;
      var rest := keys - {k};
      CardinalityOfInjectiveImage(m, rest);
      var image := set u | u in keys :: m[u];
      var restImage := set u | u in rest :: m[u];
      assert image == restImage + {m[k]};
      assert m[k] !in restImage;
    }
  }

  /** Broadcast never sends on a closed channel in a valid hub. */
  lemma RecipientsAreOpen(h: Hub)
    requires Valid(h)
    ensures forall c | c in Recipients(h) :: c !in h.closed
  {
  }

  // ---------------------------------------------------------------------
  // The earlier list of channels

  /** internal `clients`: one channel per connection, in connection order. */
  datatype ListHub = ListHub(channels: seq<ChanId>)

  /** A connection appends a new channel; nothing ever removes one. */
  function ConnectList(h: ListHub): (r: ListHub)
    ensures |r.channels| == |h.channels| + 1
    ensures r.channels[..|h.channels|] == h.channels
  {
    ListHub(h.channels + [|h.channels|])
  }

  /** The list holds the channel numbers 0, 1, 2, ... of the connections. */
  ghost predicate Numbered(h: ListHub) {
    forall i | 0 <= i < |h.channels| :: h.channels[i] == i
  }

  /** So every connection's channel is new. */
  lemma ConnectListNumbered(h: ListHub)
    requires Numbered(h)
    ensures Numbered(ConnectList(h))
    ensures ConnectList(h).channels[|h.channels|] !in h.channels
  {
  }

  function ConnectMany(h: ListHub, n: nat): (r: ListHub)
    decreases n
  {
    if n == 0 then h else ConnectMany(ConnectList(h), n - 1)
  }

  /** The list only grows: after any number of connections the old list is
      a prefix of the new one. */
  lemma {:induction false} ListOnlyGrows(h: ListHub, n: nat)
    ensures |ConnectMany(h, n).channels| == |h.channels| + n
    ensures ConnectMany(h, n).channels[..|h.channels|] == h.channels
    decreases n
  {
    if n > 0 {
      var h1 := ConnectList(h);
      ListOnlyGrows(h1, n - 1);
      assert ConnectMany(h, n).channels[..|h1.channels|] == h1.channels;
      assert ConnectMany(h, n).channels[..|h.channels|] == h1.channels[..|h.channels|];
    }
  }

  /** The earlier `handleIncomingMessages`: the message goes to every
      channel in list order, one delivery per entry. */
  function Deliveries<M>(h: ListHub, message: M): (r: seq<(ChanId, M)>)
    ensures |r| == |h.channels|
    ensures forall i | 0 <= i < |r| :: r[i] == (h.channels[i], message)
  {
    seq(|h.channels|, i requires 0 <= i < |h.channels| => (h.channels[i], message))
  }
}

=== FILE: ids.dfy ===
/** Conversions from integers and decimal text to store ids
    (backend/internal/database/types.go). */
module Ids {
  import opened Wrappers
  import opened Bytes
  import opened Decimal
  import opened Database

  datatype IdError = ErrParsingValue | ErrUnsupportedNegativeValue

  /** `ParseIntToID`: only positive integers are ids. */
  function ParseIntToID(n: int): (r: Result<Id, IdError>)
    ensures r.Ok? <==> n > 0
    ensures r.Ok? ==> r.value == n && r.value >= 1
    ensures r.Err? ==> r.error == ErrUnsupportedNegativeValue
  {
    if n <= 0 then Err(ErrUnsupportedNegativeValue) else Ok(n)
  }

  /** `ParseStringToID`: Atoi, then ParseIntToID. */
  function ParseStringToID(s: GoString): (r: Result<Id, IdError>)
    ensures Atoi(s).Err? ==> r == Err(ErrParsingValue)
    ensures Atoi(s).Ok? ==> r == ParseIntToID(Atoi(s).value)
    ensures r.Ok? ==> r.value >= 1 && Atoi(s) == Ok(r.value as int)
  {
    match Atoi(s)
    case Err(_) => Err(ErrParsingValue)
    case Ok(n) => ParseIntToID(n)
  }

  /** The table of types_test.go: "1" is id 1, while "0" and "-1" are refused
      as non-positive rather than as unparsable. */
  lemma ParseStringToIDExamples()
    ensures ParseStringToID([49]) == Ok(1)
    ensures ParseStringToID([48]) == Err(ErrUnsupportedNegativeValue)
    ensures ParseStringToID([Minus, 49]) == Err(ErrUnsupportedNegativeValue)
    ensures ParseStringToID([]) == Err(ErrParsingValue)
  {
    assert ValueOf([49]) == 1;
    assert ValueOf([48]) == 0;
    assert [Minus, 49][1..] == [49];
  }

  /** Round trip: the decimal spelling of a positive id parses back to it. */
  lemma ParseStringToIDFormat(id: Id)
    requires 1 <= id <= MaxInt64
    ensures ParseStringToID(FormatUint(id)) == Ok(id)
  {
    AtoiFormatUint(id);
  }
}

=== FILE: legacy_websocket.dfy ===
/** The earlier registry of backend/internal/server/websocket.go. Clients
    are numbered, both loops defer `close`, `close` ends by sending the
    client's id on the registry's deregister queue, and a `Run` goroutine
    applies register and deregister requests under the registry's mutex.

    The receive queue is unbuffered and nothing in the package reads it, so
    the first text or binary frame leaves the read loop blocked in its send
    for good (`pending`); closing the queue then makes that send panic.

    The registry holds the clients themselves (Go pointers), so the events
    that advance a registered client's loops update the registry's copy.
    The mutex is the field `locked`; an operation that must take it while it
    is held waits forever, and so does every send to `Run` once `Run` has
    stopped receiving. A panic in any goroutine ends the process: the
    registry records it and every later event changes nothing. */
module LegacyWebSocket {
  import opened Wrappers
  import opened Bytes
  import W = WebSocket

  type ClientId = nat

  /** Every message read carries the id of the client that read it. */
  datatype IncomingMessage = IncomingMessage(id: ClientId, payload: GoString)

  datatype Client = Client(
    id: ClientId,
    cancelled: bool,
    receiveClosed: bool,
    sendClosed: bool,
    closed: bool,                      // the flag of the guarded close; `close` as written keeps none
    pending: Option<IncomingMessage>,  // the message the read loop is blocked sending on `receive`
    written: seq<GoString>,            // text frames handed to `conn.Write`
    closeStatuses: seq<W.StatusCode>,  // every `conn.Close` call
    reader: W.Loop,
    writer: W.Loop,
    panic: Option<W.PanicReason>)

  function NewClient(id: ClientId): (c: Client)
    ensures c.id == id && c.reader == W.Running && c.writer == W.Running
    ensures !c.cancelled && !c.receiveClosed && !c.sendClosed && !c.closed && c.panic == None
    ensures c.pending == None && c.written == [] && c.closeStatuses == []
  {
    Client(id, false, false, false, false, None, [], [], W.Running, W.Running, None)
  }

  /** A client after a step, with the ids it sent on the deregister queue. */
  datatype Stepped = Stepped(client: Client, deregister: seq<ClientId>)

  /** `close()`: close the transport with 1000, cancel, close the receive
      queue, then ask the registry to deregister this id. There is no
      guard: on a second call closing the receive queue panics. Closing the
      queue while the read loop is blocked sending on it makes that send
      panic. Either panic ends the process before the id is sent. */
  function Close(c: Client): (r: Stepped)
    ensures c.panic.Some? ==> r == Stepped(c, [])
    ensures c.panic == None ==>
      r.client.id == c.id && r.client.cancelled && r.client.receiveClosed
      && r.client.closeStatuses == c.closeStatuses + [W.StatusNormalClosure]
    ensures c.panic == None ==> (r.client.panic == None <==> !c.receiveClosed && c.pending == None)
    ensures c.panic == None && c.receiveClosed ==> r.client.panic == Some(W.CloseOfClosedReceive)
    ensures c.panic == None && !c.receiveClosed && c.pending.Some? ==> r.client.panic == Some(W.SendOnClosedReceive)
    ensures r.deregister != [] <==> c.panic == None && r.client.panic == None
    ensures r.deregister != [] ==> r.deregister == [c.id]
  {
    if c.panic.Some? then Stepped(c, [])
    else
      var c' := c.(closeStatuses := c.closeStatuses + [W.StatusNormalClosure], cancelled := true);
      if c.receiveClosed then Stepped(c'.(panic := Some(W.CloseOfClosedReceive)), [])
      else if c.pending.Some? then
        Stepped(c'.(receiveClosed := true, reader := W.Stopped, panic := Some(W.SendOnClosedReceive)), [])
      else Stepped(c'.(receiveClosed := true), [c.id])
  }

  /** Which `close` the loops and the registry call, and how `Run` handles an
      id it does not find: as written, or with the evident intent (a close
      that runs once, and a `continue` that releases the mutex). */
  datatype Variant = AsWritten | Corrected

  /** The corrected close does nothing once the flag is set. */
  function CloseWith(v: Variant, c: Client): (r: Stepped)
    ensures v == AsWritten ==> r == Close(c)
    ensures v == Corrected && (c.closed || c.panic.Some?) ==> r == Stepped(c, [])
    ensures v == Corrected && !c.closed && c.panic == None ==> r == Stepped(Close(c).client.(closed := true), Close(c).deregister)
  {
    match v
    case AsWritten => Close(c)
    case Corrected =>
      if c.closed || c.panic.Some? then Stepped(c, [])
      else
        var s := Close(c);
        Stepped(s.client.(closed := true), s.deregister)
  }

  /** A loop returns: its deferred `close` runs. */
  function Exit(c: Client, reader: bool, v: Variant): (r: Stepped)
    ensures r.deregister == CloseWith(v, c).deregister
    ensures reader ==> r.client == CloseWith(v, c).client.(reader := W.Stopped)
    ensures !reader ==> r.client == CloseWith(v, c).client.(writer := W.Stopped)
  {
    var s := CloseWith(v, c);
    if reader then Stepped(s.client.(reader := W.Stopped), s.deregister)
    else Stepped(s.client.(writer := W.Stopped), s.deregister)
  }

  /** One turn of the read loop. A cancelled context is seen before any
      read; otherwise `conn.Read` runs, an error ends the loop, and a text or
      binary frame becomes a message with the client's id that the loop
      then tries to send on `receive`, where it stays blocked. Every exit
      closes. */
  function ReadStep(c: Client, e: W.ReadResult, v: Variant): (r: Stepped)
    ensures c.reader == W.Stopped || c.panic.Some? || c.pending.Some? ==> r == Stepped(c, [])
    ensures c.reader == W.Running && c.panic == None && c.pending == None && (c.cancelled || e.Failed?) ==>
      r == Exit(c, true, v)
    ensures c.reader == W.Running && c.panic == None && c.pending == None && !c.cancelled && e.Got? ==>
      r.deregister == [] && r.client.reader == W.Running
      && r.client == c.(pending := if e.kind == W.MessageText || e.kind == W.MessageBinary
                                   then Some(IncomingMessage(c.id, e.payload)) else None)
  {
    if c.reader == W.Stopped || c.panic.Some? || c.pending.Some? then Stepped(c, [])
    else if c.cancelled then Exit(c, true, v)
    else
      match e
      case Failed(_) => Exit(c, true, v)
      case Got(kind, payload) =>
        if kind == W.MessageText || kind == W.MessageBinary then
          Stepped(c.(pending := Some(IncomingMessage(c.id, payload))), [])
        else Stepped(c, [])
  }

  /** One turn of the write loop: cancellation, a closed send queue and a
      failed write all end the loop, and every exit closes. */
  function WriteStep(c: Client, e: W.WriteEvent, v: Variant): (r: Stepped)
    ensures c.writer == W.Stopped || c.panic.Some? ==> r == Stepped(c, [])
    ensures c.writer == W.Running && c.panic == None && e == W.Cancelled && c.cancelled ==> r == Exit(c, false, v)
    ensures c.writer == W.Running && c.panic == None && e == W.QueueClosed && c.sendClosed ==> r == Exit(c, false, v)
    ensures c.writer == W.Running && c.panic == None && e.Dequeued? && !c.sendClosed ==>
      (e.writeOk ==> r == Stepped(c.(written := c.written + [e.message]), []))
      && (!e.writeOk ==> r == Exit(c.(written := c.written + [e.message]), false, v))
  {
    if c.writer == W.Stopped || c.panic.Some? then Stepped(c, [])
    else
      match e
      case Cancelled => if c.cancelled then Exit(c, false, v) else Stepped(c, [])
      case QueueClosed => if c.sendClosed then Exit(c, false, v) else Stepped(c, [])
      case Dequeued(message, writeOk) =>
        if c.sendClosed then Stepped(c, [])
        else
          var c' := c.(written := c.written + [message]);
          if writeOk then Stepped(c', []) else Exit(c', false, v)
  }

  /** `close(client.send)`. */
  function CloseSend(c: Client): (r: Client)
    ensures c.panic.Some? ==> r == c
    ensures c.panic == None && !c.sendClosed ==> r == c.(sendClosed := true)
    ensures c.panic == None && c.sendClosed ==> r == c.(panic := Some(W.CloseOfClosedSend))
  {
    if c.panic.Some? then c
    else if c.sendClosed then c.(panic := Some(W.CloseOfClosedSend))
    else c.(sendClosed := true)
  }

  /** The first frame blocks the read loop for good: the message keeps the
      client's id and payload, and no later read changes anything. */
  lemma FirstFrameBlocksReader(id: ClientId, payload: GoString, later: W.ReadResult, v: Variant)
    ensures var c := ReadStep(NewClient(id), W.Got(W.MessageText, payload), v).client;
            c.pending == Some(IncomingMessage(id, payload))
            && ReadStep(c, later, v) == Stepped(c, [])
  {
  }

  /** Both loops defer `close`: when the read loop fails, its close cancels
      the context, the write loop then returns, and its close closes the
      receive queue a second time. */
  lemma CloseRunsTwice(id: ClientId)
    ensures var first := ReadStep(NewClient(id), W.Failed(false), AsWritten);
            var second := WriteStep(first.client, W.Cancelled, AsWritten);
            first.deregister == [id] && first.client.panic == None
            && second.client.panic == Some(W.CloseOfClosedReceive)
            && second.client.closeStatuses == [W.StatusNormalClosure, W.StatusNormalClosure]
  {
  }

  // ---------------------------------------------------------------------
  // The registry

  datatype Hub = Hub(
    clients: map<ClientId, Client>,
    locked: bool,                   // `Run` holds the mutex
    serving: bool,                  // `Run` still receives on its queues
    waiting: multiset<ClientId>,    // ids that `close` calls wait to send on the deregister queue
    crash: Option<W.PanicReason>)   // the panic that ended the process

  const EmptyHub := Hub(map[], false, true, multiset{}, None)

  /** Why an operation waits forever: on the mutex, or on `Run`. */
  datatype Wait = OnMutex | OnRun

  /** What an operation that needs the mutex or `Run` comes to. */
  datatype Blocking<T> = Blocked(on: Wait) | Proceeds(value: T)

  /** A client's step recorded in the registry: its ids join the queue and
      its panic, if any, ends the process. */
  function Absorb(h: Hub, s: Stepped): (r: Hub)
    ensures r.clients == h.clients && r.locked == h.locked && r.serving == h.serving
    ensures r.waiting == h.waiting + multiset(s.deregister)
    ensures r.crash == (if s.client.panic.Some? then s.client.panic else h.crash)
  {
    h.(waiting := h.waiting + multiset(s.deregister),
       crash := if s.client.panic.Some? then s.client.panic else h.crash)
  }

  /** `NewConnection` and the `register` case of `Run`: a new client is
      filed under its id, replacing any client already there. */
  function Register(h: Hub, id: ClientId): (r: Blocking<Hub>)
    ensures !h.serving ==> r == Blocked(OnRun)
    ensures h.serving && h.locked ==> r == Blocked(OnMutex)
    ensures r.Proceeds? ==>
      r.value.clients == h.clients[id := NewClient(id)] && r.value == h.(clients := r.value.clients)
  {
    if !h.serving then Blocked(OnRun)
    else if h.locked then Blocked(OnMutex)
    else Proceeds(h.(clients := h.clients[id := NewClient(id)]))
  }

  datatype Deregistered = Deregistered(hub: Hub, closed: Option<Stepped>)

  /** The `deregister` case of `Run`, once it has received `id`. A
      registered id is removed, the mutex released, the client's send queue
      closed and its `close` called from `Run` itself: that close either
      panics or sends on the deregister queue that only `Run` receives, and
      `Run` stops. For an unknown id the loop `continue`s while still
      holding the mutex; the corrected version releases it. */
  function Deregister(h: Hub, id: ClientId, v: Variant): (r: Blocking<Deregistered>)
    ensures h.locked <==> r.Blocked?
    ensures r.Blocked? ==> r.on == OnMutex
    ensures r.Proceeds? && id !in h.clients ==>
      r.value.closed == None && r.value.hub == h.(locked := v == AsWritten)
    ensures r.Proceeds? && id in h.clients ==>
      r.value.closed == Some(CloseWith(v, CloseSend(h.clients[id])))
      && r.value.hub.clients == h.clients - {id} && !r.value.hub.locked
      && (r.value.hub.serving <==> h.serving && r.value.closed.value.deregister == [])
      && r.value.hub.waiting == h.waiting
      && (r.value.closed.value.client.panic.Some? ==> r.value.hub.crash == r.value.closed.value.client.panic)
  {
    if h.locked then Blocked(OnMutex)
    else if id !in h.clients then
      Proceeds(Deregistered(h.(locked := v == AsWritten), None))
    else
      var s := CloseWith(v, CloseSend(h.clients[id]));
      var h' := h.(clients := h.clients - {id}, locked := false, serving := h.serving && s.deregister == [],
                   crash := if s.client.panic.Some? then s.client.panic else h.crash);
      Proceeds(Deregistered(h', Some(s)))
  }

  datatype ConnectionClosed = ConnectionClosed(hub: Hub, found: bool, closed: Option<Stepped>)

  /** `CloseConnection`: the entry is deleted under the mutex, the mutex is
      released, and only then is the client's `close` called. The answer is
      whether the id was registered. */
  function CloseConnection(h: Hub, id: ClientId, v: Variant): (r: Blocking<ConnectionClosed>)
    ensures h.locked <==> r.Blocked?
    ensures r.Blocked? ==> r.on == OnMutex
    ensures r.Proceeds? ==> (r.value.found <==> id in h.clients)
    ensures r.Proceeds? ==> r.value.hub.clients == h.clients - {id} && !r.value.hub.locked
    ensures r.Proceeds? && id in h.clients ==>
      r.value.closed == Some(CloseWith(v, h.clients[id]))
      && r.value.hub.waiting == h.waiting + multiset(r.value.closed.value.deregister)
    ensures r.Proceeds? && id !in h.clients ==> r.value.closed == None && r.value.hub == h
  {
    if h.locked then Blocked(OnMutex)
    else if id in h.clients then
      var s := CloseWith(v, h.clients[id]);
      Proceeds(ConnectionClosed(Absorb(h.(clients := h.clients - {id}), s), true, Some(s)))
    else Proceeds(ConnectionClosed(h, false, None))
  }

  /** A second CloseConnection for the same id answers false. */
  lemma CloseConnectionTwice(h: Hub, id: ClientId, v: Variant)
    requires CloseConnection(h, id, v).Proceeds?
    ensures var again := CloseConnection(CloseConnection(h, id, v).value.hub, id, v);
            again.Proceeds? && !again.value.found
  {
  }

  /** `SendToClient`: the lookup takes the mutex for reading; then a
      non-blocking hand-over on the client's unbuffered send queue. */
  function SendToClient(h: Hub, id: ClientId, ready: bool): (r: Blocking<W.SendOutcome>)
    ensures h.locked <==> r.Blocked?
    ensures r.Blocked? ==> r.on == OnMutex
    ensures r.Proceeds? ==> (r.value == W.NotFound <==> id !in h.clients)
    ensures r.Proceeds? ==>
      (r.value == W.Accepted <==> id in h.clients && !h.clients[id].sendClosed && ready && h.clients[id].writer == W.Running)
  {
    if h.locked then Blocked(OnMutex)
    else if id !in h.clients then Proceeds(W.NotFound)
    else
      var c := h.clients[id];
      if c.sendClosed then Proceeds(W.Panicked(W.SendOnClosedSend))
      else if ready && c.writer == W.Running then Proceeds(W.Accepted)
      else Proceeds(W.Dropped)
  }

  // ---------------------------------------------------------------------
  // Registry traces

  /** What can happen next: a connection registers, `Run` receives a waiting
      deregister request, CloseConnection or SendToClient is called, or a
      registered client's read or write loop takes a turn. A write loop
      dequeues a message only through SendToClient. */
  datatype HubEvent =
    | DoRegister(id: ClientId)
    | DoDeregister(id: ClientId)
    | DoClose(id: ClientId)
    | DoSend(id: ClientId, message: GoString, ready: bool, writeOk: bool)
    | DoRead(id: ClientId, read: W.ReadResult)
    | DoWrite(id: ClientId, write: W.WriteEvent)

  /** A registered client's loop advances in place. */
  function StepIn(h: Hub, id: ClientId, s: Stepped): (r: Hub)
    ensures r == Absorb(h.(clients := h.clients[id := s.client]), s)
  {
    Absorb(h.(clients := h.clients[id := s.client]), s)
  }

  /** The registry after one event, or what the event waits on forever. */
  function HubStep(h: Hub, e: HubEvent, v: Variant): (r: Blocking<Hub>)
    ensures h.crash.Some? ==> r == Proceeds(h)
    ensures r.Blocked? ==> h.crash == None && (r.on == OnMutex ==> h.locked) && (r.on == OnRun ==> !h.serving)
    ensures h.crash == None && e.DoRead? && e.id in h.clients ==>
      r == Proceeds(StepIn(h, e.id, ReadStep(h.clients[e.id], e.read, v)))
    ensures h.crash == None && e.DoWrite? && e.id in h.clients && !e.write.Dequeued? ==>
      r == Proceeds(StepIn(h, e.id, WriteStep(h.clients[e.id], e.write, v)))
  {
    if h.crash.Some? then Proceeds(h)
    else
      match e
      case DoRegister(id) => Register(h, id)
      case DoDeregister(id) =>
        if id !in h.waiting then Proceeds(h)
        else if !h.serving then Blocked(OnRun)
        else
          (match Deregister(h.(waiting := h.waiting - multiset{id}), id, v)
           case Blocked(on) => Blocked(on)
           case Proceeds(d) => Proceeds(d.hub))
      case DoClose(id) =>
        (match CloseConnection(h, id, v)
         case Blocked(on) => Blocked(on)
         case Proceeds(d) => Proceeds(d.hub))
      case DoSend(id, message, ready, writeOk) =>
        (match SendToClient(h, id, ready)
         case Blocked(on) => Blocked(on)
         case Proceeds(outcome) =>
           if outcome == W.Accepted then Proceeds(StepIn(h, id, WriteStep(h.clients[id], W.Dequeued(message, writeOk), v)))
           else if outcome.Panicked? then Proceeds(h.(crash := Some(outcome.reason)))
           else Proceeds(h))
      case DoRead(id, read) =>
        if id in h.clients then Proceeds(StepIn(h, id, ReadStep(h.clients[id], read, v))) else Proceeds(h)
      case DoWrite(id, write) =>
        if id in h.clients && !write.Dequeued? then Proceeds(StepIn(h, id, WriteStep(h.clients[id], write, v)))
        else Proceeds(h)
  }

  function HubRun(h: Hub, events: seq<HubEvent>, v: Variant): (r: Blocking<Hub>)
    decreases |events|
  {
    if |events| == 0 then Proceeds(h)
    else
      match HubStep(h, events[0], v)
      case Blocked(on) => Blocked(on)
      case Proceeds(h') => HubRun(h', events[1..], v)
  }

  /** As written, closing a registered connection deadlocks the registry:
      the client's `close` sends its id on the deregister queue, `Run`
      finds the id already deleted and keeps the mutex, and every later
      lookup waits forever. */
  lemma CloseConnectionDeadlocks(id: ClientId)
    ensures var h := Register(EmptyHub, id).value;
            var closing := CloseConnection(h, id, AsWritten).value;
            closing.found && closing.closed.value.deregister == [id]
            && HubRun(EmptyHub, [DoRegister(id), DoClose(id), DoDeregister(id), DoSend(id, [], true, true)], AsWritten)
               == Blocked(OnMutex)
  {
    var h := Register(EmptyHub, id).value;
    var h1 := CloseConnection(h, id, AsWritten).value.hub;
    assert h1.waiting == multiset{id};
    var h2 := Deregister(h1.(waiting := multiset{}), id, AsWritten).value.hub;
    assert h2.locked;
    assert HubStep(h1, DoDeregister(id), AsWritten) == Proceeds(h2);
    assert HubRun(h2, [DoSend(id, [], true, true)], AsWritten) == Blocked(OnMutex);
    assert HubRun(h1, [DoDeregister(id), DoSend(id, [], true, true)], AsWritten) == Blocked(OnMutex);
    assert HubRun(h, [DoClose(id), DoDeregister(id), DoSend(id, [], true, true)], AsWritten) == Blocked(OnMutex);
  }

  /** With the corrected deregister no event leaves the mutex held, so no
      event ever waits on it. */
  lemma {:induction false} CorrectedNeverBlocks(h: Hub, events: seq<HubEvent>)
    requires !h.locked
    ensures HubRun(h, events, Corrected) != Blocked(OnMutex)
    ensures HubRun(h, events, Corrected).Proceeds? ==> !HubRun(h, events, Corrected).value.locked
    decreases |events|
  {
    if |events| != 0 {
      var next := HubStep(h, events[0], Corrected);
      assert next != Blocked(OnMutex);
      assert next.Proceeds? ==> !next.value.locked;
      if next.Proceeds? {
        CorrectedNeverBlocks(next.value, events[1..]);
      }
    }
  }

  /** As written, a client whose own loop closes it is then closed again by
      `Run`: the read loop fails, its `close` sends the id, `Run` receives
      it, finds the same client still registered, and its `client.close()`
      closes the receive queue a second time. The process panics. */
  lemma SelfCloseThenDeregisterPanics(id: ClientId)
    ensures var r := HubRun(EmptyHub, [DoRegister(id), DoRead(id, W.Failed(false)), DoDeregister(id)], AsWritten);
            r.Proceeds? && r.value.crash == Some(W.CloseOfClosedReceive)
  {
    var h1 := Register(EmptyHub, id).value;
    var s := ReadStep(h1.clients[id], W.Failed(false), AsWritten);
    assert s.deregister == [id];
    var h2 := StepIn(h1, id, s);
    assert h2.waiting == multiset{id} && h2.crash == None;
    var h3 := Deregister(h2.(waiting := multiset{}), id, AsWritten).value.hub;
    assert h3.crash == Some(W.CloseOfClosedReceive);
    assert HubStep(h2, DoDeregister(id), AsWritten) == Proceeds(h3);
    assert HubRun(h3, [], AsWritten) == Proceeds(h3);
    assert HubRun(h2, [DoDeregister(id)], AsWritten) == Proceeds(h3);
    assert HubRun(h1, [DoRead(id, W.Failed(false)), DoDeregister(id)], AsWritten) == Proceeds(h3);
  }

  /** The bookkeeping the guarded close keeps for a registered client: the
      flag, the closed receive queue and the single transport close go
      together, and the receive queue was never closed twice. */
  ghost predicate CloseConsistent(c: Client) {
    && (c.closed <==> c.receiveClosed)
    && (c.closed ==> c.cancelled)
    && |c.closeStatuses| == (if c.closed then 1 else 0)
    && c.panic != Some(W.CloseOfClosedReceive)
  }

  ghost predicate HubConsistent(h: Hub) {
    && h.crash != Some(W.CloseOfClosedReceive)
    && forall id | id in h.clients :: CloseConsistent(h.clients[id])
  }

  lemma CorrectedCloseConsistent(c: Client)
    requires CloseConsistent(c)
    ensures var s := CloseWith(Corrected, c);
            CloseConsistent(s.client) && s.client.panic != Some(W.CloseOfClosedReceive)
  {
  }

  lemma CorrectedReadConsistent(c: Client, e: W.ReadResult)
    requires CloseConsistent(c)
    ensures CloseConsistent(ReadStep(c, e, Corrected).client)
    ensures ReadStep(c, e, Corrected).client.panic != Some(W.CloseOfClosedReceive)
  {
    CorrectedCloseConsistent(c);
  }

  lemma CorrectedWriteConsistent(c: Client, e: W.WriteEvent)
    requires CloseConsistent(c)
    ensures CloseConsistent(WriteStep(c, e, Corrected).client)
    ensures WriteStep(c, e, Corrected).client.panic != Some(W.CloseOfClosedReceive)
  {
    CorrectedCloseConsistent(c);
    if e.Dequeued? {
      CorrectedCloseConsistent(c.(written := c.written + [e.message]));
    }
  }

  /** A registered client's step keeps the registry consistent. */
  lemma CorrectedStepInConsistent(h: Hub, id: ClientId, s: Stepped)
    requires HubConsistent(h)
    requires CloseConsistent(s.client) && s.client.panic != Some(W.CloseOfClosedReceive)
    ensures HubConsistent(StepIn(h, id, s))
  {
    var r := StepIn(h, id, s);
    forall k | k in r.clients
      ensures CloseConsistent(r.clients[k])
    {
      if k != id {
        assert r.clients[k] == h.clients[k];
      }
    }
  }

  lemma CorrectedDeregisterConsistent(h: Hub, id: ClientId)
    requires HubConsistent(h) && !h.locked
    ensures HubConsistent(Deregister(h, id, Corrected).value.hub)
  {
    if id in h.clients {
      CorrectedCloseConsistent(CloseSend(h.clients[id]));
    }
  }

  lemma CorrectedCloseConnectionConsistent(h: Hub, id: ClientId)
    requires HubConsistent(h) && !h.locked
    ensures HubConsistent(CloseConnection(h, id, Corrected).value.hub)
  {
    if id in h.clients {
      CorrectedCloseConsistent(h.clients[id]);
    }
  }

  lemma CorrectedStepConsistent(h: Hub, e: HubEvent)
    requires HubConsistent(h)
    ensures HubStep(h, e, Corrected).Proceeds? ==> HubConsistent(HubStep(h, e, Corrected).value)
  {
    if h.crash == None {
      match e
      case DoRegister(id) =>
      case DoDeregister(id) =>
        if id in h.waiting && h.serving && !h.locked {
          CorrectedDeregisterConsistent(h.(waiting := h.waiting - multiset{id}), id);
        }
      case DoClose(id) =>
        if !h.locked {
          CorrectedCloseConnectionConsistent(h, id);
        }
      case DoSend(id, message, ready, writeOk) =>
        if !h.locked && id in h.clients && SendToClient(h, id, ready) == Proceeds(W.Accepted) {
          var c := h.clients[id];
          CorrectedWriteConsistent(c, W.Dequeued(message, writeOk));
          CorrectedStepInConsistent(h, id, WriteStep(c, W.Dequeued(message, writeOk), Corrected));
        }
      case DoRead(id, read) =>
        if id in h.clients {
          CorrectedReadConsistent(h.clients[id], read);
          CorrectedStepInConsistent(h, id, ReadStep(h.clients[id], read, Corrected));
        }
      case DoWrite(id, write) =>
        if id in h.clients && !write.Dequeued? {
          CorrectedWriteConsistent(h.clients[id], write);
          CorrectedStepInConsistent(h, id, WriteStep(h.clients[id], write, Corrected));
        }
    }
  }

  /** With the guarded close, no sequence of events closes a registered
      client's receive queue twice or its transport more than once; in
      particular `Run`'s own close of a client that closed itself does
      nothing. */
  lemma {:induction false} GuardedCloseNeverClosesTwice(h: Hub, events: seq<HubEvent>)
    requires HubConsistent(h)
    ensures var r := HubRun(h, events, Corrected);
            r.Proceeds? ==> HubConsistent(r.value) && r.value.crash != Some(W.CloseOfClosedReceive)
    decreases |events|
  {
    if |events| != 0 {
      CorrectedStepConsistent(h, events[0]);
      var next := HubStep(h, events[0], Corrected);
      if next.Proceeds? {
        GuardedCloseNeverClosesTwice(next.value, events[1..]);
      }
    }
  }

  /** The same events with the guarded close: `Run`'s close finds the flag
      set, nothing panics, and the registry goes on serving. */
  lemma SelfCloseThenDeregisterGuarded(id: ClientId)
    ensures var r := HubRun(EmptyHub, [DoRegister(id), DoRead(id, W.Failed(false)), DoDeregister(id)], Corrected);
            r.Proceeds? && r.value.crash == None && r.value.serving && !r.value.locked && id !in r.value.clients
  {
    var h1 := Register(EmptyHub, id).value;
    var s := ReadStep(h1.clients[id], W.Failed(false), Corrected);
    assert s.deregister == [id];
    var h2 := StepIn(h1, id, s);
    assert h2.waiting == multiset{id} && h2.crash == None;
    var h3 := Deregister(h2.(waiting := multiset{}), id, Corrected).value.hub;
    assert h3.crash == None && h3.serving;
    assert HubStep(h2, DoDeregister(id), Corrected) == Proceeds(h3);
    assert HubRun(h3, [], Corrected) == Proceeds(h3);
    assert HubRun(h2, [DoDeregister(id)], Corrected) == Proceeds(h3);
    assert HubRun(h1, [DoRead(id, W.Failed(false)), DoDeregister(id)], Corrected) == Proceeds(h3);
  }

  /** Since nothing reads the receive queue, any close of a client that has
      forwarded a frame panics, with or without the guard. */
  lemma ForwardedFramePanics(id: ClientId, payload: GoString, v: Variant)
    ensures var r := HubRun(EmptyHub, [DoRegister(id), DoRead(id, W.Got(W.MessageText, payload)), DoClose(id)], v);
            r.Proceeds? && r.value.crash == Some(W.SendOnClosedReceive)
  {
    var h1 := Register(EmptyHub, id).value;
    var h2 := StepIn(h1, id, ReadStep(h1.clients[id], W.Got(W.MessageText, payload), v));
    assert h2.clients[id].pending.Some? && h2.crash == None;
    var h3 := CloseConnection(h2, id, v).value.hub;
    assert h3.crash == Some(W.SendOnClosedReceive);
    assert HubRun(h3, [], v) == Proceeds(h3);
    assert HubRun(h2, [DoClose(id)], v) == Proceeds(h3);
    assert HubRun(h1, [DoRead(id, W.Got(W.MessageText, payload)), DoClose(id)], v) == Proceeds(h3);
  }

  /** A client registered under the id of one that has closed itself is
      the one `Run` deregisters; `Run`'s close of it sends on `Run`'s own
      queue, and from then on no connection can register. */
  lemma ReplacedClientStallsRun(id: ClientId, other: ClientId, v: Variant)
    ensures HubRun(EmptyHub, [DoRegister(id), DoRead(id, W.Failed(false)), DoRegister(id), DoDeregister(id), DoRegister(other)], v)
            == Blocked(OnRun)
  {
    var h1 := Register(EmptyHub, id).value;
    var h2 := StepIn(h1, id, ReadStep(h1.clients[id], W.Failed(false), v));
    assert h2.waiting == multiset{id} && h2.crash == None;
    var h3 := Register(h2, id).value;
    var h4 := Deregister(h3.(waiting := multiset{}), id, v).value.hub;
    assert !h4.serving;
    assert HubStep(h3, DoDeregister(id), v) == Proceeds(h4);
    assert HubRun(h4, [DoRegister(other)], v) == Blocked(OnRun);
    assert HubRun(h3, [DoDeregister(id), DoRegister(other)], v) == Blocked(OnRun);
    assert HubRun(h2, [DoRegister(id), DoDeregister(id), DoRegister(other)], v) == Blocked(OnRun);
    assert HubRun(h1, [DoRead(id, W.Failed(false)), DoRegister(id), DoDeregister(id), DoRegister(other)], v) == Blocked(OnRun);
  }
}

=== FILE: message_view.dfy ===
/** The message component (frontend/src/components/Message.tsx): the
    `MessageData` constructor with JavaScript truthiness, `formatDateTime`,
    and the choice between the message and "Invalid Message". The clock
    reading and the date rendering are parameters. */
module MessageView {
  import opened Wrappers
  import opened Api

  /** A `date` passed in: a string, or a `Date` (always truthy). */
  datatype DateInit = DateText(text: string) | DateValue(date: JsDate)

  /** The initializer's fields, each possibly undefined. */
  datatype Init = Init(id: Option<int>, author: Option<string>, date: Option<DateInit>, message: Option<string>)

  datatype MessageData = MessageData(id: Option<int>, author: string, date: JsDate, message: string)

  /** The field defaults; the date is the moment of construction. */
  function Default(now: int): (r: MessageData)
    ensures r.id.None? && r.author == "" && r.message == "" && r.date == DateAt(now)
  {
    MessageData(None, "", DateAt(now), "")
  }

  predicate TruthyNumber(n: Option<int>) { n.Some? && n.value != 0 }
  predicate TruthyString(s: Option<string>) { s.Some? && s.value != "" }
  predicate TruthyDate(d: Option<DateInit>) { d.Some? && (d.value.DateText? ==> d.value.text != "") }

  /** `new Date(x)`: a copy of a date, or a date parsed from text. */
  function NewDate(d: DateInit): JsDate {
    match d
    case DateText(text) => DateOf(text)
    case DateValue(date) => date
  }

  /** `new MessageData(initializer)`: without an initializer every field
      keeps its default; with one, a field is copied only when truthy, so
      an id of 0 or an empty author or message keeps the default. */
  function Construct(initializer: Option<Init>, now: int): (r: MessageData)
    ensures initializer.None? ==> r == Default(now)
    ensures initializer.Some? ==>
      var init := initializer.value;
      && (r.id.Some? <==> TruthyNumber(init.id))
      && (r.id.Some? ==> r.id == init.id)
      && r.author == (if TruthyString(init.author) then init.author.value else "")
      && r.message == (if TruthyString(init.message) then init.message.value else "")
      && r.date == (if TruthyDate(init.date) then NewDate(init.date.value) else DateAt(now))
    ensures r.id.Some? ==> r.id.value != 0
  {
    match initializer
    case None => Default(now)
    case Some(init) =>
      var d := Default(now);
      var d := if TruthyNumber(init.id) then d.(id := init.id) else d;
      var d := if TruthyString(init.author) then d.(author := init.author.value) else d;
      var d := if TruthyDate(init.date) then d.(date := NewDate(init.date.value)) else d;
      if TruthyString(init.message) then d.(message := init.message.value) else d
  }

  /** `formatDateTime`: "Unknown" for an undefined date; otherwise the
      hours, minutes and day rendered by `render`. */
  function FormatDateTime(date: Option<JsDate>, render: JsDate -> string): (r: string)
    ensures date.None? ==> r == "Unknown"
    ensures date.Some? ==> r == render(date.value)
  {
    match date
    case None => "Unknown"
    case Some(d) => render(d)
  }

  datatype View = Invalid | Shown(author: string, dayTime: string, message: string)

  /** The component: "Invalid Message" exactly when the id is undefined. */
  function Render(m: MessageData, render: JsDate -> string): (r: View)
    ensures r.Invalid? <==> m.id.None?
    ensures r.Shown? ==> r == Shown(m.author, render(m.date), m.message)
  {
    if m.id.None? then Invalid else Shown(m.author, FormatDateTime(Some(m.date), render), m.message)
  }

  /** A message with id 0 is shown as invalid: the constructor drops the
      falsy id. */
  lemma ZeroIdRendersInvalid(init: Init, now: int, render: JsDate -> string)
    requires init.id == Some(0)
    ensures Render(Construct(Some(init), now), render) == Invalid
  {
  }

  /** A constructed message with a non-zero id is shown with the given
      author and text, or empty ones when those were falsy. */
  lemma NonZeroIdIsShown(init: Init, now: int, render: JsDate -> string)
    requires init.id.Some? && init.id.value != 0
    ensures var v := Render(Construct(Some(init), now), render);
            v.Shown? && v.author == (if TruthyString(init.author) then init.author.value else "")
            && v.message == (if TruthyString(init.message) then init.message.value else "")
  {
  }

  /** Constructing from a constructed message's own fields gives it back,
      provided its id is defined: every defined field is truthy or equal to
      its default. */
  lemma ConstructFromOwnFields(m: MessageData, now: int)
    requires m.id.Some? && m.id.value != 0
    ensures Construct(Some(Init(m.id, Some(m.author), Some(DateValue(m.date)), Some(m.message))), now) == m
  {
  }

  // ---------------------------------------------------------------------
  // Fetched messages

  /** A fetched entry as the component receives it. `fetchServerMessages`
      builds plain objects whose id field is named `message_id`, and they
      reach the component without passing through the constructor, so `id`
      is undefined. */
  function FetchedAsMessage(e: Entry): (m: MessageData)
    ensures m.id.None?
    ensures m.author == e.author && m.date == e.date && m.message == e.message
  {
    MessageData(None, e.author, e.date, e.message)
  }

  /** As written, every message of a successful fetch is shown as
      "Invalid Message". */
  lemma FetchedMessagesRenderInvalid(response: Response<MessagesBody>, render: JsDate -> string)
    requires FetchServerMessages(response).Ok?
    ensures |FetchServerMessages(response).value| == |response.body.value|
    ensures forall i :: 0 <= i < |FetchServerMessages(response).value| ==>
      Render(FetchedAsMessage(FetchServerMessages(response).value[i]), render) == Invalid
  {
  }

  /** The evidently intended object: the message id is also the `id` the
      component tests. */
  function FetchedAsMessageCorrected(e: Entry): (m: MessageData)
    ensures m.id == Some(e.messageId)
    ensures m.author == e.author && m.date == e.date && m.message == e.message
  {
    MessageData(Some(e.messageId), e.author, e.date, e.message)
  }

  /** With the id carried over, every fetched message is shown with its
      author, its date and its text. */
  lemma FetchedMessagesCorrectedAreShown(response: Response<MessagesBody>, render: JsDate -> string)
    requires FetchServerMessages(response).Ok?
    ensures forall i :: 0 <= i < |FetchServerMessages(response).value| ==>
      var e := FetchServerMessages(response).value[i];
      Render(FetchedAsMessageCorrected(e), render) == Shown(e.author, render(e.date), e.message)
  {
  }
}

=== FILE: old_server.dfy ===
/** The first server (oldcode/cmd/server/main.go): its password check, the
    numbering of websocket connections, one pass of the connection handler,
    and the broadcaster that drops clients whose write fails.

    Connections are opaque values (`Conn`); the Go map from connection to
    number becomes a Dafny map. Its iteration order is unspecified, so the
    broadcaster's effect is stated per connection. */
module OldServer {
  import opened Wrappers
  import opened Bytes
  import opened Decimal
  import opened Database
  import ChatFrames

  // ---------------------------------------------------------------------
  // Password

  /** The old `comparePassword`: the salt is appended to both sides. */
  predicate ComparePassword(user: LoginInfo, password: GoString) {
    password + user.salt == user.passwordHash + user.salt
  }

  /** Appending the same salt to both sides changes nothing: the old check
      is plain equality with the stored hash. */
  lemma ComparePasswordIsEquality(user: LoginInfo, password: GoString)
    ensures ComparePassword(user, password) <==> password == user.passwordHash
  {
    if ComparePassword(user, password) {
      RightCancel(password, user.passwordHash, user.salt);
    }
  }

  // ---------------------------------------------------------------------
  // Connection numbers

  type Conn = nat

  /** The `clients` map of connection to number. */
  datatype Clients = Clients(numbers: map<Conn, int>)

  /** `handleConnections` on a new connection: it is numbered
      `len(clients) + 1`. */
  function Connect(c: Clients, conn: Conn): (r: Clients)
    ensures conn in r.numbers && r.numbers[conn] == |c.numbers| + 1
    ensures forall k | k in c.numbers && k != conn :: k in r.numbers && r.numbers[k] == c.numbers[k]
    ensures r.numbers.Keys == c.numbers.Keys + {conn}
  {
    Clients(c.numbers[conn := |c.numbers| + 1])
  }

  /** A read error deletes the connection. */
  function Drop(c: Clients, conn: Conn): (r: Clients)
    ensures r.numbers == c.numbers - {conn}
  {
    Clients(c.numbers - {conn})
  }

  /** The numbers are not identities: after a disconnect the next
      connection gets the number of one that is still open. */
  lemma NumbersRepeat(a: Conn, b: Conn, d: Conn)
    requires a != b && d != a && d != b
    ensures var c := Connect(Drop(Connect(Connect(Clients(map[]), a), b), a), d);
            c.numbers[b] == 2 && c.numbers[d] == 2
  {
    var c1 := Connect(Clients(map[]), a);
    var c2 := Connect(c1, b);
    var c3 := Drop(c2, a);
    assert c3.numbers == map[b := 2];
  }

  // ---------------------------------------------------------------------
  // The connection handler

  /** A signed id is not a ParseUint id. */
  lemma ParseUintRejectsSign(s: GoString)
    ensures ParseUint([Plus] + s).Err? && ParseUint([Minus] + s).Err?
  {
    assert !IsDigit(([Plus] + s)[0]) && DigitRun([Plus] + s) == 0;
    assert !IsDigit(([Minus] + s)[0]) && DigitRun([Minus] + s) == 0;
  }

  /** `SubmittedMessage` as decoded: the user id travels as text. */
  datatype Submitted = Submitted(userId: GoString, channelId: Id, token: GoString, message: GoString)

  /** The store's answers for one frame. */
  datatype Answers = Answers(insert: Insert, stored: Query<Message>, user: Result<(Id, GoString), DbError>)

  /** The old `Message` broadcast record. */
  datatype OldMessage = OldMessage(
    userName: GoString, userId: Id, messageId: Id, channelId: Id, message: GoString, date: ChatFrames.Date)

  /** What the handler does after one read. */
  datatype Turn =
    | Broadcast(message: OldMessage)   // and read the next frame
    | Leave(deleted: bool)             // return; `deleted` if the connection left the map

  datatype Read = ReadError | Frame(decoded: Option<Submitted>)

  /** One pass of the handler's loop. A read error deletes the connection
      and returns; every other failure returns and leaves it in the map. The
      token is never checked. */
  function HandleRead(read: Read, answers: Answers): (r: Turn)
    ensures read == ReadError <==> r == Leave(true)
    ensures r.Broadcast? ==>
      read.Frame? && read.decoded.Some?
      && ParseUint(read.decoded.value.userId).Ok?
      && AddMessage(read.decoded.value.channelId, ParseUint(read.decoded.value.userId).value, answers.insert).result.Ok?
      && GetMessage(answers.stored).Ok? && answers.user.Ok?
    ensures r.Broadcast? ==>
      r.message == OldMessage(answers.user.value.1, answers.user.value.0, GetMessage(answers.stored).value.messageId,
                              GetMessage(answers.stored).value.channelId, GetMessage(answers.stored).value.contents,
                              ChatFrames.UnixDate(GetMessage(answers.stored).value.timestamp))
    ensures (read.Frame? && read.decoded.Some?
             && ParseUint(read.decoded.value.userId).Ok?
             && AddMessage(read.decoded.value.channelId, ParseUint(read.decoded.value.userId).value, answers.insert).result.Ok?
             && GetMessage(answers.stored).Ok? && answers.user.Ok?) ==> r.Broadcast?
    ensures read.Frame? && read.decoded.Some? && read.decoded.value.channelId == 0 ==> r == Leave(false)
  {
    match read
    case ReadError => Leave(true)
    case Frame(decoded) =>
      match decoded
      case None => Leave(false)
      case Some(msg) =>
        match ParseUint(msg.userId)
        case Err(_) => Leave(false)
        case Ok(userId) =>
          match AddMessage(msg.channelId, userId, answers.insert).result
          case Err(_) => Leave(false)
          case Ok(_) =>
            match GetMessage(answers.stored)
            case Err(_) => Leave(false)
            case Ok(record) =>
              match answers.user
              case Err(_) => Leave(false)
              case Ok((id, name)) =>
                Broadcast(OldMessage(name, id, record.messageId, record.channelId, record.contents,
                                     ChatFrames.UnixDate(record.timestamp)))
  }

  /** The old handler broadcasts what the current one (`ChatFrames.InternalMessage`)
      builds from the same stored record, whenever the store answers
      consistently: the record read back carries the id the insert returned,
      and the user looked up is the record's author. */
  lemma HandleReadMatchesInternalMessage(read: Read, answers: Answers)
    requires HandleRead(read, answers).Broadcast?
    requires GetMessage(answers.stored).value.messageId == answers.insert.rowId
    requires answers.user.value.0 == GetMessage(answers.stored).value.userId
    ensures var m := HandleRead(read, answers).message;
            var c := ChatFrames.InternalMessage(answers.user.value.1,
                                                ChatFrames.Accepted(answers.insert.rowId, GetMessage(answers.stored).value));
            m.userName == c.userName && m.userId == c.userId && m.messageId == c.messageId
            && m.channelId == c.channelId && m.message == c.message && m.date == c.date
  {
  }

  // ---------------------------------------------------------------------
  // The broadcaster

  /** `handleMessages` for one message. `writeOk` is each connection's
      answer to WriteJSON. Every connection is written to; the ones whose
      write fails are closed and deleted, and the loop carries on. */
  datatype Delivery = Delivery(clients: Clients, attempted: set<Conn>, failed: set<Conn>)

  function BroadcastOnce(c: Clients, writeOk: Conn -> bool): (r: Delivery)
    ensures r.attempted == c.numbers.Keys
    ensures forall k | k in c.numbers :: (k in r.failed <==> !writeOk(k))
    ensures r.failed <= r.attempted
    ensures r.clients.numbers.Keys == c.numbers.Keys - r.failed
    ensures forall k | k in r.clients.numbers :: r.clients.numbers[k] == c.numbers[k]
  {
    var failed := set k | k in c.numbers && !writeOk(k);
    Delivery(Clients(map k | k in c.numbers && writeOk(k) :: c.numbers[k]), c.numbers.Keys, failed)
  }

  /** A second broadcast with the same answers removes nothing more: every
      connection that failed is already gone. */
  lemma BroadcastSettles(c: Clients, writeOk: Conn -> bool)
    ensures var once := BroadcastOnce(c, writeOk).clients;
            BroadcastOnce(once, writeOk).clients == once && BroadcastOnce(once, writeOk).failed == {}
  {
  }
}

=== FILE: requests.dfy ===
/** The request-level validators of the HTTP handlers: path ids, the `count`
    query parameter, the server-name length rule, and the helpers that turn
    a request into a server or channel record. Store lookups are function
    parameters; each helper also reports the lookups it made, so "no lookup
    happens" is part of its contract. */
module Requests {
  import opened Wrappers
  import opened Bytes
  import opened Decimal
  import opened Database
  import opened Ids

  // ---------------------------------------------------------------------
  // Path ids

  datatype PathError = ErrUnparsable | ErrNonPositive

  /** `parsePathFromID(r, field)` on the path value of `field`; also the inline
      check of GetServerChannels, GetServersOfUser, GetServerMessages,
      GetServerMembersHandler and GetUserHandler: Atoi, then reject `<= 0`
      (the message says ">=0", the test is `<= 0`). */
  function ParsePathFromID(path: GoString): (r: Result<Id, PathError>)
    ensures Atoi(path).Err? <==> r == Err(ErrUnparsable)
    ensures r == Err(ErrNonPositive) <==> Atoi(path).Ok? && Atoi(path).value <= 0
    ensures r.Ok? ==> Atoi(path) == Ok(r.value as int) && r.value >= 1
  {
    match Atoi(path)
    case Err(_) => Err(ErrUnparsable)
    case Ok(n) => if n <= 0 then Err(ErrNonPositive) else Ok(n)
  }

  /** The path helper and the store's ParseStringToID accept the same texts
      and yield the same ids; they only name their errors differently. */
  lemma ParsePathAgreesWithParseStringToID(path: GoString)
    ensures ParsePathFromID(path).Ok? <==> ParseStringToID(path).Ok?
    ensures ParsePathFromID(path).Ok? ==> ParsePathFromID(path).value == ParseStringToID(path).value
    ensures ParsePathFromID(path) == Err(ErrUnparsable) <==> ParseStringToID(path) == Err(ErrParsingValue)
  {
  }

  const TwoTo64: int := 0x1_0000_0000_0000_0000

  /** `GetServerInformation`'s path id: Atoi and then `database.Id(serverid)`
      with no sign check, so a negative number wraps around as a `uint`. */
  function ServerInformationId(path: GoString): (r: Result<Id, PathError>)
    ensures r.Err? <==> Atoi(path).Err?
    ensures r.Ok? && Atoi(path).value >= 0 ==> r.value == Atoi(path).value
    ensures r.Ok? && Atoi(path).value < 0 ==> r.value == Atoi(path).value + TwoTo64
  {
    match Atoi(path)
    case Err(_) => Err(ErrUnparsable)
    case Ok(n) => Ok(n % TwoTo64)
  }

  /** Where GetServerInformation and the checked handlers differ: "0" and
      "-1" reach the store as ids 0 and 2^64 - 1 instead of being refused. */
  lemma ServerInformationSkipsSignCheck()
    ensures ParsePathFromID([Zero]) == Err(ErrNonPositive)
    ensures ServerInformationId([Zero]) == Ok(0)
    ensures ParsePathFromID([Minus, Zero + 1]) == Err(ErrNonPositive)
    ensures ServerInformationId([Minus, Zero + 1]) == Ok(TwoTo64 - 1)
  {
    assert ValueOf([Zero]) == 0;
    assert [Minus, Zero + 1][1..] == [Zero + 1];
    assert ValueOf([Zero + 1]) == 1;
  }

  /** On positive ids the two conversions agree. */
  lemma ServerInformationAgreesOnPositive(path: GoString)
    requires ParsePathFromID(path).Ok?
    ensures ServerInformationId(path) == ParsePathFromID(path)
  {
  }

  // ---------------------------------------------------------------------
  // Query and body validators

  datatype CountError = ErrUnparsableCount | ErrInvalidCount

  const DefaultCount: nat := 30

  /** The `count` query parameter of GetServerMessages: absent (empty) means
      30, otherwise it must be a positive integer. */
  function MessageCount(query: GoString): (r: Result<nat, CountError>)
    ensures query == [] ==> r == Ok(DefaultCount)
    ensures query != [] && Atoi(query).Err? ==> r == Err(ErrUnparsableCount)
    ensures query != [] && Atoi(query).Ok? && Atoi(query).value <= 0 ==> r == Err(ErrInvalidCount)
    ensures query != [] && r.Ok? ==> Atoi(query) == Ok(r.value as int) && r.value >= 1
  {
    if query == [] then Ok(DefaultCount)
    else
      match Atoi(query)
      case Err(_) => Err(ErrUnparsableCount)
      case Ok(n) => if n > 0 then Ok(n) else Err(ErrInvalidCount)
  }

  /** A count written by `strconv.FormatUint` reads back: every positive
      number up to the int64 maximum is accepted as itself, and 0 is
      refused as invalid rather than unparsable. */
  lemma MessageCountFormatUint(n: nat)
    requires n <= MaxInt64
    ensures n >= 1 ==> MessageCount(FormatUint(n)) == Ok(n)
    ensures n == 0 ==> MessageCount(FormatUint(n)) == Err(ErrInvalidCount)
  {
    AtoiFormatUint(n);
  }

  datatype NameError = ErrNameTooLong | ErrNameTooShort

  const MinServerName: nat := 3
  const MaxServerName: nat := 30

  /** `createNewServer`'s name rule, in bytes: too long is tested first. */
  function CheckServerName(name: GoString): (r: Result<GoString, NameError>)
    ensures r.Ok? <==> MinServerName <= |name| <= MaxServerName
    ensures r.Ok? ==> r.value == name
    ensures |name| > MaxServerName <==> r == Err(ErrNameTooLong)
  {
    if |name| > MaxServerName then Err(ErrNameTooLong)
    else if |name| < MinServerName then Err(ErrNameTooShort)
    else Ok(name)
  }

  // ---------------------------------------------------------------------
  // Request helpers

  /** The error texts of the request helpers. The channel helpers reuse the
      server texts ("unable to parse server id", ...). */
  datatype RequestError =
    | ErrParseServerId     // "invalid request: unable to parse server id"
    | ErrInvalidServerId   // "invalid request: invalid server id"
    | ErrLocateServer      // "error: unable to locate server"

  /** A helper's answer together with the ids it looked up, in order. */
  datatype Lookup<R> = Lookup(result: Result<R, RequestError>, lookups: seq<Id>)

  /** backend `GetServerFromRequest` and `GetChannelFromRequest` (with the
      same texts): every path failure reads as "unable to parse server id",
      and no lookup is made for it. */
  function BackendRecordFromRequest<R>(path: GoString, get: Id -> Result<R, DbError>): (r: Lookup<R>)
    ensures ParsePathFromID(path).Err? ==> r == Lookup(Err(ErrParseServerId), [])
    ensures ParsePathFromID(path).Ok? ==> r.lookups == [ParsePathFromID(path).value]
    ensures r.result.Ok? ==> get(ParsePathFromID(path).value) == Ok(r.result.value)
    ensures ParsePathFromID(path).Ok? && get(ParsePathFromID(path).value).Ok? ==>
      r.result == Ok(get(ParsePathFromID(path).value).value)
    ensures ParsePathFromID(path).Ok? && get(ParsePathFromID(path).value).Err? ==>
      r.result == Err(ErrLocateServer)
  {
    match ParsePathFromID(path)
    case Err(_) => Lookup(Err(ErrParseServerId), [])
    case Ok(id) =>
      match get(id)
      case Err(_) => Lookup(Err(ErrLocateServer), [id])
      case Ok(record) => Lookup(Ok(record), [id])
  }

  /** internal `getServerFromRequest` and `getChannelFromRequest` (with the
      same "server id" texts): the unparsable and the non-positive cases
      are told apart, and neither reaches the store. */
  function RecordFromRequest<R>(path: GoString, get: Id -> Result<R, DbError>): (r: Lookup<R>)
    ensures Atoi(path).Err? ==> r == Lookup(Err(ErrParseServerId), [])
    ensures Atoi(path).Ok? && Atoi(path).value <= 0 ==> r == Lookup(Err(ErrInvalidServerId), [])
    ensures r.lookups != [] <==> ParsePathFromID(path).Ok?
    ensures r.result.Ok? ==> (r.lookups == [ParsePathFromID(path).value]
                              && get(ParsePathFromID(path).value) == Ok(r.result.value))
    ensures Atoi(path).Ok? && Atoi(path).value > 0 ==>
      r.lookups == [Atoi(path).value as Id]
      && (get(Atoi(path).value as Id).Ok? ==> r.result == Ok(get(Atoi(path).value as Id).value))
      && (get(Atoi(path).value as Id).Err? ==> r.result == Err(ErrLocateServer))
  {
    match ParsePathFromID(path)
    case Err(ErrUnparsable) => Lookup(Err(ErrParseServerId), [])
    case Err(ErrNonPositive) => Lookup(Err(ErrInvalidServerId), [])
    case Ok(id) =>
      match get(id)
      case Err(_) => Lookup(Err(ErrLocateServer), [id])
      case Ok(record) => Lookup(Ok(record), [id])
  }

  /** The backend and internal helpers accept the same paths, make the same
      lookups and return the same record; only the error text for
      non-positive ids differs. */
  lemma RequestHelperVersionsAgree<R>(path: GoString, get: Id -> Result<R, DbError>)
    ensures BackendRecordFromRequest(path, get).lookups == RecordFromRequest(path, get).lookups
    ensures BackendRecordFromRequest(path, get).result.Ok? <==> RecordFromRequest(path, get).result.Ok?
    ensures BackendRecordFromRequest(path, get).result.Ok?
        ==> BackendRecordFromRequest(path, get).result == RecordFromRequest(path, get).result
  {
  }

  /** `getServerFromChannel` (both versions): look the channel up, then its
      server; a channel error is returned as is, without a server lookup. */
  datatype ChannelLookup = ChannelLookup(
    result: Result<Server, DbError>,
    channelLookups: seq<Id>,
    serverLookups: seq<Id>)

  function ServerFromChannel(
    channelId: Id,
    getChannel: Id -> Result<Channel, DbError>,
    getServer: Id -> Result<Server, DbError>): (r: ChannelLookup)
    ensures r.channelLookups == [channelId]
    ensures getChannel(channelId).Err? ==> r == ChannelLookup(Err(getChannel(channelId).error), [channelId], [])
    ensures getChannel(channelId).Ok? ==> (r.serverLookups == [getChannel(channelId).value.serverId]
                                           && r.result == getServer(getChannel(channelId).value.serverId))
  {
    match getChannel(channelId)
    case Err(e) => ChannelLookup(Err(e), [channelId], [])
    case Ok(channel) => ChannelLookup(getServer(channel.serverId), [channelId], [channel.serverId])
  }
}

=== FILE: seqs.dfy ===
/** Order-preserving selection by key: the `Array.prototype.filter` calls of
    the client stores and the per-channel buckets of the server page. */
module Seqs {

  /** The elements of `s` whose key is `k`, in their original order. */
  function Select<T>(s: seq<T>, key: T -> int, k: int): (r: seq<T>)
    ensures |r| <= |s|
    ensures forall i :: 0 <= i < |r| ==> r[i] in s && key(r[i]) == k
    ensures forall i :: 0 <= i < |s| && key(s[i]) == k ==> s[i] in r
  {
    if |s| == 0 then []
    else (if key(s[0]) == k then [s[0]] else []) + Select(s[1..], key, k)
  }

  /** The elements of `s` whose key is not `k`, in their original order:
      `s.filter(x => key(x) !== k)`. */
  function Reject<T>(s: seq<T>, key: T -> int, k: int): (r: seq<T>)
    ensures |r| <= |s|
    ensures forall i :: 0 <= i < |r| ==> r[i] in s && key(r[i]) != k
    ensures forall i :: 0 <= i < |s| && key(s[i]) != k ==> s[i] in r
  {
    if |s| == 0 then []
    else (if key(s[0]) != k then [s[0]] else []) + Reject(s[1..], key, k)
  }

  /** Selection distributes over concatenation, so it keeps relative order. */
  lemma {:induction false} SelectConcat<T>(a: seq<T>, b: seq<T>, key: T -> int, k: int)
    ensures Select(a + b, key, k) == Select(a, key, k) + Select(b, key, k)
  {
    if |a| == 0 {
      assert a + b == b;
    } else {
      assert (a + b)[1..] == a[1..] + b;
      SelectConcat(a[1..], b, key, k);
    }
  }

  /** Rejection distributes over concatenation, so it keeps relative order. */
  lemma {:induction false} RejectConcat<T>(a: seq<T>, b: seq<T>, key: T -> int, k: int)
    ensures Reject(a + b, key, k) == Reject(a, key, k) + Reject(b, key, k)
  {
    if |a| == 0 {
      assert a + b == b;
    } else {
      assert (a + b)[1..] == a[1..] + b;
      RejectConcat(a[1..], b, key, k);
    }
  }

  /** Rejecting a key no element carries changes nothing. */
  lemma {:induction false} RejectAbsent<T>(s: seq<T>, key: T -> int, k: int)
    requires forall i :: 0 <= i < |s| ==> key(s[i]) != k
    ensures Reject(s, key, k) == s
  {
    if |s| != 0 {
      RejectAbsent(s[1..], key, k);
    }
  }

  /** Rejecting twice is rejecting once. */
  lemma RejectIdempotent<T>(s: seq<T>, key: T -> int, k: int)
    ensures Reject(Reject(s, key, k), key, k) == Reject(s, key, k)
  {
    var r := Reject(s, key, k);
    RejectAbsent(r, key, k);
  }

  /** Every element is either selected or rejected for a key. */
  lemma {:induction false} SelectRejectPartition<T>(s: seq<T>, key: T -> int, k: int)
    ensures |Select(s, key, k)| + |Reject(s, key, k)| == |s|
    ensures multiset(Select(s, key, k)) + multiset(Reject(s, key, k)) == multiset(s)
  {
    if |s| != 0 {
      SelectRejectPartition(s[1..], key, k);
      assert s == [s[0]] + s[1..];
    }
  }
}

=== FILE: server_page.dfy ===
/** The server page's rules (frontend/src/pages/ServerPage.tsx): the channel
    route parameter, loading a server's messages into the message store one
    bucket per channel, the redirect to the first channel, and channel
    selection. Navigation is reported as the path it would go to. */
module ServerPage {
  import opened Wrappers
  import opened Decimal
  import opened Seqs
  import opened Api
  import opened Stores

  /** `channelIdStr ? parseInt(channelIdStr) : -1`; `parseInt` is a
      parameter. */
  function ChannelParam(param: Option<string>, parseInt: string -> int): (r: int)
    ensures param.None? || param.value == "" ==> r == -1
    ensures param.Some? && param.value != "" ==> r == parseInt(param.value)
  {
    if param.Some? && param.value != "" then parseInt(param.value) else -1
  }

  // ---------------------------------------------------------------------
  // Grouping by channel

  /** The `reduce` accumulator: a JavaScript `Map`, whose keys keep their
      insertion order. */
  datatype Grouping = Grouping(order: seq<int>, buckets: map<int, seq<Entry>>)

  /** One `reduce` step: the message is pushed on its channel's bucket,
      which is created (and its key appended) on first sight. */
  function Push(g: Grouping, e: Entry): Grouping {
    if e.channelId in g.buckets then g.(buckets := g.buckets[e.channelId := g.buckets[e.channelId] + [e]])
    else Grouping(g.order + [e.channelId], g.buckets[e.channelId := [e]])
  }

  /** `g` is the grouping of `msgs`: every message lands in the bucket of
      its channel, in order; the keys are the channels that occur, each
      once. */
  ghost predicate Grouped(g: Grouping, msgs: seq<Entry>) {
    && (forall k :: k in g.buckets <==> k in g.order)
    && (forall i, j | 0 <= i < j < |g.order| :: g.order[i] != g.order[j])
    && (forall i | 0 <= i < |msgs| :: msgs[i].channelId in g.buckets)
    && (forall k | k in g.buckets :: g.buckets[k] == Select(msgs, ChannelIdOf, k) && g.buckets[k] != [])
  }

  lemma SelectSnoc(init: seq<Entry>, last: Entry, k: int)
    ensures Select(init + [last], ChannelIdOf, k)
         == Select(init, ChannelIdOf, k) + (if last.channelId == k then [last] else [])
  {
    SelectConcat(init, [last], ChannelIdOf, k);
    assert Select([last], ChannelIdOf, k) == (if last.channelId == k then [last] else []) + Select([last][1..], ChannelIdOf, k);
  }

  lemma {:induction false} SelectAbsent(msgs: seq<Entry>, k: int)
    requires forall i | 0 <= i < |msgs| :: msgs[i].channelId != k
    ensures Select(msgs, ChannelIdOf, k) == []
  {
    if msgs != [] {
      SelectAbsent(msgs[1..], k);
    }
  }

  lemma {:induction false} PushGrouped(g: Grouping, init: seq<Entry>, last: Entry)
    requires Grouped(g, init)
    ensures Grouped(Push(g, last), init + [last])
  {
    var msgs := init + [last];
    var r := Push(g, last);
    forall k | k in r.buckets
      ensures r.buckets[k] == Select(msgs, ChannelIdOf, k) && r.buckets[k] != []
    {
      SelectSnoc(init, last, k);
      if k != last.channelId {
        assert k in g.buckets;
      } else if k !in g.buckets {
        assert forall i | 0 <= i < |init| :: init[i].channelId != k;
        SelectAbsent(init, k);
      }
    }
    forall i | 0 <= i < |msgs| ensures msgs[i].channelId in r.buckets {
      if i < |init| {
        assert msgs[i] == init[i];
      }
    }
  }

  /** The whole `reduce`, left to right: every message lands in the bucket
      of its channel, in fetched order; the keys are the channels that
      occur, each once, in order of first occurrence. */
  function Group(msgs: seq<Entry>): (r: Grouping)
    ensures forall k :: k in r.buckets <==> k in r.order
    ensures forall i, j | 0 <= i < j < |r.order| :: r.order[i] != r.order[j]
    ensures forall i | 0 <= i < |msgs| :: msgs[i].channelId in r.buckets
    ensures forall k | k in r.buckets :: r.buckets[k] == Select(msgs, ChannelIdOf, k) && r.buckets[k] != []
    decreases |msgs|
  {
    if msgs == [] then Grouping([], map[])
    else
      var init := msgs[..|msgs| - 1];
      var last := msgs[|msgs| - 1];
      assert msgs == init + [last];
      PushGrouped(Group(init), init, last);
      Push(Group(init), last)
  }

  /** `newmap.forEach(...)`: `setMessagesByChannel` once per key in key
      order. Those channels get their bucket; every other channel is left
      alone. */
  function ApplyGroups(s: MessagesByChannel, order: seq<int>, buckets: map<int, seq<Entry>>): (r: MessagesByChannel)
    requires forall i | 0 <= i < |order| :: order[i] in buckets
    ensures forall i | 0 <= i < |order| :: order[i] in r && r[order[i]] == buckets[order[i]]
    ensures forall c | c !in order :: (c in r <==> c in s) && (c in s ==> r[c] == s[c])
    decreases |order|
  {
    if order == [] then s
    else
      var r := ApplyGroups(SetMessagesByChannel(s, order[0], buckets[order[0]]), order[1..], buckets);
      assert forall i | 1 <= i < |order| :: order[i] == order[1..][i - 1];
      r
  }

  /** The message-loading effect. A server id that is negative or zero
      fetches nothing; a failed fetch, the `null` list included, empties
      the store; otherwise each channel that has fetched messages gets
      exactly those, sorted by id, and other channels keep what they had. */
  function LoadMessages(s: MessagesByChannel, serverId: int, response: Response<MessagesBody>): (r: MessagesByChannel)
    ensures serverId <= 0 ==> r == s
    ensures serverId > 0 && (!response.ok || response.body.None?) ==> r == NoMessages
    ensures serverId > 0 && response.ok && response.body.Some? ==>
      var fetched := FetchServerMessages(response).value;
      && (forall i | 0 <= i < |fetched| ::
            fetched[i].channelId in r && r[fetched[i].channelId] == Select(fetched, ChannelIdOf, fetched[i].channelId))
      && (forall c | Select(fetched, ChannelIdOf, c) == [] :: (c in r <==> c in s) && (c in s ==> r[c] == s[c]))
  {
    if serverId < 0 || serverId == 0 then s
    else
      match FetchServerMessages(response)
      case Err(_) => RemoveAllMessages(s)
      case Ok(fetched) =>
        var g := Group(fetched);
        ApplyGroups(s, g.order, g.buckets)
  }

  /** A server whose channels hold no message answers `"messages": null`,
      so `.map` throws and the catch branch empties the store: the
      messages kept for every other channel are lost. An empty list would
      have left them in place. */
  lemma EmptyServerClearsStore(s: MessagesByChannel, serverId: int, statusText: string)
    requires serverId > 0
    ensures LoadMessages(s, serverId, Response(true, statusText, None)) == NoMessages
    ensures LoadMessages(s, serverId, Response(true, statusText, Some([]))) == s
  {
    var fetched := FetchServerMessages(Response(true, statusText, Some([]))).value;
    assert fetched == [];
    var r := LoadMessages(s, serverId, Response(true, statusText, Some([])));
    assert forall c :: Select(fetched, ChannelIdOf, c) == [];
    assert r.Keys == s.Keys;
  }

  // ---------------------------------------------------------------------
  // Navigation

  /** `/servers/${serverId}/channels/${channelId}`. */
  function ChannelPath(serverId: int, channelId: int): string {
    "/servers/" + JsIntString(serverId) + "/channels/" + JsIntString(channelId)
  }

  predicate Listed(channels: seq<ChannelRecord>, channelId: int) {
    exists i | 0 <= i < |channels| :: channels[i].channelId == channelId
  }

  /** The redirect effect: to the first channel exactly when there are
      channels and the current one is not among them. */
  function RedirectTarget(serverId: int, channels: seq<ChannelRecord>, current: int): (r: Option<string>)
    ensures r.Some? <==> |channels| > 0 && forall i | 0 <= i < |channels| :: channels[i].channelId != current
    ensures r.Some? ==> r.value == ChannelPath(serverId, channels[0].channelId)
  {
    if |channels| > 0 && !Listed(channels, current) then Some(ChannelPath(serverId, channels[0].channelId)) else None
  }

  /** Once on the first channel, the redirect does not fire again. */
  lemma RedirectSettles(serverId: int, channels: seq<ChannelRecord>, current: int)
    requires RedirectTarget(serverId, channels, current).Some?
    ensures RedirectTarget(serverId, channels, channels[0].channelId) == None
  {
    assert Listed(channels, channels[0].channelId);
  }

  // ---------------------------------------------------------------------
  // The channel store as the page fills it

  /** The path the redirect builds from a record without `ChannelId`:
      the template literal spells the missing field "undefined". */
  function UndefinedChannelPath(serverId: int): string {
    "/servers/" + JsIntString(serverId) + "/channels/undefined"
  }

  /** The redirect effect over the store as the page fills it: `setChannels`
      receives the `IconInfo` objects of `fetchChannels`, whose
      `channel.ChannelId` is undefined, so `find` never matches and
      `channels[0].ChannelId` is undefined too. */
  function RedirectOverIcons(serverId: int, icons: seq<IconInfo>, current: int): (r: Option<string>)
    ensures r.Some? <==> |icons| > 0
    ensures r.Some? ==> r.value == UndefinedChannelPath(serverId)
  {
    if |icons| > 0 then Some(UndefinedChannelPath(serverId)) else None
  }

  /** A path to the "undefined" channel is the path of no channel. */
  lemma UndefinedPathIsNoChannel(serverId: int, channelId: int)
    ensures UndefinedChannelPath(serverId) != ChannelPath(serverId, channelId)
  {
    var prefix := "/servers/" + JsIntString(serverId) + "/channels/";
    assert UndefinedChannelPath(serverId) == prefix + "undefined";
    assert ChannelPath(serverId, channelId) == prefix + JsIntString(channelId);
    assert (prefix + "undefined")[|prefix|] == 'u';
    assert (prefix + JsIntString(channelId))[|prefix|] == JsIntString(channelId)[0];
  }

  /** As written: whenever the server has channels, even while the page
      shows one of them, it navigates to a path that names none of them. */
  lemma IconStoreRedirectsNowhere(serverId: int, icons: seq<IconInfo>, current: int)
    requires |icons| > 0
    ensures RedirectOverIcons(serverId, icons, current).Some?
    ensures forall i :: 0 <= i < |icons| ==>
      RedirectOverIcons(serverId, icons, current).value != ChannelPath(serverId, icons[i].iconId)
  {
    forall i | 0 <= i < |icons|
      ensures RedirectOverIcons(serverId, icons, current).value != ChannelPath(serverId, icons[i].iconId)
    {
      UndefinedPathIsNoChannel(serverId, icons[i].iconId);
    }
  }

  /** The evident intent: the fetched icons are stored as channel records,
      the icon id becoming `ChannelId`. */
  function ChannelsFromIcons(icons: seq<IconInfo>): (r: seq<ChannelRecord>)
    ensures |r| == |icons|
    ensures forall i :: 0 <= i < |r| ==> r[i].channelId == icons[i].iconId && r[i].channelName == icons[i].name
  {
    seq(|icons|, i requires 0 <= i < |icons| => ChannelRecord(icons[i].iconId, icons[i].name))
  }

  /** Corrected: with converted records the page stays on any fetched
      channel, and otherwise goes to the first fetched channel's own path. */
  lemma ConvertedStoreRedirectsToChannel(serverId: int, icons: seq<IconInfo>, current: int)
    ensures (exists i :: 0 <= i < |icons| && icons[i].iconId == current) ==>
      RedirectTarget(serverId, SetChannels(NoChannels, ChannelsFromIcons(icons)), current) == None
    ensures |icons| > 0 && (forall i :: 0 <= i < |icons| ==> icons[i].iconId != current) ==>
      RedirectTarget(serverId, SetChannels(NoChannels, ChannelsFromIcons(icons)), current)
        == Some(ChannelPath(serverId, icons[0].iconId))
  {
    var channels := ChannelsFromIcons(icons);
    if exists i :: 0 <= i < |icons| && icons[i].iconId == current {
      var i :| 0 <= i < |icons| && icons[i].iconId == current;
      assert channels[i].channelId == current;
    }
  }

  /** `onChannelSelect`: no navigation to the channel already shown. */
  function OnChannelSelect(serverId: int, current: int, newChannelId: int): (r: Option<string>)
    ensures r.None? <==> newChannelId == current
    ensures r.Some? ==> r.value == ChannelPath(serverId, newChannelId)
  {
    if newChannelId == current then None else Some(ChannelPath(serverId, newChannelId))
  }

  /** Selecting a channel and then selecting it again navigates once. */
  lemma SelectTwiceNavigatesOnce(serverId: int, current: int, newChannelId: int)
    requires newChannelId != current
    ensures OnChannelSelect(serverId, current, newChannelId).Some?
    ensures OnChannelSelect(serverId, newChannelId, newChannelId).None?
  {
  }
}

=== FILE: sessions.dfy ===
/** Session checks: `validSession` (identical in backend/internal/server/
    route_helpers.go, internal/server/route_helpers.go and
    internal/server/routes.go), its older form in oldcode/cmd/server/main.go,
    and the lookup of the authenticated user id in a request context.
    `time.Now()` and the stored expiry are integer parameters. */
module Sessions {
  import opened Wrappers
  import opened Bytes
  import opened Database

  /** `validSession(userinfo, usertoken)` evaluated at time `now`. */
  function ValidSession(user: LoginInfo, presented: GoString, now: int): (ok: bool)
    ensures user.token == [] ==> !ok
    ensures now > user.tokenExpireTime ==> !ok
    ensures user.token != [] && now <= user.tokenExpireTime ==> (ok <==> presented == user.token)
  {
    if user.token == [] then false
    else if now > user.tokenExpireTime then false
    else user.token == presented
  }

  /** The older `validSession`: expiry, then plain token equality. */
  function OldValidSession(user: LoginInfo, presented: GoString, now: int): (ok: bool)
    ensures now > user.tokenExpireTime ==> !ok
    ensures now <= user.tokenExpireTime ==> (ok <==> presented == user.token)
  {
    if now > user.tokenExpireTime then false
    else user.token == presented
  }

  /** The current check is the older one plus the empty-token rule: they
      disagree exactly when no token was ever issued and an empty token is
      presented before the (zero) expiry. */
  lemma ValidSessionRefinesOld(user: LoginInfo, presented: GoString, now: int)
    ensures ValidSession(user, presented, now) ==> OldValidSession(user, presented, now)
    ensures OldValidSession(user, presented, now) && !ValidSession(user, presented, now)
        <==> user.token == [] && presented == [] && now <= user.tokenExpireTime
  {
  }

  /** A token just issued by UpdateUserSessionToken validates until its
      expiry, and no other presented token does. */
  lemma IssuedTokenValidates(user: LoginInfo, now: int, later: int, presented: GoString)
    requires UpdateUserSessionToken(user.userId, now, true).Ok?
    requires now <= later <= now + 24 * 60 * 60
    ensures var (token, expiry) := UpdateUserSessionToken(user.userId, now, true).value;
            var stored := user.(token := token, tokenExpireTime := expiry);
            ValidSession(stored, presented, later) <==> presented == token
  {
  }

  /** The value a request context may hold under "userid". */
  datatype ContextValue = Missing | UserIdValue(id: Id) | OtherValue

  datatype ContextError = ErrNoUserId

  /** `getUserIdFromContext`: nil and values of another type are errors. */
  function UserIdFromContext(v: ContextValue): (r: Result<Id, ContextError>)
    ensures r.Ok? <==> v.UserIdValue?
    ensures r.Ok? ==> r.value == v.id
  {
    match v
    case Missing => Err(ErrNoUserId)
    case OtherValue => Err(ErrNoUserId)
    case UserIdValue(id) => Ok(id)
  }
}

=== FILE: sorting.dfy ===
/** `Array.prototype.sort((a, b) => key(a) - key(b))`: since ES2019 the sort is
    stable, so the result is the ascending arrangement of the input in which
    elements with equal keys keep their input order. Modelled as an
    insertion sort on sequences. */
module Sorting {
  import opened Seqs

  ghost predicate SortedBy<T>(s: seq<T>, key: T -> int) {
    forall i, j :: 0 <= i < j < |s| ==> key(s[i]) <= key(s[j])
  }

  /** Inserts `x` before the first element whose key is not smaller. */
  function Insert<T>(x: T, s: seq<T>, key: T -> int): (r: seq<T>)
    ensures multiset(r) == multiset(s) + multiset{x}
    ensures |r| == |s| + 1
    ensures forall j :: 0 <= j < |r| ==> r[j] == x || r[j] in s
  {
    if |s| == 0 || key(x) <= key(s[0]) then [x] + s
    else
      assert s == [s[0]] + s[1..];
      [s[0]] + Insert(x, s[1..], key)
  }

  /** Insertion into a sorted sequence keeps it sorted. */
  lemma {:induction false} InsertSorted<T>(x: T, s: seq<T>, key: T -> int)
    requires SortedBy(s, key)
    ensures SortedBy(Insert(x, s, key), key)
  {
    if |s| != 0 && key(x) > key(s[0]) {
      var tail := s[1..];
      var rest := Insert(x, tail, key);
      InsertSorted(x, tail, key);
      forall j | 0 <= j < |rest|
        ensures key(s[0]) <= key(rest[j])
      {
        if rest[j] != x {
          var i :| 0 <= i < |tail| && tail[i] == rest[j];
          assert tail[i] == s[i + 1];
        }
      }
      var r := [s[0]] + rest;
      assert Insert(x, s, key) == r;
      forall a, b | 0 <= a < b < |r|
        ensures key(r[a]) <= key(r[b])
      {
        assert r[b] == rest[b - 1];
        if a > 0 {
          assert r[a] == rest[a - 1];
        }
      }
    }
  }

  /** The stable ascending sort of `s` by `key`. */
  function SortBy<T>(s: seq<T>, key: T -> int): (r: seq<T>)
    ensures SortedBy(r, key)
    ensures multiset(r) == multiset(s)
    ensures |r| == |s|
  {
    if |s| == 0 then []
    else
      assert s == [s[0]] + s[1..];
      var sortedTail := SortBy(s[1..], key);
      InsertSorted(s[0], sortedTail, key);
      Insert(s[0], sortedTail, key)
  }

  /** Sorting moves elements but never changes them: a property every
      input element has, every output element has. */
  lemma SortByKeeps<T>(s: seq<T>, key: T -> int, p: T -> bool)
    requires forall i :: 0 <= i < |s| ==> p(s[i])
    ensures forall i :: 0 <= i < |SortBy(s, key)| ==> p(SortBy(s, key)[i])
  {
    var r := SortBy(s, key);
    forall i | 0 <= i < |r| ensures p(r[i]) {
      assert r[i] in multiset(r);
      assert r[i] in s;
    }
  }

  /** Inserting `x` adds it to its own key's run, ahead of the run's members. */
  lemma {:induction false} SelectInsert<T>(x: T, s: seq<T>, key: T -> int, k: int)
    ensures Select(Insert(x, s, key), key, k)
         == (if key(x) == k then [x] else []) + Select(s, key, k)
  {
    if |s| == 0 || key(x) <= key(s[0]) {
      assert ([x] + s)[1..] == s;
    } else {
      var rest := Insert(x, s[1..], key);
      assert ([s[0]] + rest)[1..] == rest;
      SelectInsert(x, s[1..], key, k);
    }
  }

  /** Stability: the elements sharing any one key appear in the sorted
      result in exactly their input order. */
  lemma {:induction false} SortByStable<T>(s: seq<T>, key: T -> int, k: int)
    ensures Select(SortBy(s, key), key, k) == Select(s, key, k)
  {
    if |s| != 0 {
      SortByStable(s[1..], key, k);
      SelectInsert(s[0], SortBy(s[1..], key), key, k);
    }
  }

  /** `s.map(f)`. */
  function Apply<T, U>(s: seq<T>, f: T -> U): (r: seq<U>)
    ensures |r| == |s|
    ensures forall i :: 0 <= i < |s| ==> r[i] == f(s[i])
  {
    seq(|s|, i requires 0 <= i < |s| => f(s[i]))
  }

  lemma ApplyCons<T, U>(x: T, s: seq<T>, f: T -> U)
    ensures Apply([x] + s, f) == [f(x)] + Apply(s, f)
  {
  }

  /** Mapping before or after an insertion is the same, when the map keeps keys. */
  lemma {:induction false} InsertApply<T, U>(x: T, s: seq<T>, key: T -> int, f: T -> U, fkey: U -> int)
    requires forall y :: fkey(f(y)) == key(y)
    ensures Insert(f(x), Apply(s, f), fkey) == Apply(Insert(x, s, key), f)
  {
    var mapped := Apply(s, f);
    if |s| == 0 {
      ApplyCons(x, s, f);
    } else {
      assert fkey(mapped[0]) == key(s[0]) && fkey(f(x)) == key(x);
      assert s == [s[0]] + s[1..];
      ApplyCons(s[0], s[1..], f);
      assert mapped[1..] == Apply(s[1..], f);
      if key(x) <= key(s[0]) {
        ApplyCons(x, s, f);
      } else {
        InsertApply(x, s[1..], key, f, fkey);
        ApplyCons(s[0], Insert(x, s[1..], key), f);
      }
    }
  }

  /** Sorting commutes with a map that keeps keys: the mapped elements come
      out in the same order. */
  lemma {:induction false} SortByApply<T, U>(s: seq<T>, key: T -> int, f: T -> U, fkey: U -> int)
    requires forall y :: fkey(f(y)) == key(y)
    ensures SortBy(Apply(s, f), fkey) == Apply(SortBy(s, key), f)
  {
    if |s| != 0 {
      assert Apply(s, f)[1..] == Apply(s[1..], f);
      SortByApply(s[1..], key, f, fkey);
      InsertApply(s[0], SortBy(s[1..], key), key, f, fkey);
    }
  }
}

=== FILE: stores.dfy ===
/** The client's zustand stores: messages by channel
    (frontend/src/store/message_store.ts, whose `addMessage` and
    `removeMessage` frontend/src/store/store.ts repeats word for word), the
    server list (server_store.ts) and the channel list (channel_store.ts).
    Each `set` is a function from the old state to the new one. */
module Stores {
  import opened Wrappers
  import opened Seqs
  import opened Api

  // ---------------------------------------------------------------------
  // Messages by channel

  type MessagesByChannel = map<int, seq<Entry>>

  const NoMessages: MessagesByChannel := map[]

  /** `state.messagesByChannel[channelId] || []`. */
  function Existing(s: MessagesByChannel, channel: int): seq<Entry> {
    if channel in s then s[channel] else []
  }

  /** `setMessagesByChannel`: that channel's list is replaced. */
  function SetMessagesByChannel(s: MessagesByChannel, channel: int, messages: seq<Entry>): (r: MessagesByChannel)
    ensures channel in r && r[channel] == messages
    ensures forall c | c != channel :: (c in r <==> c in s) && (c in s ==> r[c] == s[c])
  {
    s[channel := messages]
  }

  /** `addMessage`: appended at the end of the channel's list, which is
      created when missing. */
  function AddMessage(s: MessagesByChannel, channel: int, message: Entry): (r: MessagesByChannel)
    ensures channel in r && |r[channel]| == |Existing(s, channel)| + 1
    ensures r[channel][..|Existing(s, channel)|] == Existing(s, channel) && r[channel][|Existing(s, channel)|] == message
    ensures forall c | c != channel :: (c in r <==> c in s) && (c in s ==> r[c] == s[c])
  {
    s[channel := Existing(s, channel) + [message]]
  }

  /** `removeMessage`: every message with that id leaves the channel's list
      and the rest keep their order; a missing channel gets an empty list. */
  function RemoveMessage(s: MessagesByChannel, channel: int, messageId: int): (r: MessagesByChannel)
    ensures channel in r && r[channel] == Reject(Existing(s, channel), MessageIdOf, messageId)
    ensures forall i :: 0 <= i < |r[channel]| ==> r[channel][i].messageId != messageId
    ensures channel !in s ==> r[channel] == []
    ensures forall c | c != channel :: (c in r <==> c in s) && (c in s ==> r[c] == s[c])
  {
    s[channel := Reject(Existing(s, channel), MessageIdOf, messageId)]
  }

  /** `removeAllMessages`. */
  function RemoveAllMessages(s: MessagesByChannel): (r: MessagesByChannel)
    ensures forall c :: c !in r
  {
    NoMessages
  }

  /** Removing a message just added removes it and whatever else had its
      id, and nothing more. */
  lemma RemoveAfterAdd(s: MessagesByChannel, channel: int, message: Entry)
    ensures RemoveMessage(AddMessage(s, channel, message), channel, message.messageId)
         == RemoveMessage(s, channel, message.messageId)
  {
    var added := AddMessage(s, channel, message);
    assert Existing(added, channel) == Existing(s, channel) + [message];
    RejectConcat(Existing(s, channel), [message], MessageIdOf, message.messageId);
    assert Reject([message], MessageIdOf, message.messageId) == [];
    var kept := Reject(Existing(s, channel), MessageIdOf, message.messageId);
    assert Reject(Existing(added, channel), MessageIdOf, message.messageId) == kept + [];
    assert kept + [] == kept;
    assert added[channel := kept] == s[channel := kept];
  }

  /** Removing twice is removing once. */
  lemma RemoveMessageIdempotent(s: MessagesByChannel, channel: int, messageId: int)
    ensures RemoveMessage(RemoveMessage(s, channel, messageId), channel, messageId)
         == RemoveMessage(s, channel, messageId)
  {
    RejectIdempotent(Existing(s, channel), MessageIdOf, messageId);
  }

  /** Removing an id that is not there only materialises the channel. */
  lemma RemoveAbsentMessage(s: MessagesByChannel, channel: int, messageId: int)
    requires forall i :: 0 <= i < |Existing(s, channel)| ==> Existing(s, channel)[i].messageId != messageId
    ensures RemoveMessage(s, channel, messageId) == s[channel := Existing(s, channel)]
  {
    RejectAbsent(Existing(s, channel), MessageIdOf, messageId);
  }

  /** Additions to different channels commute. */
  lemma AddMessagesCommute(s: MessagesByChannel, c1: int, m1: Entry, c2: int, m2: Entry)
    requires c1 != c2
    ensures AddMessage(AddMessage(s, c1, m1), c2, m2) == AddMessage(AddMessage(s, c2, m2), c1, m1)
  {
  }

  // ---------------------------------------------------------------------
  // Servers

  datatype ServerState = ServerState(servers: seq<ServerData>, currentServer: Option<int>)

  const NoServers := ServerState([], None)

  function ServerIdOf(s: ServerData): int { s.serverId }

  function SetCurrentServer(s: ServerState, serverId: Option<int>): (r: ServerState)
    ensures r.currentServer == serverId && r.servers == s.servers
  {
    s.(currentServer := serverId)
  }

  function SetServers(s: ServerState, servers: seq<ServerData>): (r: ServerState)
    ensures r.servers == servers && r.currentServer == s.currentServer
  {
    s.(servers := servers)
  }

  function AddServer(s: ServerState, server: ServerData): (r: ServerState)
    ensures |r.servers| == |s.servers| + 1 && r.servers[..|s.servers|] == s.servers
    ensures r.servers[|s.servers|] == server && r.currentServer == s.currentServer
  {
    s.(servers := s.servers + [server])
  }

  /** `removeServer`: every entry with that id goes, the rest keep their
      order; the current server is left as it was, even when removed. */
  function RemoveServer(s: ServerState, serverId: int): (r: ServerState)
    ensures r.servers == Reject(s.servers, ServerIdOf, serverId)
    ensures forall i :: 0 <= i < |r.servers| ==> r.servers[i].serverId != serverId
    ensures r.currentServer == s.currentServer
  {
    s.(servers := Reject(s.servers, ServerIdOf, serverId))
  }

  lemma RemoveAbsentServer(s: ServerState, serverId: int)
    requires forall i :: 0 <= i < |s.servers| ==> s.servers[i].serverId != serverId
    ensures RemoveServer(s, serverId) == s
  {
    RejectAbsent(s.servers, ServerIdOf, serverId);
  }

  /** Every server either survives a removal or had the removed id. */
  lemma RemoveServerPartition(s: ServerState, serverId: int)
    ensures multiset(RemoveServer(s, serverId).servers) + multiset(Select(s.servers, ServerIdOf, serverId))
         == multiset(s.servers)
  {
    SelectRejectPartition(s.servers, ServerIdOf, serverId);
  }

  // ---------------------------------------------------------------------
  // Channels

  /** A channel as the channel store holds it. */
  datatype ChannelRecord = ChannelRecord(channelId: int, channelName: string)

  function ChannelRecordIdOf(c: ChannelRecord): int { c.channelId }

  const NoChannels: seq<ChannelRecord> := []

  function SetChannels(channels: seq<ChannelRecord>, replacement: seq<ChannelRecord>): (r: seq<ChannelRecord>)
    ensures r == replacement
  {
    replacement
  }

  function AddChannel(channels: seq<ChannelRecord>, channel: ChannelRecord): (r: seq<ChannelRecord>)
    ensures |r| == |channels| + 1 && r[..|channels|] == channels && r[|channels|] == channel
  {
    channels + [channel]
  }

  function RemoveChannel(channels: seq<ChannelRecord>, channelId: int): (r: seq<ChannelRecord>)
    ensures r == Reject(channels, ChannelRecordIdOf, channelId)
    ensures forall i :: 0 <= i < |r| ==> r[i].channelId != channelId
  {
    Reject(channels, ChannelRecordIdOf, channelId)
  }

  lemma RemoveAbsentChannel(channels: seq<ChannelRecord>, channelId: int)
    requires forall i :: 0 <= i < |channels| ==> channels[i].channelId != channelId
    ensures RemoveChannel(channels, channelId) == channels
  {
    RejectAbsent(channels, ChannelRecordIdOf, channelId);
  }

  /** Adding a channel and removing its id leaves the other channels as
      they were. */
  lemma RemoveChannelAfterAdd(channels: seq<ChannelRecord>, channel: ChannelRecord)
    ensures RemoveChannel(AddChannel(channels, channel), channel.channelId)
         == RemoveChannel(channels, channel.channelId)
  {
    RejectConcat(channels, [channel], ChannelRecordIdOf, channel.channelId);
    assert Reject([channel], ChannelRecordIdOf, channel.channelId) == [];
  }
}

=== FILE: websocket.dfy ===
/** The connection registry and client lifecycle of
    backend/internal/websocket/websocket.go.

    A client owns a transport connection, a cancellable context, the shared
    incoming queue it forwards frames to ("receive") and its own unbuffered
    send queue. Its two goroutines are stepped explicitly: `ReadStep` is one
    turn of the read loop (one `conn.Read` and what follows it), `WriteStep`
    one turn of the write loop's `select`. A Go panic (closing or sending on a
    closed channel) stops the whole process; the model records why and every
    later step is a no-op. The close codes are those of section 7.4.1 of
    RFC 6455: 1000 normal closure, 1006 abnormal closure. */
module WebSocket {
  import opened Wrappers
  import opened Bytes

  type ClientId = string
  type StatusCode = int
  type MessageType = int

  const StatusNormalClosure: StatusCode := 1000
  const StatusAbnormalClosure: StatusCode := 1006
  const MessageText: MessageType := 1
  const MessageBinary: MessageType := 2

  /** Capacity of the incoming queue that NewConnection creates. */
  const IncomingCapacity: nat := 100

  datatype IncomingMessage = IncomingMessage(payload: GoString)
  datatype Frame = Frame(kind: MessageType, payload: GoString)

  datatype Loop = Running | Stopped

  datatype PanicReason =
    | CloseOfClosedReceive   // `close(c.receive)` a second time
    | CloseOfClosedSend      // `close(client.send)` a second time
    | SendOnClosedReceive    // `c.receive <- msg` after the queue was closed
    | SendOnClosedSend       // `client.send <- message` after the queue was closed

  datatype Client = Client(
    id: ClientId,
    cancelled: bool,                 // the context's cancel function has run
    receiveClosed: bool,
    receiveCapacity: nat,
    sendClosed: bool,
    closed: bool,                    // the flag `close` tests
    incoming: seq<IncomingMessage>,  // everything put on the receive queue, in order
    written: seq<Frame>,             // every frame handed to `conn.Write`, in order
    closeStatuses: seq<StatusCode>,  // every `conn.Close` call, in order
    reader: Loop,
    writer: Loop,
    panic: Option<PanicReason>)

  /** `newWebSocketClient`: both loops running, nothing closed. */
  function NewClient(id: ClientId, capacity: nat): (c: Client)
    ensures c.id == id && c.receiveCapacity == capacity
    ensures c.reader == Running && c.writer == Running
    ensures !c.cancelled && !c.receiveClosed && !c.sendClosed && !c.closed
    ensures c.incoming == [] && c.written == [] && c.closeStatuses == [] && c.panic == None
  {
    Client(id, false, false, capacity, false, false, [], [], [], Running, Running, None)
  }

  // ---------------------------------------------------------------------
  // close

  datatype CloseError = ErrAlreadyClosed | ErrTransport

  datatype Closing = Closing(client: Client, result: Result<(), CloseError>)

  /** `close(status)` as written. `transportFails` is the transport's answer
      to `conn.Close`; the loops ignore the returned error. The `closed`
      flag is tested but never set, so a second call goes on to close the
      receive queue again, which panics. */
  function Close(c: Client, status: StatusCode, transportFails: bool): (r: Closing)
    ensures c.closed ==> r == Closing(c, Err(ErrAlreadyClosed))
    ensures !c.closed && !c.receiveClosed ==>
      (r.client == c.(cancelled := true, receiveClosed := true, closeStatuses := c.closeStatuses + [status])
       && (r.result.Ok? <==> !transportFails))
    ensures !c.closed && c.receiveClosed ==>
      (r.client == c.(cancelled := true, panic := Some(CloseOfClosedReceive)) && r.client.closeStatuses == c.closeStatuses)
    ensures !r.client.closed <== !c.closed
  {
    if c.closed then Closing(c, Err(ErrAlreadyClosed))
    else if c.receiveClosed then
      // `cancel` has run; `close(c.receive)` panics before the transport is touched
      Closing(c.(cancelled := true, panic := Some(CloseOfClosedReceive)), Ok(()))
    else
      var c' := c.(cancelled := true, receiveClosed := true, closeStatuses := c.closeStatuses + [status]);
      Closing(c', if transportFails then Err(ErrTransport) else Ok(()))
  }

  /** The intended `close`: the first call sets the flag, so every later call
      is refused before it touches the context, the queue or the transport. */
  function CloseOnce(c: Client, status: StatusCode, transportFails: bool): (r: Closing)
    ensures c.closed ==> r == Closing(c, Err(ErrAlreadyClosed))
    ensures !c.closed ==> r.client.closed
    ensures !c.closed && !c.receiveClosed ==>
      (r.client == c.(cancelled := true, receiveClosed := true, closed := true,
                      closeStatuses := c.closeStatuses + [status])
       && (r.result.Ok? <==> !transportFails))
  {
    if c.closed then Closing(c, Err(ErrAlreadyClosed))
    else
      var r := Close(c, status, transportFails);
      Closing(r.client.(closed := true), r.result)
  }

  /** Which `close` the loops call. */
  datatype Variant = AsWritten | Corrected

  function CloseWith(v: Variant, c: Client, status: StatusCode): (r: Client)
    ensures v == Corrected ==> r == CloseOnce(c, status, false).client
    ensures v == AsWritten ==> r == Close(c, status, false).client
  {
    match v
    case AsWritten => Close(c, status, false).client
    case Corrected => CloseOnce(c, status, false).client
  }

  // ---------------------------------------------------------------------
  // The read and write loops

  /** What one `conn.Read` returns: a frame, or an error that is or is not
      the context's cancellation. */
  datatype ReadResult = Got(kind: MessageType, payload: GoString) | Failed(cancellation: bool)

  /** One turn of the read loop. Text and binary frames are forwarded with
      their payload unchanged and the loop goes on; other frame kinds are
      ignored; an error closes with 1000 when it is the cancellation and
      1006 otherwise, and the loop stops. */
  function ReadStep(c: Client, e: ReadResult, v: Variant): (r: Client)
    ensures c.reader == Stopped || c.panic.Some? ==> r == c
    ensures r.id == c.id && r.sendClosed == c.sendClosed && r.written == c.written && r.writer == c.writer
    ensures c.reader == Running && c.panic == None && e.Got? && (e.kind == MessageText || e.kind == MessageBinary) ==>
      (if c.receiveClosed then r == c.(panic := Some(SendOnClosedReceive))
       else r == c.(incoming := c.incoming + [IncomingMessage(e.payload)]))
    ensures c.reader == Running && c.panic == None && e.Got? && e.kind != MessageText && e.kind != MessageBinary ==> r == c
    ensures c.reader == Running && c.panic == None && e.Failed? ==>
      r == CloseWith(v, c, if e.cancellation then StatusNormalClosure else StatusAbnormalClosure).(reader := Stopped)
  {
    if c.reader == Stopped || c.panic.Some? then c
    else
      match e
      case Failed(cancellation) =>
        var status := if cancellation then StatusNormalClosure else StatusAbnormalClosure;
        CloseWith(v, c, status).(reader := Stopped)
      case Got(kind, payload) =>
        if kind == MessageText || kind == MessageBinary then
          if c.receiveClosed then c.(panic := Some(SendOnClosedReceive))
          else c.(incoming := c.incoming + [IncomingMessage(payload)])
        else c
  }

  /** The cases the write loop's `select` can take. `Dequeued` is the
      receiving half of a hand-over accepted by SendToClient, together with
      the transport's answer to the write. */
  datatype WriteEvent = Cancelled | QueueClosed | Dequeued(message: GoString, writeOk: bool)

  /** Whether the `select` can take that case in this state. */
  predicate WriteEnabled(c: Client, e: WriteEvent) {
    match e
    case Cancelled => c.cancelled
    case QueueClosed => c.sendClosed
    case Dequeued(_, _) => !c.sendClosed
  }

  /** One turn of the write loop. Cancellation stops it without closing; a
      closed send queue closes with 1000; a dequeued message is written as
      one text frame, and a failed write closes with 1006. A case the
      `select` cannot take leaves the loop blocked. */
  function WriteStep(c: Client, e: WriteEvent, v: Variant): (r: Client)
    ensures c.writer == Stopped || c.panic.Some? || !WriteEnabled(c, e) ==> r == c
    ensures r.id == c.id && r.sendClosed == c.sendClosed && r.incoming == c.incoming && r.reader == c.reader
    ensures c.writer == Running && c.panic == None && e == Cancelled && c.cancelled ==> r == c.(writer := Stopped)
    ensures c.writer == Running && c.panic == None && e == QueueClosed && c.sendClosed ==>
      r == CloseWith(v, c, StatusNormalClosure).(writer := Stopped)
    ensures c.writer == Running && c.panic == None && e.Dequeued? && !c.sendClosed ==>
      (r.written == c.written + [Frame(MessageText, e.message)]
       && (e.writeOk ==> r == c.(written := r.written))
       && (!e.writeOk ==> r == CloseWith(v, c.(written := r.written), StatusAbnormalClosure).(writer := Stopped)))
  {
    if c.writer == Stopped || c.panic.Some? || !WriteEnabled(c, e) then c
    else
      match e
      case Cancelled => c.(writer := Stopped)
      case QueueClosed => CloseWith(v, c, StatusNormalClosure).(writer := Stopped)
      case Dequeued(message, writeOk) =>
        var c' := c.(written := c.written + [Frame(MessageText, message)]);
        if writeOk then c' else CloseWith(v, c', StatusAbnormalClosure).(writer := Stopped)
  }

  /** `close(client.send)`, done by the registry's CloseConnection. */
  function CloseSend(c: Client): (r: Client)
    ensures c.panic.Some? ==> r == c
    ensures c.panic == None && !c.sendClosed ==> r == c.(sendClosed := true)
    ensures c.panic == None && c.sendClosed ==> r == c.(panic := Some(CloseOfClosedSend))
  {
    if c.panic.Some? then c
    else if c.sendClosed then c.(panic := Some(CloseOfClosedSend))
    else c.(sendClosed := true)
  }

  // ---------------------------------------------------------------------
  // Traces of one client

  datatype Event = Read(read: ReadResult) | Write(write: WriteEvent) | SendClosed

  function Step(c: Client, e: Event, v: Variant): (r: Client)
    ensures r.id == c.id
  {
    match e
    case Read(read) => ReadStep(c, read, v)
    case Write(write) => WriteStep(c, write, v)
    case SendClosed => CloseSend(c)
  }

  function Run(c: Client, events: seq<Event>, v: Variant): (r: Client)
    ensures r.id == c.id
    decreases |events|
  {
    if |events| == 0 then c else Run(Step(c, events[0], v), events[1..], v)
  }

  /** As written, a client whose send queue is closed by CloseConnection
      panics: the write loop closes it with 1000 and cancels the context,
      the read loop's pending `conn.Read` then fails with the cancellation,
      and its own call to `close` closes the receive queue a second time. */
  lemma CloseTwicePanics(id: ClientId)
    ensures var c := Run(NewClient(id, IncomingCapacity), [SendClosed, Write(QueueClosed), Read(Failed(true))], AsWritten);
            c.panic == Some(CloseOfClosedReceive) && c.closeStatuses == [StatusNormalClosure]
  {
    var c0 := NewClient(id, IncomingCapacity);
    var c1 := Step(c0, SendClosed, AsWritten);
    var c2 := Step(c1, Write(QueueClosed), AsWritten);
    var c3 := Step(c2, Read(Failed(true)), AsWritten);
    assert c3.panic == Some(CloseOfClosedReceive);
    assert Run(c3, [], AsWritten) == c3;
    assert Run(c2, [Read(Failed(true))], AsWritten) == c3;
    assert Run(c1, [Write(QueueClosed), Read(Failed(true))], AsWritten) == c3;
  }

  /** The same events with the corrected close: one transport close, with
      the status of the loop that closed first, and no panic. */
  lemma CloseOnceSameTrace(id: ClientId)
    ensures var c := Run(NewClient(id, IncomingCapacity), [SendClosed, Write(QueueClosed), Read(Failed(true))], Corrected);
            c.panic == None && c.closeStatuses == [StatusNormalClosure]
            && c.reader == Stopped && c.writer == Stopped
  {
    var c0 := NewClient(id, IncomingCapacity);
    var c1 := Step(c0, SendClosed, Corrected);
    var c2 := Step(c1, Write(QueueClosed), Corrected);
    var c3 := Step(c2, Read(Failed(true)), Corrected);
    assert Run(c3, [], Corrected) == c3;
    assert Run(c2, [Read(Failed(true))], Corrected) == c3;
    assert Run(c1, [Write(QueueClosed), Read(Failed(true))], Corrected) == c3;
  }

  /** The bookkeeping the corrected close keeps: the flag, the closed
      receive queue and the single transport close go together. */
  ghost predicate CloseConsistent(c: Client) {
    && (c.closed <==> c.receiveClosed)
    && (c.closed ==> c.cancelled)
    && |c.closeStatuses| == (if c.closed then 1 else 0)
    && c.panic != Some(CloseOfClosedReceive)
  }

  lemma StepKeepsCloseConsistent(c: Client, e: Event)
    requires CloseConsistent(c)
    ensures CloseConsistent(Step(c, e, Corrected))
  {
  }

  /** With the corrected close, no sequence of loop steps closes the receive
      queue twice or the transport more than once. */
  lemma {:induction false} CorrectedNeverClosesTwice(c: Client, events: seq<Event>)
    requires CloseConsistent(c)
    ensures var r := Run(c, events, Corrected);
            CloseConsistent(r) && r.panic != Some(CloseOfClosedReceive) && |r.closeStatuses| <= 1
    decreases |events|
  {
    if |events| != 0 {
      StepKeepsCloseConsistent(c, events[0]);
      CorrectedNeverClosesTwice(Step(c, events[0], Corrected), events[1..]);
    }
  }

  /** A frame that `conn.Read` returned just before the write loop closed
      the receive queue is still forwarded, and that send panics under
      either close; the once-guard does not cover it. */
  lemma ForwardAfterClosePanics(id: ClientId, v: Variant, payload: GoString)
    ensures var c := Run(NewClient(id, IncomingCapacity), [SendClosed, Write(QueueClosed), Read(Got(MessageText, payload))], v);
            c.panic == Some(SendOnClosedReceive)
  {
    var c0 := NewClient(id, IncomingCapacity);
    var c1 := Step(c0, SendClosed, v);
    var c2 := Step(c1, Write(QueueClosed), v);
    var c3 := Step(c2, Read(Got(MessageText, payload)), v);
    assert c3.panic == Some(SendOnClosedReceive);
    assert Run(c3, [], v) == c3;
    assert Run(c2, [Read(Got(MessageText, payload))], v) == c3;
    assert Run(c1, [Write(QueueClosed), Read(Got(MessageText, payload))], v) == c3;
  }

  // ---------------------------------------------------------------------
  // The registry

  /** `WebSocketManager`: registered clients by id. A client removed from
      the map keeps running until its loops stop; CloseConnection hands it
      back to the caller. */
  datatype Manager = Manager(clients: map<ClientId, Client>)

  const EmptyManager := Manager(map[])

  /** Registered clients are filed under their own id and their send queue
      is open. */
  ghost predicate Valid(m: Manager) {
    forall id | id in m.clients :: m.clients[id].id == id && !m.clients[id].sendClosed
  }

  datatype Connected = Connected(manager: Manager, id: ClientId, client: Client)

  /** `NewConnection`, with the generated uuid as the parameter `newId`. */
  function NewConnection(m: Manager, newId: ClientId): (r: Connected)
    ensures r.id == newId
    ensures r.manager.clients == m.clients[newId := r.client]
    ensures r.client == NewClient(newId, IncomingCapacity)
    ensures newId !in m.clients ==> |r.manager.clients| == |m.clients| + 1
  {
    var c := NewClient(newId, IncomingCapacity);
    Connected(Manager(m.clients[newId := c]), newId, c)
  }

  datatype Disconnected = Disconnected(manager: Manager, closed: Option<Client>)

  /** `CloseConnection`: a registered id is deleted and its client's send
      queue is closed; an unknown id changes nothing. */
  function CloseConnection(m: Manager, id: ClientId): (r: Disconnected)
    ensures id !in m.clients ==> r == Disconnected(m, None)
    ensures id in m.clients ==>
      (r.manager.clients == m.clients - {id} && r.closed == Some(CloseSend(m.clients[id])))
    ensures id !in r.manager.clients
  {
    if id !in m.clients then Disconnected(m, None)
    else Disconnected(Manager(m.clients - {id}), Some(CloseSend(m.clients[id])))
  }

  /** Closing twice: the second call finds nothing and changes nothing. */
  lemma CloseConnectionTwice(m: Manager, id: ClientId)
    ensures var once := CloseConnection(m, id).manager;
            CloseConnection(once, id) == Disconnected(once, None)
  {
  }

  datatype SendOutcome = NotFound | Accepted | Dropped | Panicked(reason: PanicReason)

  /** SendToClient's outcome and the registry after it. */
  datatype Sending = Sending(outcome: SendOutcome, manager: Manager)

  /** `SendToClient`: a non-blocking hand-over of `message` on the client's
      unbuffered send queue. `ready` says whether the write loop is waiting
      in its `select`; a stopped write loop never takes a message. An
      accepted message is the write loop's `Dequeued` case, with `writeOk`
      the transport's answer to the write; in every other outcome nothing
      changes. */
  function SendToClient(m: Manager, id: ClientId, message: GoString, ready: bool, writeOk: bool, v: Variant): (r: Sending)
    ensures id !in m.clients <==> r.outcome == NotFound
    ensures r.outcome == Accepted <==> (id in m.clients && !m.clients[id].sendClosed && ready && m.clients[id].writer == Running)
    ensures r.outcome.Panicked? <==> (id in m.clients && m.clients[id].sendClosed)
    ensures r.outcome == Accepted ==> r.manager == StepClient(m, id, Write(Dequeued(message, writeOk)), v)
    ensures r.outcome != Accepted ==> r.manager == m
  {
    if id !in m.clients then Sending(NotFound, m)
    else
      var c := m.clients[id];
      if c.sendClosed then Sending(Panicked(SendOnClosedSend), m)
      else if ready && c.writer == Running then Sending(Accepted, StepClient(m, id, Write(Dequeued(message, writeOk)), v))
      else Sending(Dropped, m)
  }

  /** The boolean SendToClient returns. */
  predicate Sent(r: Sending) { r.outcome == Accepted }

  /** Advancing a registered client's goroutines by one event. */
  function StepClient(m: Manager, id: ClientId, e: Event, v: Variant): (r: Manager)
    ensures r.clients.Keys == m.clients.Keys
    ensures id in m.clients ==> r.clients == m.clients[id := Step(m.clients[id], e, v)]
    ensures id !in m.clients ==> r == m
  {
    if id in m.clients then Manager(m.clients[id := Step(m.clients[id], e, v)]) else m
  }

  lemma NewConnectionValid(m: Manager, newId: ClientId)
    requires Valid(m)
    ensures Valid(NewConnection(m, newId).manager)
  {
  }

  lemma CloseConnectionValid(m: Manager, id: ClientId)
    requires Valid(m)
    ensures Valid(CloseConnection(m, id).manager)
  {
  }

  /** Loop steps never close the send queue; only CloseConnection does, and
      it unregisters the client first. */
  lemma StepClientValid(m: Manager, id: ClientId, e: Event, v: Variant)
    requires Valid(m) && e != SendClosed
    ensures Valid(StepClient(m, id, e, v))
  {
  }

  /** In a valid registry SendToClient never panics: it finds the client
      and either hands the message over or drops it, or reports it missing. */
  lemma SendNeverPanics(m: Manager, id: ClientId, message: GoString, ready: bool, writeOk: bool, v: Variant)
    requires Valid(m)
    ensures SendToClient(m, id, message, ready, writeOk, v).outcome in {NotFound, Accepted, Dropped}
  {
  }

  /** A message SendToClient accepts is written by the client's write loop
      as one text frame with the same bytes, and no other client changes. */
  lemma AcceptedIsWritten(m: Manager, id: ClientId, message: GoString, ready: bool, writeOk: bool, v: Variant)
    requires Valid(m) && Sent(SendToClient(m, id, message, ready, writeOk, v)) && m.clients[id].panic == None
    ensures var after := SendToClient(m, id, message, ready, writeOk, v).manager;
            after.clients.Keys == m.clients.Keys
            && after.clients[id].written == m.clients[id].written + [Frame(MessageText, message)]
            && (forall other | other in m.clients && other != id :: after.clients[other] == m.clients[other])
  {
  }

  /** Once a client's write loop has stopped, every send to it is dropped. */
  lemma StoppedWriterDrops(m: Manager, id: ClientId, message: GoString, ready: bool, writeOk: bool, v: Variant)
    requires Valid(m) && id in m.clients && m.clients[id].writer == Stopped
    ensures SendToClient(m, id, message, ready, writeOk, v) == Sending(Dropped, m)
  {
  }
}

=== FILE: wrappers.dfy ===
/** Failure-compatible wrappers shared by every module of the model:
    `Option` for values Go or TypeScript may leave out, and `Result` for
    the `(value, error)` pairs that Go functions return. */
module Wrappers {

  datatype Option<+T> = None | Some(value: T) {

    /** The value, or `default` when there is none. */
    function GetOr(default: T): T {
      match this
      case Some(v) => v
      case None => default
    }
  }

  datatype Result<+T, +E> = Ok(value: T) | Err(error: E) {

    predicate IsFailure() {
      Err?
    }

    function PropagateFailure<U>(): Result<U, E>
      requires Err?
    {
      Err(error)
    }

    function Extract(): T
      requires Ok?
    {
      value
    }
  }
}
